=== FILE: README.md ===
# Outlook AI assistant: the analysis rules and mail adapters, in Dafny

This project models the deterministic core of an Outlook mail assistant and
proves properties about it. The assistant has a Node server and a browser
client.

- **`AIService` (server).** This is the heuristic email analyser. Eight
  keyword rules build one analysis record:
  - a summary;
  - key points;
  - sentiment;
  - priority;
  - a suggested action;
  - the customer's intent;
  - urgency;
  - the estimated business value.

  An optional enhancement step may add keys over that record.
  `generateReply` picks its reply template from the customer intent of the
  record.
- **`AINotesManager` (client).** This is a simpler rule set. It stores one
  note per email id, and those notes are listed in the order they were first
  inserted. The client's `formatDate` turns elapsed time into "just now",
  minutes, hours or days ago.
- **The Microsoft Graph adapter.** This part covers:
  - the recipient lists (`formatRecipients`);
  - the message record (`formatEmail`);
  - the query string of the message list;
  - the message object posted to `sendMail`.
- **The IMAP/SMTP mail service.** This part covers:
  - which provider configuration is built from the environment;
  - the port fallback;
  - the IMAP search criteria and the paging window of a listing;
  - the fixed demo mailbox;
  - the newest-first ordering of fetched messages;
  - how a send is dispatched in demo and real mode.

The modules are these:

- **Supporting modules:**
  - `Wrappers`: the `Option` and `Result` types.
  - `JsText`: JavaScript string behaviour — `includes`, `toLowerCase`,
    `parseInt`, `slice` and decimal rendering.
  - `Json`: JSON values.
  - `Patterns`: one scanner for each regular expression the analyser uses.
  - `Keywords`: first match, first applicable rule, and the count of
    distinct words present.
- **One module per core file**, each with a properties module beside it:
  - `Analyzer` and `AnalyzerProperties`;
  - `Notes` and `NotesProperties`;
  - `Graph` and `GraphProperties`;
  - `MailService` and `MailServiceProperties`.

Some of the source works by updating state or running loops:

- the loops of `extractKeyPoints`, `analyzeSentiment`, `calculatePriority`
  and `calculateUrgency`;
- the note store;
- the query and message builders;
- the service configuration;
- the in-place sort.

Each of these is a `method` or a `class`, proved against a specification
function. The properties are then proved about that function.

## Model

| member | source | states |
|---|---|---|
| JsText.Contains | server/services/ai.service.js:79 | `includes`: true exactly when the word occurs at some position of the text |
| JsText.ContainsExtend | server/services/ai.service.js:79 | a word contained in a text stays contained when text is added on either side |
| JsText.Lower | server/services/ai.service.js:63 | `toLowerCase` keeps the length and lowers each character independently: `A`-`Z` to `a`-`z`, the Kelvin sign to `k`, every other character kept |
| JsText.LowerAppend | server/services/ai.service.js:252 | lower-casing distributes over concatenation |
| JsText.ParseInt | server/services/email.service.js:58 | `parseInt` yields a number only when the text holds a digit |
| JsText.ParseDecimal | server/services/email.service.js:58 | `parseInt` reads a rendered integer back exactly |
| JsText.ParseDigitString | server/services/ai.service.js:287 | `parseInt` of a non-empty digit string is its base-10 value |
| JsText.ParseUnsigned | server/services/email.service.js:58 | text starting with neither white space nor a sign reads as its leading magnitude, NaN when that has no digit |
| JsText.ParseNegative | server/services/email.service.js:58 | text starting with `-` reads as the negated magnitude that follows |
| JsText.DecimalRun | server/services/ai.service.js:287 | digits not starting `0x` are read in base 10 up to the first non-digit |
| JsText.ParseNatDigits | server/services/email.service.js:58 | a rendered natural number reads back as itself |
| JsText.ParseNegativeDigits | server/services/email.service.js:58 | `-` followed by a rendered natural number reads back as its negation |
| JsText.ParseCountThenText | server/services/email.service.js:58 | a rendered count followed by a space and more text reads back as the count |
| JsText.Slice | server/services/email.service.js:166 | `slice` with `0 <= start <= end <= n` is the sub-sequence `[start, end)`; never longer than the input |
| JsText.RelativeIndex | server/services/email.service.js:166 | an index in [0, n] is kept; a negative index k counts from the back as n + k, clamped at 0; an index past n becomes n |
| Patterns.StripTags | server/services/ai.service.js:48 | after removing `<[^>]*>` no `<` is followed by a `>`; only characters of the input remain |
| Patterns.StripTagsIdempotent | server/services/ai.service.js:48 | stripping tags twice is the same as once |
| Patterns.Collapse | server/services/ai.service.js:49 | `\s+` → one space: empty only for empty input, no two adjacent spaces, every white space left is a plain space |
| Patterns.Trim | server/services/ai.service.js:50 | the trimmed text starts and ends with a non-space |
| Patterns.TrimKeepsText | server/services/ai.service.js:50 | `trim` removes only white space: the non-space characters are kept in order |
| Patterns.CleanProperties | server/services/ai.service.js:47-50 | the cleaned text is tag-free, has no double space, is trimmed, and keeps every non-space character of the tag-stripped text in order |
| Patterns.NumberTokens | server/services/ai.service.js:91 | `\d+[,.]?\d*` finds no token exactly when the text has no ASCII digit; each token is number-shaped and occurs in the text |
| Patterns.NumberTokenLongest | server/services/ai.service.js:91 | the greedy match at a digit is the longest number-shaped prefix there |
| Patterns.NumberTokensAtDigit | server/services/ai.service.js:91 | at a digit the global match takes the greedy match, then continues after it |
| Patterns.NumberTokensSkip | server/services/ai.service.js:91 | a leading non-digit is skipped |
| Patterns.NumberTokensSkipPrefix | server/services/ai.service.js:91 | any run of leading non-digits is skipped |
| Patterns.NumberTokensFrom | server/services/ai.service.js:91 | the first match is the greedy match at the first digit of the text, and the later matches are those of the text after it |
| Patterns.HasLargeAmount | server/services/ai.service.js:181 | `\$?\d{4,}\|\d+[kKmM]` matches exactly when four digits, or digits followed by k/K/m/M, occur somewhere |
| Patterns.LargeAmountAtMeaning | server/services/ai.service.js:181 | the scanner at one position agrees with the pattern: a match found is a match, and a match starting at the position is found |
| Patterns.LargeAmountExtend | server/services/ai.service.js:181 | a large amount stays matched when text is added on either side |
| Patterns.FindAmount | server/services/ai.service.js:283 | the search returns the leftmost position where an amount starts, and `None` only when there is none |
| Patterns.FirstAmount | server/services/ai.service.js:283-286 | the first match of `\$[\d,]+\|\d+[kKmM]\|[\d,]+\s*元` is the token at the leftmost start; none exactly when no position starts one |
| Keywords.FirstMatch | server/services/ai.service.js:78-86 | the first listed word contained in the text; `None` exactly when none is contained |
| Keywords.FirstMatchAt | server/services/ai.service.js:78-86 | when word `k` is contained and no earlier one is, it is the match |
| Keywords.FindFirst | server/services/ai.service.js:78-86 | the loop with `break` returns the first listed word the text contains, `None` when none is |
| Keywords.FirstRule | server/services/ai.service.js:237-245 | the tag of the first rule with a contained word; `None` exactly when no rule applies |
| Keywords.FirstRuleAt | server/services/ai.service.js:237-245 | the first applicable rule decides |
| Keywords.CountPresent | server/services/ai.service.js:131-141 | the `forEach` loop counts the listed words present |
| Keywords.CountIsPresent | server/services/ai.service.js:131-141 | the count is the number of listed words present, each counted once however often it occurs |
| Keywords.PresentSnoc | server/services/ai.service.js:131-141 | adding a word to the list adds it to the present words exactly when the text contains it |
| Keywords.CountSubsumed | server/services/ai.service.js:131-141 | when every listed word contained in one text is contained in another, the second count is at least the first |
| Keywords.CountPositive | server/services/ai.service.js:131-147 | a count is positive exactly when some listed word occurs |
| Keywords.CountTwo | server/services/ai.service.js:143-145 | a count reaches 2 exactly when two different listed words occur |
| Keywords.AppendKeepsWords | server/services/ai.service.js:160-176 | appending text never lowers the count of lower-cased listed words |
| Analyzer.GenerateSummary | server/services/ai.service.js:43-56 | falsy content gives `無內容`; a summary is at most 153 characters |
| AnalyzerProperties.SummaryShape | server/services/ai.service.js:43-56 | for non-empty content: the first min(150, \|clean\|) characters of the cleaned text, then `...` exactly when the cleaned text is longer than 150; the kept part is tag-free and has no double space |
| Analyzer.ExtractKeyPoints | server/services/ai.service.js:59-101 | the nested loop with `break` builds exactly the key points of the specification |
| Analyzer.CollectPoints | server/services/ai.service.js:77-88 | the loop over the categories yields one entry per category with a contained keyword, in table order, naming the first such keyword |
| AnalyzerProperties.RowPointMeaning | server/services/ai.service.js:78-86 | one category row yields (category, word) exactly when the word is its first contained keyword |
| AnalyzerProperties.RowMatchesSnoc | server/services/ai.service.js:77-88 | a row matching (category, word) is found in the table exactly when it is in the earlier rows or is the last row |
| AnalyzerProperties.CategoryPointsShape | server/services/ai.service.js:77-88 | no more entries than categories, each a keyword entry of a category of the table |
| AnalyzerProperties.CategoryPointsDistinct | server/services/ai.service.js:77-88 | a table with distinct categories never yields the same category twice |
| AnalyzerProperties.NumbersPartShape | server/services/ai.service.js:90-98 | at most one numbers entry, present exactly when the text has a digit; it holds the first min(3, n) of the n matches, each number-shaped and taken from the text, the first being the greedy match at the first digit |
| AnalyzerProperties.CategoryPointsMeaning | server/services/ai.service.js:77-88 | an entry (category, keyword) is produced exactly when the keyword is the first contained word of that category's row |
| AnalyzerProperties.KeywordTableDistinct | server/services/ai.service.js:66-75 | the eight categories of the table are distinct |
| AnalyzerProperties.KeyPointsShape | server/services/ai.service.js:59-101 | at most 9 entries; categories are never repeated; keyword entries come before the numbers entry |
| AnalyzerProperties.KeyPointsKeywords | server/services/ai.service.js:63-88 | keyword entries are searched for in the tag-stripped, lower-cased text, one per category with a match |
| AnalyzerProperties.KeyPointsNumbers | server/services/ai.service.js:90-98 | the numbers entry is last, present exactly when the text has a digit, and holds the first min(3, n) matches of the number pattern |
| Analyzer.AnalyzeSentiment | server/services/ai.service.js:104-148 | the counting loops compute the specified sentiment |
| AnalyzerProperties.SentimentRule | server/services/ai.service.js:104-148 | urgent when two different urgent words occur; otherwise negative on two negative words; otherwise positive on two positive words; otherwise neutral (both directions for each) |
| AnalyzerProperties.UrgentAndAsapAreUrgent | server/services/ai.service.js:116-143 | "urgent" with "asap" is urgent whatever else the text says |
| Analyzer.CalculatePriority | server/services/ai.service.js:151-188 | the accumulating loops compute the specified priority |
| AnalyzerProperties.PriorityScoreGrows | server/services/ai.service.js:154-187 | a score whose parts (subject words, urgent and business words, large amount) do not shrink gives no lower priority |
| AnalyzerProperties.PriorityMonotoneContent | server/services/ai.service.js:151-188 | appending text to the content never lowers the priority |
| AnalyzerProperties.PriorityMonotoneSubject | server/services/ai.service.js:151-188 | appending text to the subject never lowers the priority |
| AnalyzerProperties.UrgentOrderIsHigh | server/services/ai.service.js:157-185 | an "urgent" subject on content mentioning an order and a contract is high priority (20 + 15 + 15) |
| Analyzer.SuggestAction | server/services/ai.service.js:191-192 | the action is `查看郵件` exactly when the content is falsy, even with a subject |
| AnalyzerProperties.SuggestActionRule | server/services/ai.service.js:194-218 | the first matching rule decides, in the order quote, meeting, confirm, problem, order, urgent |
| AnalyzerProperties.SuggestActionDefault | server/services/ai.service.js:194-220 | with no rule word in content plus subject, the action is `查看並回覆郵件` |
| AnalyzerProperties.QuoteComesFirst | server/services/ai.service.js:196-198 | a mention of "quote" wins over every later rule |
| Analyzer.AnalyzeIntent | server/services/ai.service.js:224-225 | the intent is `unknown` exactly when the content is falsy |
| AnalyzerProperties.IntentRule | server/services/ai.service.js:229-243 | the first intent (inquiry, purchase, complaint, follow_up, negotiation) with a contained keyword is returned |
| AnalyzerProperties.IntentDefault | server/services/ai.service.js:237-245 | no keyword of any intent gives `general` |
| AnalyzerProperties.QuestionBeforeOrder | server/services/ai.service.js:230-231 | text with "question" and "order" is an inquiry |
| AnalyzerProperties.KelvinSignLowers | server/services/ai.service.js:224-245 | `AS` followed by the Kelvin sign lowers to `ask` and is an inquiry |
| Analyzer.CalculateUrgency | server/services/ai.service.js:249-274 | the accumulating loop computes the specified urgency |
| AnalyzerProperties.WeightedAtLeast | server/services/ai.service.js:266-268 | two occurring words both add their weights |
| AnalyzerProperties.WeightedOnly | server/services/ai.service.js:266-268 | when only one listed word occurs, the score is its weight |
| AnalyzerProperties.WeightedAtLeastOne | server/services/ai.service.js:266-268 | an occurring word adds at least its weight |
| AnalyzerProperties.WeightedNone | server/services/ai.service.js:266-268 | with no weighted word occurring, the score is 0 |
| AnalyzerProperties.WeightedSubsumed | server/services/ai.service.js:266-268 | when every weighted word of one text occurs in another, the other scores at least as high |
| AnalyzerProperties.UrgencyTextGrows | server/services/ai.service.js:252-268 | inserting text before or after the separator of content and subject never lowers the weighted score |
| AnalyzerProperties.UrgencyLevelMonotone | server/services/ai.service.js:270-273 | a higher score never gives a lower urgency level |
| AnalyzerProperties.UrgencyMonotoneContent | server/services/ai.service.js:249-274 | appending text to the content never lowers the urgency |
| AnalyzerProperties.UrgencyMonotoneSubject | server/services/ai.service.js:252 | appending text to the subject never lowers the urgency |
| AnalyzerProperties.UrgentAloneIsHigh | server/services/ai.service.js:255-271 | "urgent" with no other weighted word is `high` |
| AnalyzerProperties.UrgentTodayIsCritical | server/services/ai.service.js:256-270 | "urgent" and "today" together are `critical` |
| Analyzer.DigitsOnly | server/services/ai.service.js:286 | only digits remain, never more characters than given; a string of digits is kept whole, and one without digits becomes empty |
| AnalyzerProperties.DigitsOnlyAppend | server/services/ai.service.js:286 | removing the non-digits distributes over concatenation, so the digits kept are those of each part, in order |
| AnalyzerProperties.DigitsOnlyIgnores | server/services/ai.service.js:286 | a k/M suffix is dropped, not scaled |
| Analyzer.EstimateBusinessValue | server/services/ai.service.js:277-278 | falsy content gives `unknown` |
| AnalyzerProperties.BusinessValueRule | server/services/ai.service.js:277-305 | the leftmost amount's digits decide the bucket; with no amount, bulk or contract words give `high`, and `unknown` exactly when neither occurs |
| AnalyzerProperties.LargeAmountIsVeryHigh | server/services/ai.service.js:283-289 | a first amount of 100000 or more is `very_high` |
| Analyzer.Fields | server/services/ai.service.js:16-26 | the base record has exactly the nine keys of the analysis |
| Analyzer.Merge | server/services/ai.service.js:28-39 | without the enhancement, or when it fails, the base record is returned; on success, the keys of both, with the enhancement's values winning |
| Analyzer.EnhanceWithAI | server/services/ai.service.js:308-316 | the placeholder enhancement returns exactly `aiEnhanced: true` and `confidence` |
| Analyzer.AnalyzeEmail | server/services/ai.service.js:12-40 | the record is the merge of the eight rule results with the enhancement, tried only when it is enabled and an API key is set |
| Analyzer.Analyze | server/services/ai.service.js:16-26 | the eight rules, with their loops, give exactly the specified analysis |
| AnalyzerProperties.StubEnhancementKeepsAnalysis | server/services/ai.service.js:28-32 | the present enhancement adds its two keys and keeps every field of the analysis |
| Analyzer.GenerateReply | server/services/ai.service.js:319-349 | a `null` context throws; otherwise the reply analyses the content alone, picks the template from the record's intent, takes the tone as given (a `null` tone stays `null`) or `professional` when it is undefined, and suggests `Re: ` + the original subject or nothing |
| AnalyzerProperties.TemplateFollowsIntent | server/services/ai.service.js:333-341 | inquiry, purchase and complaint intents pick their own templates (both directions); every other intent picks the general one |
| AnalyzerProperties.MergeKeepsIntent | server/services/ai.service.js:28-39 | an enhancement without an intent leaves the analysed intent in the merged record |
| AnalyzerProperties.TemplateOfIntent | server/services/ai.service.js:333-341 | a record naming inquiry, purchase or complaint picks that template; any other intent the general one |
| AnalyzerProperties.NoContentGetsGeneralReply | server/services/ai.service.js:328-341 | empty content (`unknown` intent) gets the general template |
| AnalyzerProperties.EnhancedIntentWins | server/services/ai.service.js:331-336 | an enhancement reporting a purchase intent selects the purchase template |
| Notes.ExtractSummary | js/outlook-ai.js:593-596 | the first min(100, \|content\|) characters followed by `...`, always |
| Notes.ExtractKeyPoints | js/outlook-ai.js:598-610 | the `forEach` loop builds exactly the specified key points |
| NotesProperties.KeyPointsInShape | js/outlook-ai.js:600-609 | one `包含關鍵詞：k` entry for exactly the contained words, as many as are present, and no duplicates when the words are distinct |
| NotesProperties.KeyPointsRule | js/outlook-ai.js:600-609 | each of the six keywords appears exactly when contained; at most 6 entries, no duplicates |
| Notes.AnalyzeSentiment | js/outlook-ai.js:612-624 | urgent exactly when an urgent word occurs; positive exactly when none does and a positive word does |
| NotesProperties.UrgentWinsOverPositive | js/outlook-ai.js:615-618 | any urgent word makes the note urgent |
| Notes.CalculatePriority | js/outlook-ai.js:626-634 | with n distinct urgent keywords present: high iff n ≥ 2, medium iff n = 1, low iff none |
| Notes.SuggestAction | js/outlook-ai.js:636-647 | `報價` is checked first, then `會議`, then `確認`, else review and reply |
| Notes.NotesManager.constructor | js/outlook-ai.js:574-576 | the store starts empty |
| Notes.NotesManager.AnalyzeEmail | js/outlook-ai.js:579-591 | returns the note of the five rules and stores it under the id; the other ids' notes are unchanged; a new id is appended to the order and a known one keeps its place |
| Notes.NotesManager.GetNotes | js/outlook-ai.js:649-651 | the stored note for the id, or `undefined` |
| Notes.NotesManager.GetAllNotes | js/outlook-ai.js:653-655 | one entry per stored id, in first-insertion order, with no id twice |
| Notes.DistinctOrderSize | js/outlook-ai.js:653-655 | a duplicate-free order listing exactly the stored ids has one entry per id |
| Notes.Describe | js/outlook-ai.js:676-686 | each band (just now, minutes, hours, days, locale date) holds exactly for its range of elapsed time; the number shown is the whole units elapsed |
| NotesProperties.DescribeMonotone | js/outlook-ai.js:678-686 | an older date is never shown as more recent |
| Notes.FormatDate | js/outlook-ai.js:676-689 | under a minute `剛剛`, a week or more the locale date; in between, the whole minutes, hours or days elapsed followed by ` 分鐘前`, ` 小時前` or ` 天前`, and the number shown reads back with `parseInt` as the floor of the elapsed minutes, hours or days |
| Graph.ElementAddress | server/services/graph.service.js:263 | a string element is its own address; only `null` throws |
| Graph.FormatRecipients | server/services/graph.service.js:257-267 | a string gives one recipient; an array gives one per element in order, throwing exactly on a `null` element; anything else gives none |
| GraphProperties.StringRecipients | server/services/graph.service.js:261-265 | a list of address strings gives those addresses, in order |
| Graph.RecipientsJson | server/services/graph.service.js:262-264 | one `emailAddress` object per recipient |
| Graph.EmailAddresses | server/services/graph.service.js:242-244 | a missing or null list gives `undefined`; an array without `null` maps to each element's `emailAddress`, in order; anything else throws |
| Graph.FormatEmail | server/services/graph.service.js:236-254 | the record is built exactly when the three recipient lists can be mapped |
| GraphProperties.RecipientsReadBack | server/services/graph.service.js:242 | recipients as sent read back through `formatEmail`'s mapping with the addresses given, in order |
| GraphProperties.FormatEmailFields | server/services/graph.service.js:236-254 | eleven fields are the message's own values under their Graph names (undefined when absent); `from`, `body` and `bodyType` are `from.emailAddress`, `body.content` and `body.contentType`, undefined when the object or member is missing; `to`, `cc` and `bcc` list each element's `emailAddress`, undefined when the list is missing or `null` |
| GraphProperties.FormatEmailReadsBack | server/services/graph.service.js:236-254 | a message with an id, a date, a body and recipients as sent reads back through `formatEmail` with the same values, each address in order, and undefined for the rest |
| Graph.QueryParams | server/services/graph.service.js:77-86 | four parameters, five with the unread filter |
| GraphProperties.SplitJoin | server/services/graph.service.js:81-88 | `split` undoes `join` when no part contains the separator |
| GraphProperties.JoinLacks | server/services/graph.service.js:88 | a character in neither the parts nor the separator is not in the joined text |
| GraphProperties.SelectedFieldsAreWords | server/services/graph.service.js:81 | no selected field name contains `,` or `&` |
| Graph.BuildQuery | server/services/graph.service.js:63-88 | the query is the folder path, `?`, and the parameters joined with `&` |
| GraphProperties.QueryReadsBack | server/services/graph.service.js:77-88 | splitting the query's parameters on `&` gives back the parameters pushed, when the sort order has no `&` |
| GraphProperties.NumbersReadBack | server/services/graph.service.js:78-79 | `$top` and `$skip` read back as the limit and offset given (defaults 50 and 0) |
| GraphProperties.TextParams | server/services/graph.service.js:80-81 | `$orderby` carries the sort order (default `receivedDateTime DESC`) and `$select` carries the field list |
| GraphProperties.FilterParam | server/services/graph.service.js:84-86 | the fifth parameter exists exactly for unread-only requests, and it is `$filter=isRead eq false` |
| GraphProperties.SelectSplits | server/services/graph.service.js:81 | the `$select` list splits back into the ten field names |
| GraphProperties.ParamsLackAmpersand | server/services/graph.service.js:77-86 | no parameter contains `&` when the sort order has none |
| Graph.BuildMessage | server/services/graph.service.js:118-154 | the step-by-step construction of the message yields exactly the specified message (see the rows below for what it holds), or the formatting error of the first failing recipient list, or the `TypeError` of `null` attachments |
| GraphProperties.RecipientMessageFails | server/services/graph.service.js:134-150 | the recipient lists are formatted `to` first, then cc and bcc when truthy; the first that throws decides the error |
| GraphProperties.RecipientMessageFields | server/services/graph.service.js:134-150 | before the attachments check the message holds subject (when given), body, importance, `toRecipients`, and cc/bcc exactly when truthy |
| GraphProperties.MessageAttachments | server/services/graph.service.js:126-154 | the attachments value (default `[]`) is added as given exactly when its `length` is positive: a non-empty array or string, an object with a positive `length` member, never a number or boolean; nothing else changes |
| GraphProperties.MessageFails | server/services/graph.service.js:126-154 | the message is built exactly when `to`, and cc/bcc when truthy, can be formatted and the attachments are not `null`; a `null` value throws the `TypeError` of reading its `length` |
| GraphProperties.MessageRecipients | server/services/graph.service.js:134-154 | `toRecipients` is always sent; `ccRecipients` and `bccRecipients` exactly when given truthy, each the formatted list |
| GraphProperties.MessageFields | server/services/graph.service.js:126-154 | attachments are sent as given exactly when their `length` is positive (non-empty array or string, object with a positive `length`; never a number or boolean); importance defaults to `normal`, body type to `HTML`; the subject is sent as given; no other field |
| MailService.EmailService.constructor | server/services/email.service.js:10-14 | demo mode exactly when the provider is `demo` or unset; otherwise the IMAP and SMTP configurations of the provider |
| MailService.EmailService.InitializeService | server/services/email.service.js:17-38 | demo mode leaves the connection settings alone; otherwise the provider's IMAP configuration, then SMTP |
| MailService.EmailService.SetupGmail | server/services/email.service.js:41-50 | sets the Gmail IMAP configuration, nothing else |
| MailService.EmailService.SetupOutlook | server/services/email.service.js:53-62 | sets the Outlook IMAP configuration, nothing else |
| MailService.EmailService.SetupGenericImap | server/services/email.service.js:65-74 | sets the generic IMAP configuration, nothing else |
| MailService.EmailService.SetupSmtp | server/services/email.service.js:77-113 | sets the SMTP configuration of the provider, nothing else |
| MailServiceProperties.DemoWhenUnset | server/services/email.service.js:18-25 | demo mode exactly when `EMAIL_SERVICE_TYPE` is unset, empty or `demo` |
| MailServiceProperties.GmailProvider | server/services/email.service.js:41-89 | Gmail: imap.gmail.com, port 993, TLS, and the `gmail` SMTP service with the Gmail credentials |
| MailServiceProperties.OutlookProvider | server/services/email.service.js:53-99 | Outlook: host `OUTLOOK_IMAP_HOST` or outlook.office365.com, TLS; SMTP host default smtp-mail.outlook.com, port fallback 587, not secure |
| MailServiceProperties.GenericProvider | server/services/email.service.js:65-109 | any other provider: hosts from the environment; TLS and SMTP `secure` only for the exact string `true` |
| MailServiceProperties.SmtpFollowsProvider | server/services/email.service.js:77-90 | SMTP's own `imap` default never matters: the gmail service is used exactly for the gmail provider |
| MailService.PortOr | server/services/email.service.js:58 | `parseInt(v) \|\| d` (also lines 70, 93 and 103): a parsed non-zero number is the port; NaN or 0 gives the default; never 0 unless the default is |
| MailServiceProperties.NumericPort | server/services/email.service.js:70 | a decimal port is used, except 0, which falls back to the default |
| MailServiceProperties.NonNumericPort | server/services/email.service.js:93 | a port not starting with white space, a sign or a digit falls back to the default |
| MailServiceProperties.MissingPort | server/services/email.service.js:58 | a missing port falls back to the default |
| MailService.Criteria | server/services/email.service.js:143-149 | `ALL`, or `UNSEEN` when unread only; `SINCE` appended exactly when `since` is truthy |
| MailService.SearchCriteria | server/services/email.service.js:143-149 | building step by step gives the specified criteria |
| MailService.PageWindowAsWritten | server/services/email.service.js:164-166 | never more than the n results; for 0 ≤ offset ≤ n and limit ≥ 0: min(limit, n − offset) results, the i-th being result n − offset − 1 − i (newest first) |
| MailServiceProperties.PageBeyondEndWraps | server/services/email.service.js:164-166 | as written, five results with offset 7 give the three oldest instead of nothing |
| MailService.PageWindow | server/services/email.service.js:164-166 | for every offset ≥ 0 and limit ≥ 0: min(limit, max(n − offset, 0)) results, newest first, just before the last `offset` results, so none once the offset passes the end |
| MailService.Reverse | server/services/email.service.js:166 | `reverse` keeps the length and puts element n − 1 − i at i |
| MailService.GetDemoEmails | server/services/email.service.js:508-567 | never more than the five demo messages |
| MailServiceProperties.DemoPrefix | server/services/email.service.js:567 | a demo listing is the first min(limit, 5) demo messages in fixed order (`slice` semantics for negative limits) |
| MailServiceProperties.DemoMailbox | server/services/email.service.js:509-565 | five messages with ids 1 to 5, only the last one read |
| MailServiceProperties.DemoNotNewestFirst | server/services/email.service.js:526-538 | the demo list is not in date order: the day-old message precedes the three-hour-old one |
| MailService.EmailService.FetchEmails | server/services/email.service.js:116-166 | demo mode lists the demo messages by limit alone; otherwise the folder (default INBOX), the criteria, and the corrected page window `PageWindow` of the search results (see Findings) |
| MailService.SortNewestFirst | server/services/email.service.js:228 | sorts in place, newest first, as a permutation of the fetched messages |
| MailService.InsertNewest | server/services/email.service.js:228 | extends the newest-first prefix by one message, as a permutation |
| MailServiceProperties.NewestComesFirst | server/services/email.service.js:228 | after sorting, the first message is at least as new as every other |
| MailService.EmailService.SendEmail | server/services/email.service.js:584-589 | demo mode reports a simulated success and hands nothing to the transporter; otherwise the built options go to the transporter, whose result is passed back or rethrown |
| MailService.EmailService.SendEmailDemo | server/services/email.service.js:571-580 | success, id `<demo-sent-` + time + `@example.com>`, the simulated response |
| MailService.EmailService.SendEmailReal | server/services/email.service.js:592-629 | options from the IMAP user and the caller's fields; success carries the transporter's id and response; a failure is rethrown |
| MailServiceProperties.MailOptionsDefaults | server/services/email.service.js:593-616 | the caller's fields pass unchanged; absent attachments become `[]`, and absent reply headers become `null` |

## Left out

- Network and library calls are not modelled: IMAP connections and their events, `simpleParser`, the nodemailer transport, MSAL token acquisition, and Graph HTTP calls. What they deliver is a parameter: search results, parsed messages and the transport's outcome.
- `fetchEmailById`, `markAsRead`, `markAsUnread`, `updateFlags`, `searchEmails` and `testConnection` of both mail services are left out, because they are network calls with no rule of their own.
- The first `sendEmail` of the mail service (server/services/email.service.js:316) is left out. The later method of the same name replaces it in the class. Its `super.sendEmail` is undefined because the class has no base class, so a real send always goes to `sendEmailReal`.
- Per-message assembly inside `fetchEmails` is left out. This covers the fields copied from the parsed message and the `attributes` event, because they come from the parser.
- Wall-clock reads are parameters: the analysis timestamp, `Date.now()` in demo ids and dates, and the current time in `formatDate`. `toLocaleDateString` is the parameter `localeDate`.
- The bodies and previews of the demo messages are not part of this model, and neither is the prose of the four reply templates. A reply carries the template it chose.
- The enhancement's number `confidence: 0.95` is kept as a real-valued JSON number, and no arithmetic is done on it. The enhancement's outcome is a parameter, either failure or extra keys.
- JsText.Lower: lowers `A`-`Z` and the Kelvin sign (U+212A, which JavaScript lowers to `k`) and keeps every other character. JavaScript also lowers other non-ASCII capitals, such as `À` or Greek and Cyrillic letters, to non-ASCII letters, which no keyword contains. It lowers `İ` (U+0130) to two characters, `i` and U+0307; no keyword ends in `i`, so that pair cannot complete a match either.
- JsText.ParseInt: the result is an exact integer, while `parseInt` returns a double, so above 2^53 the source rounds where the model does not. Rounding keeps every comparison with the business-value thresholds, so only a port above 2^53 differs (`MailService.PortOr`).
- MailServiceProperties.NumericPort: exact for every integer, where the source reads ports above 2^53 back rounded.
- Analyzer.GenerateSummary: lengths count Unicode code points, while `substring` and `length` count UTF-16 code units. For text outside the Basic Multilingual Plane, such as emoji, the source cuts earlier, can split a surrogate pair, and adds `...` where the model may not.
- AnalyzerProperties.SummaryShape: the 150-character bound counts code points, not UTF-16 code units, as for `Analyzer.GenerateSummary`.
- Notes.ExtractSummary: the 100-character cut counts code points, not UTF-16 code units, as for `Analyzer.GenerateSummary`.
- Analyzer.GenerateReply: a context that is a string, number or boolean, which destructures to undefined fields, is not modelled, and neither is an original subject that is not a string.
- `null` and `undefined` are not distinguished for string inputs (`None`), because no keyword occurs in either spelling. JSON values do keep `null` apart, because there a `null` element changes what `formatRecipients` and `formatEmail` do.
- MailService.SortNewestFirst: dates are integers (milliseconds). A message without a date, which makes the comparator NaN, is not modelled. The stability of `Array.prototype.sort` is not stated.
- Graph.LengthPositive: an object's `length` member that is a string or an array compares as false here; JavaScript converts it to a number first, so `{length: "2"}` would be sent.
- GraphProperties.QueryReadsBack: stated only when the sort order has no `&`. The source does not escape the values it puts in the query.
- The IMAP `tlsOptions` object is reduced to its one setting, `rejectUnauthorized`.
- `generateReply`'s `language`, `includeGreeting` and `includeSignature` options are left out, because the source reads them but never uses them.
- DOM handling, the UI, timers and `debounce` in js/outlook-ai.js are left out. So are the Express routes and the server bootstrap.

## Findings

| source | as written | input that shows it | evidently intended | confidence | as-written member | corrected member |
|---|---|---|---|---|---|---|
| server/services/email.service.js:164-166 | the page ends at `n - offset`, and `slice` reads a negative end from the back | five search results, offset 7, limit 50 give results 3, 2, 1 | an offset past the last result gives an empty page | medium, not executed | MailServiceProperties.PageBeyondEndWraps | MailService.PageWindow |

The listing in `MailService.EmailService.FetchEmails` uses the corrected
window, `MailService.PageWindow`. For 0 ≤ offset ≤ n it agrees with the
window as written (`MailService.PageWindowAsWritten`).

=== FILE: analyzer.dfy ===
/**
 * The heuristic email analyser of the server (`AIService`): eight keyword
 * rules that build one analysis record, the optional enhancement merge, and
 * the choice of reply template by customer intent.
 *
 * The rules that count or accumulate in a loop are methods proved equal to
 * a specification function; the others are functions.
 */
module Analyzer {
  import opened Wrappers
  import opened JsText
  import opened Json
  import opened Patterns
  import opened Keywords

  // ---------------------------------------------------------------------------
  // Data model
  // ---------------------------------------------------------------------------

  /** The fields of the request body the analyser reads; `None` is `undefined`. */
  datatype EmailData = EmailData(content: Option<string>, subject: Option<string>, from: Option<string>)

  datatype Category = Price | Quantity | Deadline | Meeting | Contract | Delivery | Discount | Payment {
    function Name(): string {
      match this
      case Price => "price"
      case Quantity => "quantity"
      case Deadline => "deadline"
      case Meeting => "meeting"
      case Contract => "contract"
      case Delivery => "delivery"
      case Discount => "discount"
      case Payment => "payment"
    }
  }

  datatype Importance = High | Medium

  /** A key point: a category with its first matching keyword, or the trailing numbers entry. */
  datatype KeyPoint = KeywordPoint(category: Category, keyword: string) | NumbersPoint(values: seq<string>) {
    function Level(): Importance {
      if KeywordPoint? then Importance.High else Importance.Medium
    }
  }

  datatype Sentiment = Urgent | Negative | Positive | Neutral {
    function Name(): string {
      match this
      case Urgent => "urgent"
      case Negative => "negative"
      case Positive => "positive"
      case Neutral => "neutral"
    }
  }

  datatype Priority = High | Medium | Low {
    function Name(): string {
      match this
      case High => "high"
      case Medium => "medium"
      case Low => "low"
    }
    /** Position in the order low < medium < high. */
    function Rank(): nat {
      match this
      case High => 2
      case Medium => 1
      case Low => 0
    }
  }

  datatype Action =
    | SendQuote | ScheduleMeeting | ConfirmDetails | InvestigateProblem
    | ProcessOrder | HandleImmediately | ReviewAndReply | ReviewEmail
  {
    /** The canned recommendation the service returns. */
    function Label(): string {
      match this
      case SendQuote => "準備並發送報價單"
      case ScheduleMeeting => "安排會議時間"
      case ConfirmDetails => "確認相關資訊並回覆"
      case InvestigateProblem => "調查問題並提供解決方案"
      case ProcessOrder => "處理訂單並確認細節"
      case HandleImmediately => "立即處理並回覆"
      case ReviewAndReply => "查看並回覆郵件"
      case ReviewEmail => "查看郵件"
    }
  }

  datatype Intent = Inquiry | Purchase | Complaint | FollowUp | Negotiation | General | Unknown {
    function Name(): string {
      match this
      case Inquiry => "inquiry"
      case Purchase => "purchase"
      case Complaint => "complaint"
      case FollowUp => "follow_up"
      case Negotiation => "negotiation"
      case General => "general"
      case Unknown => "unknown"
    }
  }

  datatype Urgency = Critical | High | Medium | Low {
    function Name(): string {
      match this
      case Critical => "critical"
      case High => "high"
      case Medium => "medium"
      case Low => "low"
    }
    function Rank(): nat {
      match this
      case Critical => 3
      case High => 2
      case Medium => 1
      case Low => 0
    }
  }

  datatype BusinessValue = VeryHigh | High | Medium | Low | Unknown {
    function Name(): string {
      match this
      case VeryHigh => "very_high"
      case High => "high"
      case Medium => "medium"
      case Low => "low"
      case Unknown => "unknown"
    }
  }

  /** The base analysis record; `timestamp` is the generation time, given by the caller. */
  datatype Analysis = Analysis(
    summary: string,
    keyPoints: seq<KeyPoint>,
    sentiment: Sentiment,
    priority: Priority,
    suggestedAction: Action,
    customerIntent: Intent,
    urgencyLevel: Urgency,
    estimatedValue: BusinessValue,
    timestamp: string)

  /** The outcome of the optional enhancement call: it throws, or returns extra keys. */
  datatype Enhancement = EnhancementFailed | Enhanced(fields: map<string, Json>)

  // ---------------------------------------------------------------------------
  // Keyword tables
  // ---------------------------------------------------------------------------

  const KeywordTable: seq<(Category, seq<string>)> := [
    (Price, ["價格", "報價", "費用", "成本", "price", "cost", "quote"]),
    (Quantity, ["數量", "批量", "件", "quantity", "amount", "pieces"]),
    (Deadline, ["截止", "期限", "時間", "deadline", "due date", "urgent"]),
    (Meeting, ["會議", "討論", "見面", "meeting", "call", "discuss"]),
    (Contract, ["合約", "契約", "協議", "contract", "agreement"]),
    (Delivery, ["交貨", "配送", "物流", "delivery", "shipping"]),
    (Discount, ["折扣", "優惠", "discount", "promotion"]),
    (Payment, ["付款", "支付", "payment", "invoice"])
  ]

  const PositiveWords: seq<string> := [
    "感謝", "高興", "期待", "滿意", "優秀", "完美", "很好",
    "thank", "happy", "great", "excellent", "perfect", "appreciate"
  ]

  const UrgentWords: seq<string> := [
    "緊急", "立即", "儘快", "馬上", "今天", "現在",
    "urgent", "immediately", "asap", "critical", "now"
  ]

  const NegativeWords: seq<string> := [
    "問題", "錯誤", "失望", "不滿", "投訴", "延遲",
    "problem", "issue", "disappointed", "complaint", "delay", "error"
  ]

  const UrgentSubjectWords: seq<string> := ["緊急", "urgent", "重要", "important", "立即", "immediate"]
  const UrgentContentWords: seq<string> := ["截止", "今天", "馬上", "deadline", "today", "asap"]
  const BusinessWords: seq<string> := ["訂單", "採購", "合約", "報價", "order", "purchase", "contract"]

  const ActionRules: seq<(Action, seq<string>)> := [
    (SendQuote, ["報價", "quote", "price"]),
    (ScheduleMeeting, ["會議", "meeting", "討論"]),
    (ConfirmDetails, ["確認", "confirm"]),
    (InvestigateProblem, ["問題", "issue", "problem"]),
    (ProcessOrder, ["訂單", "order", "purchase"]),
    (HandleImmediately, ["緊急", "urgent"])
  ]

  const IntentTable: seq<(Intent, seq<string>)> := [
    (Inquiry, ["詢問", "想了解", "請問", "inquiry", "question", "ask"]),
    (Purchase, ["採購", "訂購", "購買", "下單", "purchase", "order", "buy"]),
    (Complaint, ["投訴", "問題", "不滿", "complaint", "issue", "problem"]),
    (FollowUp, ["跟進", "後續", "確認", "follow up", "update", "status"]),
    (Negotiation, ["議價", "折扣", "優惠", "negotiate", "discount", "deal"])
  ]

  const UrgencyWeights: seq<(string, nat)> := [
    ("緊急", 30), ("urgent", 30), ("立即", 25), ("immediately", 25),
    ("今天", 20), ("today", 20), ("asap", 25), ("截止", 20), ("deadline", 20)
  ]

  const BulkWords: seq<string> := ["大量", "批量", "bulk"]
  const PartnershipWords: seq<string> := ["合約", "contract", "partnership"]

  /** The sum of the weights of the listed words the text contains. */
  function WeightedScore(table: seq<(string, nat)>, text: string): nat {
    if table == [] then 0
    else
      var last := table[|table| - 1];
      WeightedScore(table[..|table| - 1], text) + (if Contains(text, last.0) then last.1 else 0)
  }

  // ---------------------------------------------------------------------------
  // generateSummary
  // ---------------------------------------------------------------------------

  const NoContent: string := "無內容"
  const SummaryLength: nat := 150

  /** The summary: the cleaned text cut at 150 characters, with `...` when something was cut. */
  function GenerateSummary(content: Option<string>): (r: string)
    ensures !Truthy(content) ==> r == NoContent
    ensures |r| <= SummaryLength + 3
  {
    if !Truthy(content) then NoContent
    else
      var clean := Clean(content.value);
      if |clean| > SummaryLength then clean[..SummaryLength] + "..." else clean
  }

  // ---------------------------------------------------------------------------
  // extractKeyPoints
  // ---------------------------------------------------------------------------

  /** The text key points are searched in: tags stripped, lower-cased. */
  function KeyPointText(content: string): string {
    Lower(StripTags(content))
  }

  /** The entry of one table row: its category with its first contained keyword, if any. */
  function RowPoint(row: (Category, seq<string>), text: string): seq<KeyPoint> {
    match FirstMatch(row.1, text)
    case Some(w) => [KeywordPoint(row.0, w)]
    case None => []
  }

  /** One entry per category that has a contained keyword, in table order. */
  function CategoryPoints(table: seq<(Category, seq<string>)>, text: string): seq<KeyPoint> {
    if table == [] then []
    else CategoryPoints(table[..|table| - 1], text) + RowPoint(table[|table| - 1], text)
  }

  /** The trailing numbers entry: present when the text has a digit, with the first three matches. */
  function NumbersPart(text: string): seq<KeyPoint> {
    var numbers := NumberTokens(text);
    if |numbers| > 0 then [NumbersPoint(numbers[..if |numbers| < 3 then |numbers| else 3])] else []
  }

  function KeyPointsOf(content: Option<string>): seq<KeyPoint> {
    if !Truthy(content) then []
    else
      var text := KeyPointText(content.value);
      CategoryPoints(KeywordTable, text) + NumbersPart(text)
  }

  /** The loop over the categories, each stopping at its first contained keyword. */
  method CollectPoints(table: seq<(Category, seq<string>)>, text: string) returns (points: seq<KeyPoint>)
    ensures points == CategoryPoints(table, text)
  {
    points := [];
    var c := 0;
    while c < |table|
      invariant 0 <= c <= |table|
      invariant points == CategoryPoints(table[..c], text)
    {
      var row := table[c];
      assert table[..c + 1][..c] == table[..c];
      var m := FindFirst(row.1, text);
      if m.Some? {
        points := points + [KeywordPoint(row.0, m.value)];
      }
      c := c + 1;
    }
    assert table[..|table|] == table;
  }

  /** The nested loops with `break` that collect key points, then the numbers found. */
  method ExtractKeyPoints(content: Option<string>) returns (points: seq<KeyPoint>)
    ensures points == KeyPointsOf(content)
  {
    if !Truthy(content) {
      return [];
    }
    var text := KeyPointText(content.value);
    points := CollectPoints(KeywordTable, text);
    var numbers := NumberTokens(text);
    if |numbers| > 0 {
      points := points + [NumbersPoint(numbers[..if |numbers| < 3 then |numbers| else 3])];
    }
  }

  // ---------------------------------------------------------------------------
  // analyzeSentiment
  // ---------------------------------------------------------------------------

  /** The precedence urgent > negative > positive, each needing two distinct words. */
  function Classify(urgent: nat, negative: nat, positive: nat): Sentiment {
    if urgent >= 2 then Urgent
    else if negative >= 2 then Negative
    else if positive >= 2 then Positive
    else Neutral
  }

  function SentimentOf(content: Option<string>): Sentiment {
    if !Truthy(content) then Neutral
    else
      var text := Lower(content.value);
      Classify(Count(UrgentWords, text), Count(NegativeWords, text), Count(PositiveWords, text))
  }

  method AnalyzeSentiment(content: Option<string>) returns (r: Sentiment)
    ensures r == SentimentOf(content)
  {
    if !Truthy(content) {
      return Neutral;
    }
    var text := Lower(content.value);
    var positiveCount := CountPresent(PositiveWords, text);
    var urgentCount := CountPresent(UrgentWords, text);
    var negativeCount := CountPresent(NegativeWords, text);
    if urgentCount >= 2 {
      r := Urgent;
    } else if negativeCount >= 2 {
      r := Negative;
    } else if positiveCount >= 2 {
      r := Positive;
    } else {
      r := Neutral;
    }
  }

  // ---------------------------------------------------------------------------
  // calculatePriority
  // ---------------------------------------------------------------------------

  /** 20 per subject word, 10 per urgent content word, 15 per business word, 15 for a large amount. */
  function PriorityScore(email: EmailData): nat {
    (if Truthy(email.subject) then 20 * Count(UrgentSubjectWords, Lower(email.subject.value)) else 0)
    + (if Truthy(email.content) then 10 * Count(UrgentContentWords, Lower(email.content.value)) else 0)
    + (if Truthy(email.content) then 15 * Count(BusinessWords, Lower(email.content.value)) else 0)
    + (if email.content.Some? && HasLargeAmount(email.content.value) then 15 else 0)
  }

  function PriorityLevel(score: nat): Priority {
    if score >= 50 then Priority.High else if score >= 30 then Priority.Medium else Priority.Low
  }

  function PriorityOf(email: EmailData): Priority {
    PriorityLevel(PriorityScore(email))
  }

  method CalculatePriority(email: EmailData) returns (r: Priority)
    ensures r == PriorityOf(email)
  {
    var score := 0;
    if Truthy(email.subject) {
      var n := CountPresent(UrgentSubjectWords, Lower(email.subject.value));
      score := score + 20 * n;
    }
    if Truthy(email.content) {
      var n := CountPresent(UrgentContentWords, Lower(email.content.value));
      score := score + 10 * n;
    }
    if Truthy(email.content) {
      var n := CountPresent(BusinessWords, Lower(email.content.value));
      score := score + 15 * n;
    }
    if email.content.Some? && HasLargeAmount(email.content.value) {
      score := score + 15;
    }
    r := PriorityLevel(score);
  }

  // ---------------------------------------------------------------------------
  // suggestAction
  // ---------------------------------------------------------------------------

  /** The lower-cased text `content + ' ' + (subject || '')`. */
  function ActionText(content: string, subject: Option<string>): string {
    Lower(content + " " + OrElse(subject, ""))
  }

  lemma ActionTags()
    ensures forall k :: 0 <= k < |ActionRules| ==> ActionRules[k].0 != ReviewEmail
  {
  }

  /** The first rule whose word the text contains; no content gives the plain "read the mail". */
  function SuggestAction(content: Option<string>, subject: Option<string>): (r: Action)
    ensures !Truthy(content) <==> r == ReviewEmail
  {
    if !Truthy(content) then ReviewEmail
    else
      var m := FirstRule(ActionRules, ActionText(content.value, subject));
      ActionTags();
      m.GetOr(ReviewAndReply)
  }

  // ---------------------------------------------------------------------------
  // analyzeIntent
  // ---------------------------------------------------------------------------

  lemma IntentTags()
    ensures forall k :: 0 <= k < |IntentTable| ==> IntentTable[k].0 != Intent.Unknown
  {
  }

  function AnalyzeIntent(content: Option<string>): (r: Intent)
    ensures !Truthy(content) <==> r == Intent.Unknown
  {
    if !Truthy(content) then Intent.Unknown
    else
      var m := FirstRule(IntentTable, Lower(content.value));
      IntentTags();
      m.GetOr(General)
  }

  // ---------------------------------------------------------------------------
  // calculateUrgency
  // ---------------------------------------------------------------------------

  /** The lower-cased text `content + ' ' + (subject || '')`, with an absent content read as "undefined". */
  function UrgencyText(content: Option<string>, subject: Option<string>): string {
    Lower(Coerce(content) + " " + OrElse(subject, ""))
  }

  function UrgencyLevel(score: nat): Urgency {
    if score >= 50 then Critical
    else if score >= 30 then Urgency.High
    else if score >= 15 then Urgency.Medium
    else Urgency.Low
  }

  function UrgencyOf(content: Option<string>, subject: Option<string>): Urgency {
    UrgencyLevel(WeightedScore(UrgencyWeights, UrgencyText(content, subject)))
  }

  method CalculateUrgency(content: Option<string>, subject: Option<string>) returns (r: Urgency)
    ensures r == UrgencyOf(content, subject)
  {
    var text := UrgencyText(content, subject);
    var urgencyScore := 0;
    var i := 0;
    while i < |UrgencyWeights|
      invariant 0 <= i <= |UrgencyWeights|
      invariant urgencyScore == WeightedScore(UrgencyWeights[..i], text)
    {
      assert UrgencyWeights[..i + 1][..i] == UrgencyWeights[..i];
      var (word, score) := UrgencyWeights[i];
      if Contains(text, word) {
        urgencyScore := urgencyScore + score;
      }
      i := i + 1;
    }
    assert UrgencyWeights[..|UrgencyWeights|] == UrgencyWeights;
    r := UrgencyLevel(urgencyScore);
  }

  // ---------------------------------------------------------------------------
  // estimateBusinessValue
  // ---------------------------------------------------------------------------

  /** `s.replace(/[^\d]/g, '')`: the digits of `s`, in order, and nothing else. */
  function DigitsOnly(s: string): (r: string)
    ensures forall i :: 0 <= i < |r| ==> IsDigit(r[i])
    ensures |r| <= |s|
    ensures (forall i :: 0 <= i < |s| ==> IsDigit(s[i])) ==> r == s
    ensures (forall i :: 0 <= i < |s| ==> !IsDigit(s[i])) ==> r == []
  {
    if s == [] then []
    else (if IsDigit(s[0]) then [s[0]] else []) + DigitsOnly(s[1..])
  }

  /** The bucket of a parsed amount; NaN (no digit) fails every comparison and gives low. */
  function ValueBucket(v: Option<int>): BusinessValue {
    match v
    case None => BusinessValue.Low
    case Some(n) =>
      if n >= 100000 then VeryHigh
      else if n >= 50000 then BusinessValue.High
      else if n >= 10000 then BusinessValue.Medium
      else BusinessValue.Low
  }

  function EstimateBusinessValue(content: Option<string>): (r: BusinessValue)
    ensures !Truthy(content) ==> r == BusinessValue.Unknown
  {
    if !Truthy(content) then BusinessValue.Unknown
    else
      match FirstAmount(content.value)
      case Some(token) => ValueBucket(ParseInt(DigitsOnly(token)))
      case None =>
        var text := Lower(content.value);
        if AnyWord(BulkWords, text) then BusinessValue.High
        else if AnyWord(PartnershipWords, text) then BusinessValue.High
        else BusinessValue.Unknown
  }

  // ---------------------------------------------------------------------------
  // analyzeEmail and the enhancement merge
  // ---------------------------------------------------------------------------

  function AnalysisOf(email: EmailData, timestamp: string): Analysis {
    Analysis(
      GenerateSummary(email.content),
      KeyPointsOf(email.content),
      SentimentOf(email.content),
      PriorityOf(email),
      SuggestAction(email.content, email.subject),
      AnalyzeIntent(email.content),
      UrgencyOf(email.content, email.subject),
      EstimateBusinessValue(email.content),
      timestamp)
  }

  function KeyPointJson(p: KeyPoint): Json {
    match p
    case KeywordPoint(c, w) =>
      JObject(map["category" := JString(c.Name()), "keyword" := JString(w), "importance" := JString("high")])
    case NumbersPoint(vs) =>
      JObject(map["category" := JString("numbers"),
                  "values" := JArray(seq(|vs|, i requires 0 <= i < |vs| => JString(vs[i]))),
                  "importance" := JString("medium")])
  }

  const RecordKeys: set<string> := {
    "summary", "keyPoints", "sentiment", "priority", "suggestedAction",
    "customerIntent", "urgencyLevel", "estimatedValue", "timestamp"
  }

  /** The base record as the plain object the service returns. */
  function Fields(a: Analysis): (m: map<string, Json>)
    ensures m.Keys == RecordKeys
  {
    map[
      "summary" := JString(a.summary),
      "keyPoints" := JArray(seq(|a.keyPoints|, i requires 0 <= i < |a.keyPoints| => KeyPointJson(a.keyPoints[i]))),
      "sentiment" := JString(a.sentiment.Name()),
      "priority" := JString(a.priority.Name()),
      "suggestedAction" := JString(a.suggestedAction.Label()),
      "customerIntent" := JString(a.customerIntent.Name()),
      "urgencyLevel" := JString(a.urgencyLevel.Name()),
      "estimatedValue" := JString(a.estimatedValue.Name()),
      "timestamp" := JString(a.timestamp)
    ]
  }

  /** `{ ...analysis, ...aiEnhanced }` when the enhancement ran and succeeded; the base record otherwise. */
  function Merge(base: map<string, Json>, attempted: bool, enhancement: Enhancement): (r: map<string, Json>)
    ensures !attempted || enhancement.EnhancementFailed? ==> r == base
    ensures attempted && enhancement.Enhanced? ==>
              r.Keys == base.Keys + enhancement.fields.Keys
              && (forall k :: k in enhancement.fields ==> r[k] == enhancement.fields[k])
              && (forall k :: k in base && k !in enhancement.fields ==> r[k] == base[k])
  {
    if attempted && enhancement.Enhanced? then base + enhancement.fields else base
  }

  /** The extra keys the enhancement step currently returns (a placeholder for a remote model). */
  function EnhanceWithAI(): (m: map<string, Json>)
    ensures m.Keys == {"aiEnhanced", "confidence"} && m["aiEnhanced"] == JBool(true)
  {
    map["aiEnhanced" := JBool(true), "confidence" := JNumber(0.95)]
  }

  /** The eight rules applied to one email, the loops run as methods. */
  method Analyze(email: EmailData, timestamp: string) returns (analysis: Analysis)
    ensures analysis == AnalysisOf(email, timestamp)
  {
    var keyPoints := ExtractKeyPoints(email.content);
    var sentiment := AnalyzeSentiment(email.content);
    var priority := CalculatePriority(email);
    var urgency := CalculateUrgency(email.content, email.subject);
    analysis := Analysis(
      GenerateSummary(email.content),
      keyPoints,
      sentiment,
      priority,
      SuggestAction(email.content, email.subject),
      AnalyzeIntent(email.content),
      urgency,
      EstimateBusinessValue(email.content),
      timestamp);
  }

  /**
   * `analyzeEmail`: the eight rules, then the enhancement when it is switched
   * on (`enabled` and a truthy API key). The clock reading and the
   * enhancement's outcome are parameters.
   */
  method AnalyzeEmail(email: EmailData, timestamp: string, enabled: bool, apiKey: Option<string>,
                      enhancement: Enhancement)
    returns (record: map<string, Json>)
    ensures record == Merge(Fields(AnalysisOf(email, timestamp)), enabled && Truthy(apiKey), enhancement)
  {
    var analysis := Analyze(email, timestamp);
    record := Fields(analysis);
    if enabled && Truthy(apiKey) {
      match enhancement
      case Enhanced(extra) =>
        record := record + extra;
      case EnhancementFailed =>
    }
  }

  // ---------------------------------------------------------------------------
  // generateReply
  // ---------------------------------------------------------------------------

  datatype Template = InquiryTemplate | PurchaseTemplate | ComplaintTemplate | GeneralTemplate

  /**
   * The caller's context argument: `undefined`, where the default `{}`
   * applies, `null`, or an object. An absent tone is `None`; an absent or
   * `null` original subject is `None`.
   */
  datatype ContextArg =
    | NoContext
    | NullContext
    | Context(tone: Option<Json>, originalSubject: Option<string>)

  /** The reply: the template's text is left abstract, identified by the template chosen. */
  datatype Reply = Reply(template: Template, tone: Json, suggestedSubject: string, analysis: map<string, Json>)

  /** The template for the record's `customerIntent`, compared as a string. */
  function TemplateFor(record: map<string, Json>): Template {
    var intent := if "customerIntent" in record then record["customerIntent"] else JNull;
    if intent == JString("inquiry") then InquiryTemplate
    else if intent == JString("purchase") then PurchaseTemplate
    else if intent == JString("complaint") then ComplaintTemplate
    else GeneralTemplate
  }

  /**
   * Destructuring a `null` context throws before anything is analysed; the
   * tone defaults to `professional` only when it is `undefined`.
   */
  method GenerateReply(emailContent: Option<string>, context: ContextArg, timestamp: string,
                       enabled: bool, apiKey: Option<string>, enhancement: Enhancement)
    returns (reply: Result<Reply, string>)
    ensures reply.Err? <==> context.NullContext?
    ensures reply.Ok? ==>
              && reply.value.analysis == Merge(Fields(AnalysisOf(EmailData(emailContent, None, None), timestamp)),
                                               enabled && Truthy(apiKey), enhancement)
              && reply.value.template == TemplateFor(reply.value.analysis)
              && reply.value.tone == (if context.Context? && context.tone.Some? then context.tone.value
                                      else JString("professional"))
              && reply.value.suggestedSubject == "Re: " + (if context.Context? then OrElse(context.originalSubject, "")
                                                           else "")
  {
    if context.NullContext? {
      return Err("TypeError: Cannot destructure 'context' as it is null.");
    }
    var tone := JString("professional");
    var subject := "";
    if context.Context? {
      tone := context.tone.GetOr(tone);
      subject := OrElse(context.originalSubject, "");
    }
    var analysis := AnalyzeEmail(EmailData(emailContent, None, None), timestamp, enabled, apiKey, enhancement);
    reply := Ok(Reply(TemplateFor(analysis), tone, "Re: " + subject, analysis));
  }
}

=== FILE: analyzer_props.dfy ===
/**
 * What the analyser's rules promise, proved about the specification
 * functions of `Analyzer`: summary shape, key-point shape, the two-word
 * thresholds and precedence of the classifiers, monotonicity of the scores,
 * the business-value reading of amounts, and the merge and template choice.
 */
module AnalyzerProperties {
  import opened Wrappers
  import opened JsText
  import opened Json
  import opened Patterns
  import opened Keywords
  import opened Analyzer

  // ---------------------------------------------------------------------------
  // Summary
  // ---------------------------------------------------------------------------

  /**
   * The summary is the first 150 characters of the cleaned text, which hold
   * no tag and no run of white space, followed by `...` exactly when the
   * cleaned text is longer.
   */
  lemma SummaryShape(content: string)
    requires content != ""
    ensures var c := Clean(content);
            var r := GenerateSummary(Some(content));
            var n := if |c| > SummaryLength then SummaryLength else |c|;
            n <= |r| && r[..n] == c[..n]
            && (r[n..] == "..." <==> |c| > SummaryLength)
            && (|c| <= SummaryLength ==> r == c)
            && TagFree(r[..n]) && NoDoubleSpace(r[..n])
  {
    var c := Clean(content);
    var r := GenerateSummary(Some(content));
    var n := if |c| > SummaryLength then SummaryLength else |c|;
    CleanProperties(content);
    TagFreeSlice(c, 0, n);
    NoDoubleSpaceSlice(c, 0, n);
    assert r[..n] == c[..n];
    if |c| <= SummaryLength {
      assert c[..n] == c;
    }
  }

  // ---------------------------------------------------------------------------
  // Key points
  // ---------------------------------------------------------------------------

  function CategoriesOf(t: seq<(Category, seq<string>)>): set<Category> {
    set k | 0 <= k < |t| :: t[k].0
  }

  lemma {:induction false} CategoryPointsShape(t: seq<(Category, seq<string>)>, text: string)
    ensures var r := CategoryPoints(t, text);
            |r| <= |t|
            && (forall i :: 0 <= i < |r| ==> r[i].KeywordPoint? && r[i].category in CategoriesOf(t))
  {
    if t != [] {
      var p := t[..|t| - 1];
      CategoryPointsShape(p, text);
      assert CategoriesOf(p) <= CategoriesOf(t) by {
        forall c | c in CategoriesOf(p) ensures c in CategoriesOf(t) {
          var k :| 0 <= k < |p| && p[k].0 == c;
          assert t[k] == p[k];
        }
      }
    }
  }

  /** With distinct categories in the table, no category yields two entries. */
  lemma {:induction false} CategoryPointsDistinct(t: seq<(Category, seq<string>)>, text: string)
    requires forall i, j :: 0 <= i < j < |t| ==> t[i].0 != t[j].0
    ensures var r := CategoryPoints(t, text);
            forall i, j :: 0 <= i < j < |r| && r[i].KeywordPoint? && r[j].KeywordPoint? ==> r[i].category != r[j].category
  {
    if t != [] {
      var p := t[..|t| - 1];
      CategoryPointsDistinct(p, text);
      CategoryPointsShape(p, text);
      assert t[|t| - 1].0 !in CategoriesOf(p);
    }
  }

  /** Some table row for category `c` has `w` as its first contained keyword. */
  ghost predicate RowMatches(t: seq<(Category, seq<string>)>, text: string, c: Category, w: string) {
    exists k :: 0 <= k < |t| && t[k].0 == c && FirstMatch(t[k].1, text) == Some(w)
  }

  /** The entry one table row contributes names its category and its first contained keyword. */
  lemma RowPointMeaning(row: (Category, seq<string>), text: string, c: Category, w: string)
    ensures KeywordPoint(c, w) in RowPoint(row, text) <==> row.0 == c && FirstMatch(row.1, text) == Some(w)
  {
  }

  lemma RowMatchesSnoc(t: seq<(Category, seq<string>)>, text: string, c: Category, w: string)
    requires t != []
    ensures RowMatches(t, text, c, w) <==>
              || RowMatches(t[..|t| - 1], text, c, w)
              || (t[|t| - 1].0 == c && FirstMatch(t[|t| - 1].1, text) == Some(w))
  {
    var p := t[..|t| - 1];
    if RowMatches(p, text, c, w) {
      var k :| 0 <= k < |p| && p[k].0 == c && FirstMatch(p[k].1, text) == Some(w);
      assert t[k] == p[k];
    }
    if RowMatches(t, text, c, w) {
      var k :| 0 <= k < |t| && t[k].0 == c && FirstMatch(t[k].1, text) == Some(w);
      if k < |p| {
        assert p[k] == t[k];
      }
    }
  }

  /** An entry (category, keyword) is produced exactly when that keyword is the category's first match. */
  lemma {:induction false} CategoryPointsMeaning(t: seq<(Category, seq<string>)>, text: string, c: Category, w: string)
    ensures KeywordPoint(c, w) in CategoryPoints(t, text) <==> RowMatches(t, text, c, w)
  {
    if t != [] {
      CategoryPointsMeaning(t[..|t| - 1], text, c, w);
      RowPointMeaning(t[|t| - 1], text, c, w);
      RowMatchesSnoc(t, text, c, w);
    }
  }

  lemma KeywordTableDistinct()
    ensures forall i, j :: 0 <= i < j < |KeywordTable| ==> KeywordTable[i].0 != KeywordTable[j].0
  {
  }

  lemma ConcatShape(cp: seq<KeyPoint>, np: seq<KeyPoint>)
    requires forall i :: 0 <= i < |cp| ==> cp[i].KeywordPoint?
    requires forall i, j :: 0 <= i < j < |cp| && cp[i].KeywordPoint? && cp[j].KeywordPoint? ==> cp[i].category != cp[j].category
    requires forall i :: 0 <= i < |np| ==> np[i].NumbersPoint?
    ensures var r := cp + np;
            forall i, j :: 0 <= i < j < |r| && r[j].KeywordPoint? ==> r[i].KeywordPoint? && r[i].category != r[j].category
  {
    var r := cp + np;
    forall i, j | 0 <= i < j < |r| && r[j].KeywordPoint? ensures r[i].KeywordPoint? && r[i].category != r[j].category {
      assert j < |cp| && r[i] == cp[i] && r[j] == cp[j];
    }
  }

  /** Key points: at most one entry per category, keyword entries before the numbers entry, nine at most. */
  lemma KeyPointsShape(content: string)
    requires content != ""
    ensures var r := KeyPointsOf(Some(content));
            |r| <= 9
            && (forall i, j :: 0 <= i < j < |r| && r[j].KeywordPoint? ==> r[i].KeywordPoint? && r[i].category != r[j].category)
  {
    var text := KeyPointText(content);
    var cp := CategoryPoints(KeywordTable, text);
    var np := NumbersPart(text);
    KeywordTableDistinct();
    CategoryPointsShape(KeywordTable, text);
    CategoryPointsDistinct(KeywordTable, text);
    NumbersPartShape(text);
    ConcatShape(cp, np);
    assert KeyPointsOf(Some(content)) == cp + np;
  }

  /** A keyword entry is produced exactly for a category of the table whose first contained keyword it names. */
  lemma KeyPointsKeywords(content: string, c: Category, w: string)
    requires content != ""
    ensures KeywordPoint(c, w) in KeyPointsOf(Some(content)) <==> RowMatches(KeywordTable, KeyPointText(content), c, w)
  {
    var text := KeyPointText(content);
    CategoryPointsMeaning(KeywordTable, text, c, w);
    assert KeyPointsOf(Some(content)) == CategoryPoints(KeywordTable, text) + NumbersPart(text);
  }

  /**
   * The numbers entry exists exactly when the text has a digit; it holds the
   * first three matches of the number pattern (all of them when fewer), the
   * first being the greedy match at the first digit of the text.
   */
  lemma NumbersPartShape(text: string)
    ensures var np := NumbersPart(text);
            var tokens := NumberTokens(text);
            && |np| <= 1
            && (np != [] <==> exists i :: 0 <= i < |text| && IsDigit(text[i]))
            && (np != [] ==> np[0].NumbersPoint? && 1 <= |np[0].values| <= 3
                             && np[0].values == tokens[..|np[0].values|]
                             && (|np[0].values| == 3 || np[0].values == tokens)
                             && forall v :: v in np[0].values ==> NumberShaped(v) && Contains(text, v))
    ensures forall p :: 0 <= p < |text| && IsDigit(text[p]) && (forall i :: 0 <= i < p ==> !IsDigit(text[i])) ==>
              var np := NumbersPart(text);
              np != [] && np[0].NumbersPoint? && np[0].values[0] == text[p..][..NumberTokenLength(text[p..])]
  {
    var numbers := NumberTokens(text);
    if |numbers| > 0 {
      var vs := numbers[..if |numbers| < 3 then |numbers| else 3];
      assert forall v :: v in vs ==> v in numbers;
    }
    forall p | 0 <= p < |text| && IsDigit(text[p]) && (forall i :: 0 <= i < p ==> !IsDigit(text[i]))
      ensures NumbersPart(text) != [] && NumbersPart(text)[0].NumbersPoint?
      ensures NumbersPart(text)[0].values[0] == text[p..][..NumberTokenLength(text[p..])]
    {
      NumberTokensFrom(text, p);
    }
  }

  /**
   * The numbers entry comes last, exists exactly when the text has a digit,
   * and holds the first three matches of the number pattern (all of them
   * when fewer).
   */
  lemma KeyPointsNumbers(content: string)
    requires content != ""
    ensures var r := KeyPointsOf(Some(content));
            var text := KeyPointText(content);
            ((|r| > 0 && r[|r| - 1].NumbersPoint?) <==> exists i :: 0 <= i < |text| && IsDigit(text[i]))
            && (forall i :: 0 <= i < |r| && r[i].NumbersPoint? ==>
                  i == |r| - 1 && 1 <= |r[i].values| <= 3
                  && r[i].values == NumberTokens(text)[..|r[i].values|]
                  && (|r[i].values| == 3 || r[i].values == NumberTokens(text))
                  && forall v :: v in r[i].values ==> NumberShaped(v) && Contains(text, v))
  {
    var text := KeyPointText(content);
    var cp := CategoryPoints(KeywordTable, text);
    var np := NumbersPart(text);
    var r := KeyPointsOf(Some(content));
    assert r == cp + np;
    CategoryPointsShape(KeywordTable, text);
    NumbersPartShape(text);
  }

  // ---------------------------------------------------------------------------
  // Sentiment
  // ---------------------------------------------------------------------------

  /**
   * The sentiment of some content: urgent when two different urgent words
   * occur; otherwise negative on two negative words; otherwise positive on
   * two positive words; otherwise neutral. One word of a kind is never
   * enough.
   */
  lemma SentimentRule(content: string)
    requires content != ""
    ensures var text := Lower(content);
            var s := SentimentOf(Some(content));
            (s == Urgent <==> TwoOf(UrgentWords, text))
            && (s == Negative <==> !TwoOf(UrgentWords, text) && TwoOf(NegativeWords, text))
            && (s == Positive <==> !TwoOf(UrgentWords, text) && !TwoOf(NegativeWords, text) && TwoOf(PositiveWords, text))
            && (s == Neutral <==> !TwoOf(UrgentWords, text) && !TwoOf(NegativeWords, text) && !TwoOf(PositiveWords, text))
  {
    var text := Lower(content);
    CountTwo(UrgentWords, text);
    CountTwo(NegativeWords, text);
    CountTwo(PositiveWords, text);
  }

  /** "urgent" and "asap" together make an email urgent whatever else it says. */
  lemma UrgentAndAsapAreUrgent(content: string)
    requires Contains(Lower(content), "urgent") && Contains(Lower(content), "asap")
    ensures SentimentOf(Some(content)) == Urgent
  {
    var text := Lower(content);
    assert UrgentWords[6] == "urgent" && UrgentWords[8] == "asap";
    assert TwoOf(UrgentWords, text);
    CountTwo(UrgentWords, text);
  }

  // ---------------------------------------------------------------------------
  // Priority
  // ---------------------------------------------------------------------------

  /** The priority score grows with each of its parts. */
  lemma PriorityScoreGrows(e1: EmailData, e2: EmailData)
    requires e1.subject == e2.subject
    requires Truthy(e1.content) ==>
               && Truthy(e2.content)
               && Count(UrgentContentWords, Lower(e1.content.value)) <= Count(UrgentContentWords, Lower(e2.content.value))
               && Count(BusinessWords, Lower(e1.content.value)) <= Count(BusinessWords, Lower(e2.content.value))
    requires e1.content.Some? && HasLargeAmount(e1.content.value) ==> e2.content.Some? && HasLargeAmount(e2.content.value)
    ensures PriorityOf(e1).Rank() <= PriorityOf(e2).Rank()
  {
    assert PriorityScore(e1) <= PriorityScore(e2);
  }

  /** Appending text to the content never lowers the priority. */
  lemma PriorityMonotoneContent(c: string, x: string, subject: Option<string>, from: Option<string>)
    ensures PriorityOf(EmailData(Some(c), subject, from)).Rank()
            <= PriorityOf(EmailData(Some(c + x), subject, from)).Rank()
  {
    var e1 := EmailData(Some(c), subject, from);
    var e2 := EmailData(Some(c + x), subject, from);
    if c != "" {
      AppendKeepsWords(UrgentContentWords, c, x);
      AppendKeepsWords(BusinessWords, c, x);
      assert Truthy(e2.content);
    }
    if HasLargeAmount(c) {
      LargeAmountAppend(c, x);
    }
    PriorityScoreGrows(e1, e2);
  }

  /** Appending text to the subject never lowers the priority. */
  lemma PriorityMonotoneSubject(content: Option<string>, s: string, y: string, from: Option<string>)
    ensures PriorityOf(EmailData(content, Some(s), from)).Rank()
            <= PriorityOf(EmailData(content, Some(s + y), from)).Rank()
  {
    AppendKeepsWords(UrgentSubjectWords, s, y);
    if s != "" {
      assert s + y != "";
    }
  }

  /** An urgent subject on an email about an order under contract reaches high priority. */
  lemma UrgentOrderIsHigh(c: string, s: string, from: Option<string>)
    requires Contains(Lower(s), "urgent")
    requires Contains(Lower(c), "order") && Contains(Lower(c), "contract")
    ensures PriorityOf(EmailData(Some(c), Some(s), from)) == Priority.High
  {
    assert UrgentSubjectWords[1] == "urgent";
    CountPositive(UrgentSubjectWords, Lower(s));
    assert BusinessWords[4] == "order" && BusinessWords[6] == "contract";
    assert TwoOf(BusinessWords, Lower(c));
    CountTwo(BusinessWords, Lower(c));
    assert |Lower(s)| > 0 && |Lower(c)| > 0;
  }

  // ---------------------------------------------------------------------------
  // Rule precedence: suggestAction and analyzeIntent
  // ---------------------------------------------------------------------------

  /**
   * The suggested action for non-empty content is that of the first rule
   * (quote, meeting, confirm, problem, order, urgent) with a word in the
   * lower-cased content and subject; "review and reply" exactly when none
   * applies.
   */
  lemma SuggestActionRule(content: string, subject: Option<string>, k: nat)
    requires content != "" && k < |ActionRules|
    requires AnyWord(ActionRules[k].1, ActionText(content, subject))
    requires forall j :: 0 <= j < k ==> !AnyWord(ActionRules[j].1, ActionText(content, subject))
    ensures SuggestAction(Some(content), subject) == ActionRules[k].0
  {
    FirstRuleAt(ActionRules, ActionText(content, subject), k);
  }

  lemma SuggestActionDefault(content: string, subject: Option<string>)
    requires content != ""
    ensures SuggestAction(Some(content), subject) == ReviewAndReply
            <==> forall k :: 0 <= k < |ActionRules| ==> !AnyWord(ActionRules[k].1, ActionText(content, subject))
  {
    assert forall k :: 0 <= k < |ActionRules| ==> ActionRules[k].0 != ReviewAndReply;
  }

  /** A mention of a quote wins over every later rule, an urgent one included. */
  lemma QuoteComesFirst(content: string, subject: Option<string>)
    requires content != "" && Contains(ActionText(content, subject), "quote")
    ensures SuggestAction(Some(content), subject) == SendQuote
  {
    assert ActionRules[0].1[1] == "quote";
    SuggestActionRule(content, subject, 0);
  }

  /** The intent is that of the first intent (inquiry, purchase, complaint, follow-up, negotiation) with a word in the text. */
  lemma IntentRule(content: string, k: nat)
    requires content != "" && k < |IntentTable|
    requires AnyWord(IntentTable[k].1, Lower(content))
    requires forall j :: 0 <= j < k ==> !AnyWord(IntentTable[j].1, Lower(content))
    ensures AnalyzeIntent(Some(content)) == IntentTable[k].0
  {
    FirstRuleAt(IntentTable, Lower(content), k);
  }

  lemma IntentDefault(content: string)
    requires content != ""
    ensures AnalyzeIntent(Some(content)) == General
            <==> forall k :: 0 <= k < |IntentTable| ==> !AnyWord(IntentTable[k].1, Lower(content))
  {
    assert forall k :: 0 <= k < |IntentTable| ==> IntentTable[k].0 != General;
  }

  /** `toLowerCase` turns the Kelvin sign into `k`, so `AS` followed by it asks a question. */
  lemma KelvinSignLowers()
    ensures Lower("AS\U{212A}") == "ask"
    ensures AnalyzeIntent(Some("AS\U{212A}")) == Inquiry
  {
    var text := Lower("AS\U{212A}");
    assert text == "ask";
    assert OccursAt(text, "ask", 0);
    assert IntentTable[0].1[5] == "ask";
    IntentRule("AS\U{212A}", 0);
  }

  /** A question about an order is an inquiry: inquiry is tested before purchase. */
  lemma QuestionBeforeOrder(content: string)
    requires Contains(Lower(content), "question") && Contains(Lower(content), "order")
    ensures AnalyzeIntent(Some(content)) == Inquiry
  {
    assert IntentTable[0].1[4] == "question";
    assert |Lower(content)| > 0;
    IntentRule(content, 0);
  }

  // ---------------------------------------------------------------------------
  // Urgency
  // ---------------------------------------------------------------------------

  lemma {:induction false} WeightedSubsumed(table: seq<(string, nat)>, a: string, b: string)
    requires forall i :: 0 <= i < |table| && Contains(a, table[i].0) ==> Contains(b, table[i].0)
    ensures WeightedScore(table, a) <= WeightedScore(table, b)
  {
    if table != [] {
      var p := table[..|table| - 1];
      forall i | 0 <= i < |p| && Contains(a, p[i].0) ensures Contains(b, p[i].0) {
        assert p[i] == table[i];
      }
      WeightedSubsumed(p, a, b);
    }
  }

  /** Every occurring word adds its weight. */
  lemma {:induction false} WeightedAtLeast(table: seq<(string, nat)>, text: string, i: nat, j: nat)
    requires i < j < |table| && Contains(text, table[i].0) && Contains(text, table[j].0)
    ensures WeightedScore(table, text) >= table[i].1 + table[j].1
  {
    var p := table[..|table| - 1];
    if j < |table| - 1 {
      assert p[i] == table[i] && p[j] == table[j];
      WeightedAtLeast(p, text, i, j);
    } else {
      assert p[i] == table[i];
      WeightedAtLeastOne(p, text, i);
    }
  }

  lemma {:induction false} WeightedAtLeastOne(table: seq<(string, nat)>, text: string, i: nat)
    requires i < |table| && Contains(text, table[i].0)
    ensures WeightedScore(table, text) >= table[i].1
  {
    var p := table[..|table| - 1];
    if i < |table| - 1 {
      assert p[i] == table[i];
      WeightedAtLeastOne(p, text, i);
    }
  }

  /** When only one listed word occurs, the score is its weight. */
  lemma {:induction false} WeightedOnly(table: seq<(string, nat)>, text: string, i: nat)
    requires i < |table| && Contains(text, table[i].0)
    requires forall j :: 0 <= j < |table| && j != i ==> !Contains(text, table[j].0)
    ensures WeightedScore(table, text) == table[i].1
  {
    var p := table[..|table| - 1];
    if i < |table| - 1 {
      forall j | 0 <= j < |p| && j != i ensures !Contains(text, p[j].0) {
        assert p[j] == table[j];
      }
      assert p[i] == table[i];
      WeightedOnly(p, text, i);
    } else {
      WeightedNone(p, text);
    }
  }

  lemma {:induction false} WeightedNone(table: seq<(string, nat)>, text: string)
    requires forall j :: 0 <= j < |table| ==> !Contains(text, table[j].0)
    ensures WeightedScore(table, text) == 0
  {
    if table != [] {
      var p := table[..|table| - 1];
      forall j | 0 <= j < |p| ensures !Contains(text, p[j].0) {
        assert p[j] == table[j];
      }
      WeightedNone(p, text);
    }
  }

  lemma UrgencyWordsHaveNoSpace()
    ensures forall i :: 0 <= i < |UrgencyWeights| ==> ' ' !in UrgencyWeights[i].0
  {
  }

  lemma LowerSpaced(a: string, b: string)
    ensures Lower(a + " " + b) == Lower(a) + " " + Lower(b)
  {
    LowerAppend(a + " ", b);
    LowerAppend(a, " ");
  }

  /** Every weighted word found before text is inserted on either side of the separator is found after. */
  lemma UrgencyTextGrows(a: string, x: string, b: string, y: string)
    ensures WeightedScore(UrgencyWeights, Lower(a + " " + b))
            <= WeightedScore(UrgencyWeights, Lower(a + x + " " + (b + y)))
  {
    LowerSpaced(a, b);
    LowerSpaced(a + x, b + y);
    LowerAppend(a, x);
    LowerAppend(b, y);
    UrgencyWordsHaveNoSpace();
    var before := Lower(a) + " " + Lower(b);
    var after := Lower(a) + Lower(x) + " " + Lower(b) + Lower(y);
    assert Lower(a + x + " " + (b + y)) == after;
    forall i | 0 <= i < |UrgencyWeights| && Contains(before, UrgencyWeights[i].0)
      ensures Contains(after, UrgencyWeights[i].0)
    {
      ContainsInsert(Lower(a), Lower(x), Lower(b), Lower(y), UrgencyWeights[i].0);
    }
    WeightedSubsumed(UrgencyWeights, before, after);
  }

  lemma UrgencyLevelMonotone(a: nat, b: nat)
    requires a <= b
    ensures UrgencyLevel(a).Rank() <= UrgencyLevel(b).Rank()
  {
  }

  /** Appending text to the content never lowers the urgency. */
  lemma UrgencyMonotoneContent(c: string, x: string, subject: Option<string>)
    ensures UrgencyOf(Some(c), subject).Rank() <= UrgencyOf(Some(c + x), subject).Rank()
  {
    var s := OrElse(subject, "");
    UrgencyTextGrows(c, x, s, "");
    assert s + "" == s;
    var t1, t2 := UrgencyText(Some(c), subject), UrgencyText(Some(c + x), subject);
    assert t1 == Lower(c + " " + s);
    assert t2 == Lower(c + x + " " + (s + ""));
    UrgencyLevelMonotone(WeightedScore(UrgencyWeights, t1), WeightedScore(UrgencyWeights, t2));
  }

  /** Appending text to the subject (an absent subject read as empty) never lowers the urgency. */
  lemma UrgencyMonotoneSubject(content: Option<string>, subject: Option<string>, y: string)
    ensures UrgencyOf(content, subject).Rank() <= UrgencyOf(content, Some(OrElse(subject, "") + y)).Rank()
  {
    var s := OrElse(subject, "");
    var c := Coerce(content);
    UrgencyTextGrows(c, "", s, y);
    assert c + "" == c;
    assert OrElse(Some(s + y), "") == s + y;
    var t1, t2 := UrgencyText(content, subject), UrgencyText(content, Some(s + y));
    assert t1 == Lower(c + " " + s);
    assert t2 == Lower(c + "" + " " + (s + y));
    UrgencyLevelMonotone(WeightedScore(UrgencyWeights, t1), WeightedScore(UrgencyWeights, t2));
  }

  /** "urgent" alone, with no other weighted word, is high urgency (30 points). */
  lemma UrgentAloneIsHigh(content: Option<string>, subject: Option<string>)
    requires Contains(UrgencyText(content, subject), "urgent")
    requires forall j :: 0 <= j < |UrgencyWeights| && j != 1 ==> !Contains(UrgencyText(content, subject), UrgencyWeights[j].0)
    ensures UrgencyOf(content, subject) == Urgency.High
  {
    WeightedOnly(UrgencyWeights, UrgencyText(content, subject), 1);
  }

  /** "urgent" together with "today" is critical (at least 50 points). */
  lemma UrgentTodayIsCritical(content: Option<string>, subject: Option<string>)
    requires Contains(UrgencyText(content, subject), "urgent") && Contains(UrgencyText(content, subject), "today")
    ensures UrgencyOf(content, subject) == Critical
  {
    WeightedAtLeast(UrgencyWeights, UrgencyText(content, subject), 1, 5);
  }

  // ---------------------------------------------------------------------------
  // Business value
  // ---------------------------------------------------------------------------

  /** Removing the non-digits distributes over concatenation. */
  lemma {:induction false} DigitsOnlyAppend(a: string, b: string)
    ensures DigitsOnly(a + b) == DigitsOnly(a) + DigitsOnly(b)
    decreases |a|
  {
    if a == [] {
      assert [] + b == b;
    } else {
      assert (a + b)[1..] == a[1..] + b;
      DigitsOnlyAppend(a[1..], b);
    }
  }

  /** A trailing `k` or `M` (or any non-digit) does not change the digits read: no scaling. */
  lemma {:induction false} DigitsOnlyIgnores(z: string, c: char)
    requires !IsDigit(c)
    ensures DigitsOnly(z + [c]) == DigitsOnly(z)
  {
    if z != [] {
      assert (z + [c])[1..] == z[1..] + [c];
      DigitsOnlyIgnores(z[1..], c);
    } else {
      assert DigitsOnly([c]) == [] + DigitsOnly([]);
    }
  }

  /**
   * The value of non-empty content: the first amount in it decides when there
   * is one (its digits read in base 10, commas, `$`, `元` and `k`/`M` dropped;
   * no digit reads as NaN and gives low); otherwise bulk or contract words
   * give high, and nothing gives unknown.
   */
  lemma BusinessValueRule(content: string)
    requires content != ""
    ensures var r := EstimateBusinessValue(Some(content));
            match FirstAmount(content)
            case Some(token) =>
              var z := DigitsOnly(token);
              (z == [] ==> r == BusinessValue.Low)
              && (z != [] ==> (forall i :: 0 <= i < |z| ==> DigitValue(z[i]) < 10)
                              && r == ValueBucket(Some(DigitsValue(z, 10))))
            case None =>
              r != BusinessValue.Medium && r != BusinessValue.Low && r != VeryHigh
              && (r == BusinessValue.Unknown <==> !AnyWord(BulkWords, Lower(content)) && !AnyWord(PartnershipWords, Lower(content)))
  {
    match FirstAmount(content)
    case Some(token) =>
      var z := DigitsOnly(token);
      if z != [] {
        ParseDigitString(z);
      } else {
        assert ParseInt(z) == None;
      }
    case None =>
  }

  /** An amount of one hundred thousand or more is very high value. */
  lemma LargeAmountIsVeryHigh(content: string, n: nat)
    requires content != "" && FirstAmount(content).Some?
    requires DigitsOnly(FirstAmount(content).value) == NatDigits(n) && n >= 100000
    ensures EstimateBusinessValue(Some(content)) == VeryHigh
  {
    ParseMagnitudeDigits(n);
    ParseDecimal(n);
  }

  // ---------------------------------------------------------------------------
  // Merge and reply template
  // ---------------------------------------------------------------------------

  /** The present enhancement adds its two keys and keeps every field of the analysis. */
  lemma StubEnhancementKeepsAnalysis(a: Analysis)
    ensures var base := Fields(a);
            var r := Merge(base, true, Enhanced(EnhanceWithAI()));
            r.Keys == RecordKeys + {"aiEnhanced", "confidence"}
            && r["aiEnhanced"] == JBool(true)
            && forall k :: k in RecordKeys ==> r[k] == base[k]
  {
    var base := Fields(a);
    var extra := EnhanceWithAI();
    assert extra.Keys !! RecordKeys;
  }

  /**
   * Unless the enhancement overrides `customerIntent`, the reply template
   * follows the analysed intent: inquiry, purchase and complaint have their
   * own, every other intent the general one.
   */
  lemma TemplateFollowsIntent(a: Analysis, attempted: bool, enhancement: Enhancement)
    requires enhancement.Enhanced? ==> "customerIntent" !in enhancement.fields
    ensures var t := TemplateFor(Merge(Fields(a), attempted, enhancement));
            var i := a.customerIntent;
            (t == InquiryTemplate <==> i == Inquiry)
            && (t == PurchaseTemplate <==> i == Purchase)
            && (t == ComplaintTemplate <==> i == Complaint)
            && (t == GeneralTemplate <==> i !in {Inquiry, Purchase, Complaint})
  {
    MergeKeepsIntent(a, attempted, enhancement);
    TemplateOfIntent(Merge(Fields(a), attempted, enhancement), a.customerIntent);
  }

  /** Without an intent from the enhancement, the merged record carries the analysed intent's name. */
  lemma MergeKeepsIntent(a: Analysis, attempted: bool, enhancement: Enhancement)
    requires enhancement.Enhanced? ==> "customerIntent" !in enhancement.fields
    ensures var r := Merge(Fields(a), attempted, enhancement);
            "customerIntent" in r && r["customerIntent"] == JString(a.customerIntent.Name())
  {
    var base := Fields(a);
    assert "customerIntent" in RecordKeys;
    assert base["customerIntent"] == JString(a.customerIntent.Name());
  }

  /** The template chosen for a record holding the name of intent `i`. */
  lemma TemplateOfIntent(r: map<string, Json>, i: Intent)
    requires "customerIntent" in r && r["customerIntent"] == JString(i.Name())
    ensures var t := TemplateFor(r);
            && (t == InquiryTemplate <==> i == Inquiry)
            && (t == PurchaseTemplate <==> i == Purchase)
            && (t == ComplaintTemplate <==> i == Complaint)
            && (t == GeneralTemplate <==> i !in {Inquiry, Purchase, Complaint})
  {
  }

  /** The reply to an email without content uses the general template unless the enhancement says otherwise. */
  lemma NoContentGetsGeneralReply(timestamp: string, attempted: bool, enhancement: Enhancement)
    requires enhancement.Enhanced? ==> "customerIntent" !in enhancement.fields
    ensures TemplateFor(Merge(Fields(AnalysisOf(EmailData(None, None, None), timestamp)), attempted, enhancement))
            == GeneralTemplate
  {
    var a := AnalysisOf(EmailData(None, None, None), timestamp);
    assert a.customerIntent == Intent.Unknown;
    TemplateFollowsIntent(a, attempted, enhancement);
  }

  /** An enhancement that reports a purchase intent selects the purchase template. */
  lemma EnhancedIntentWins(a: Analysis, extra: map<string, Json>)
    requires "customerIntent" in extra && extra["customerIntent"] == JString("purchase")
    ensures TemplateFor(Merge(Fields(a), true, Enhanced(extra))) == PurchaseTemplate
  {
  }
}

=== FILE: graph.dfy ===
/**
 * The mail-shape adapters of the Microsoft Graph client: recipient lists,
 * the message record built from a Graph message, the query string of the
 * message list request, and the message object posted to `sendMail`.
 * The HTTP calls and token handling are not part of this model.
 */
module Graph {
  import opened Wrappers
  import opened JsText
  import opened Json
  import opened Patterns

  // ---------------------------------------------------------------------------
  // formatRecipients
  // ---------------------------------------------------------------------------

  /** `{ emailAddress: { address } }`; an `undefined` address is `None`. */
  datatype Recipient = Recipient(address: Option<Json>)

  /** The address a list element contributes: the string itself, or its `.address`. */
  function ElementAddress(r: Json): (a: Result<Option<Json>, string>)
    ensures r.JString? ==> a == Ok(Some(r))
    ensures a.Err? <==> r == JNull
  {
    match r
    case JString(_) => Ok(Some(r))
    case JNull => Err("TypeError: Cannot read properties of null (reading 'address')")
    case _ => Ok(Member(r, "address"))
  }

  /**
   * A string gives one recipient; an array gives one recipient per element,
   * in order; anything else, `undefined` and `null` included, gives none.
   * A `null` element makes `r.address` throw.
   */
  function FormatRecipients(recipients: Option<Json>): (r: Result<seq<Recipient>, string>)
    ensures recipients.Some? && recipients.value.JString? ==> r == Ok([Recipient(recipients)])
    ensures recipients.Some? && recipients.value.JArray? ==>
              var items := recipients.value.items;
              (r.Err? <==> JNull in items)
              && (r.Ok? ==> |r.value| == |items|
                            && forall i :: 0 <= i < |items| ==> Ok(r.value[i].address) == ElementAddress(items[i]))
    ensures recipients.None? || !(recipients.value.JString? || recipients.value.JArray?) ==> r == Ok([])
  {
    match recipients
    case Some(JString(_)) => Ok([Recipient(recipients)])
    case Some(JArray(items)) =>
      if JNull in items then Err("TypeError: Cannot read properties of null (reading 'address')")
      else Ok(seq(|items|, i requires 0 <= i < |items| => Recipient(ElementAddress(items[i]).value)))
    case _ => Ok([])
  }

  function RecipientJson(r: Recipient): Json {
    JObject(map["emailAddress" := JObject(Put(map[], "address", r.address))])
  }

  function RecipientsJson(rs: seq<Recipient>): (j: Json)
    ensures j.JArray? && |j.items| == |rs|
  {
    JArray(seq(|rs|, i requires 0 <= i < |rs| => RecipientJson(rs[i])))
  }

  // ---------------------------------------------------------------------------
  // formatEmail
  // ---------------------------------------------------------------------------

  /** The record the service returns for one Graph message; `None` is `undefined`. */
  datatype MailRecord = MailRecord(
    id: Option<Json>,
    messageId: Option<Json>,
    subject: Option<Json>,
    from: Option<Json>,
    to: Option<seq<Option<Json>>>,
    cc: Option<seq<Option<Json>>>,
    bcc: Option<seq<Option<Json>>>,
    date: Option<Json>,
    body: Option<Json>,
    bodyPreview: Option<Json>,
    bodyType: Option<Json>,
    isRead: Option<Json>,
    hasAttachments: Option<Json>,
    importance: Option<Json>,
    headers: Option<Json>)

  function Field(email: map<string, Json>, key: string): Option<Json> {
    if key in email then Some(email[key]) else None
  }

  /** A recipient list can be mapped: absent, `null`, or an array with no `null` element. */
  predicate Mappable(v: Option<Json>) {
    match v
    case None => true
    case Some(JNull) => true
    case Some(JArray(items)) => JNull !in items
    case Some(_) => false
  }

  /** `v?.map(r => r.emailAddress)`; a non-array has no `map` and a `null` element no members. */
  function EmailAddresses(v: Option<Json>): (r: Result<Option<seq<Option<Json>>>, string>)
    ensures r.Ok? <==> Mappable(v)
    ensures r.Ok? && r.value.Some? ==>
              && v.Some? && v.value.JArray? && |r.value.value| == |v.value.items|
              && forall i :: 0 <= i < |v.value.items| ==> r.value.value[i] == Member(v.value.items[i], "emailAddress")
    ensures v.None? || v == Some(JNull) ==> r == Ok(None)
  {
    match v
    case None => Ok(None)
    case Some(JNull) => Ok(None)
    case Some(JArray(items)) =>
      if JNull in items then Err("TypeError: Cannot read properties of null (reading 'emailAddress')")
      else Ok(Some(seq(|items|, i requires 0 <= i < |items| => Member(items[i], "emailAddress"))))
    case Some(_) => Err("TypeError: map is not a function")
  }

  /**
   * `formatEmail`: plain fields are copied, the sender and the bodies are
   * read through optional chaining, and each recipient list is mapped to its
   * `emailAddress` values.
   */
  function FormatEmail(email: map<string, Json>): (r: Result<MailRecord, string>)
    ensures r.Ok? <==> Mappable(Field(email, "toRecipients")) && Mappable(Field(email, "ccRecipients"))
                       && Mappable(Field(email, "bccRecipients"))
  {
    var to := EmailAddresses(Field(email, "toRecipients"));
    var cc := EmailAddresses(Field(email, "ccRecipients"));
    var bcc := EmailAddresses(Field(email, "bccRecipients"));
    if to.Err? then Err(to.error)
    else if cc.Err? then Err(cc.error)
    else if bcc.Err? then Err(bcc.error)
    else
      var body := Field(email, "body");
      Ok(MailRecord(
        Field(email, "id"),
        Field(email, "internetMessageId"),
        Field(email, "subject"),
        OptionalMember(Field(email, "from"), "emailAddress"),
        to.value,
        cc.value,
        bcc.value,
        Field(email, "receivedDateTime"),
        OptionalMember(body, "content"),
        Field(email, "bodyPreview"),
        OptionalMember(body, "contentType"),
        Field(email, "isRead"),
        Field(email, "hasAttachments"),
        Field(email, "importance"),
        Field(email, "internetMessageHeaders")))
  }

  // ---------------------------------------------------------------------------
  // The message list query of fetchEmails
  // ---------------------------------------------------------------------------

  /** The caller's options; `None` is `undefined` and takes the default. */
  datatype FetchOptions = FetchOptions(
    folder: Option<string>,
    limit: Option<int>,
    offset: Option<int>,
    unreadOnly: Option<bool>,
    orderBy: Option<string>)

  /** The message fields the list request selects, joined with commas in `$select`. */
  const SelectedFields: seq<string> := [
    "id", "subject", "from", "toRecipients", "receivedDateTime",
    "bodyPreview", "body", "isRead", "hasAttachments", "importance"
  ]
  const SelectFields: string := Join(SelectedFields, ',')
  const UnreadFilter: string := "$filter=isRead eq false"

  /** `parts.join(sep)`. */
  function Join(parts: seq<string>, sep: char): string {
    if parts == [] then ""
    else if |parts| == 1 then parts[0]
    else parts[0] + [sep] + Join(parts[1..], sep)
  }

  /** `s.split(sep)`. */
  function Split(s: string, sep: char): (r: seq<string>)
    ensures |r| >= 1
    decreases |s|
  {
    var k := IndexOf(s, sep);
    if k == |s| then [s] else [s[..k]] + Split(s[k + 1..], sep)
  }

  /** The path of the request and its parameters, in the order they are pushed. */
  function QueryParams(options: FetchOptions): (ps: seq<string>)
    ensures 4 <= |ps| <= 5
  {
    var base := [
      "$top=" + Decimal(options.limit.GetOr(50)),
      "$skip=" + Decimal(options.offset.GetOr(0)),
      "$orderby=" + options.orderBy.GetOr("receivedDateTime DESC"),
      "$select=" + SelectFields
    ];
    if options.unreadOnly.GetOr(false) then base + [UnreadFilter] else base
  }

  function QueryPath(options: FetchOptions): string {
    "/me/mailFolders/" + options.folder.GetOr("inbox") + "/messages"
  }

  /** Builds the request path step by step, as `fetchEmails` does. */
  method BuildQuery(options: FetchOptions) returns (query: string)
    ensures query == QueryPath(options) + "?" + Join(QueryParams(options), '&')
  {
    var folder := options.folder.GetOr("inbox");
    var limit := options.limit.GetOr(50);
    var offset := options.offset.GetOr(0);
    var unreadOnly := options.unreadOnly.GetOr(false);
    var orderBy := options.orderBy.GetOr("receivedDateTime DESC");
    query := "/me/mailFolders/" + folder + "/messages";
    var queryParams := [
      "$top=" + Decimal(limit),
      "$skip=" + Decimal(offset),
      "$orderby=" + orderBy,
      "$select=" + SelectFields
    ];
    if unreadOnly {
      queryParams := queryParams + [UnreadFilter];
    }
    query := query + "?" + Join(queryParams, '&');
  }

  // ---------------------------------------------------------------------------
  // The message object of sendEmail
  // ---------------------------------------------------------------------------

  /** The fields of `emailData` the message is built from; `None` is `undefined`. */
  datatype SendRequest = SendRequest(
    to: Option<Json>,
    cc: Option<Json>,
    bcc: Option<Json>,
    subject: Option<Json>,
    body: Option<Json>,
    bodyType: Option<Json>,
    importance: Option<Json>,
    attachments: Option<Json>)

  /** The fields every message has: subject (when given), body, recipients and importance. */
  function MessageBase(req: SendRequest, to: seq<Recipient>): map<string, Json> {
    var body := JObject(Put(map["contentType" := req.bodyType.GetOr(JString("HTML"))], "content", req.body));
    Put(map[], "subject", req.subject)
      ["body" := body]
      ["toRecipients" := RecipientsJson(to)]
      ["importance" := req.importance.GetOr(JString("normal"))]
  }

  /**
   * JavaScript's `length > 0` for the value of an object's `length` member:
   * a number compares as itself, `true` as 1; `null`, an object and any
   * other value compare false here.
   */
  predicate LengthPositive(length: Json) {
    match length
    case JNumber(n) => n > 0.0
    case JBool(b) => b
    case _ => false
  }

  /**
   * `attachments.length > 0` for the attachments `sendEmail` destructured
   * (`[]` when undefined): reading `length` of `null` throws; a string or
   * an array has its length; an object may carry a `length` member; a
   * number or a boolean has none, and `undefined > 0` is false.
   */
  function AttachmentsSent(attachments: Json): Result<bool, string> {
    match attachments
    case JNull => Err("TypeError: Cannot read properties of null (reading 'length')")
    case JString(s) => Ok(|s| > 0)
    case JArray(items) => Ok(|items| > 0)
    case JObject(fields) => Ok("length" in fields && LengthPositive(fields["length"]))
    case _ => Ok(false)
  }

  /**
   * The base fields with cc and bcc added when truthy; formatting a
   * recipient list may throw, the `to` list first.
   */
  function RecipientMessage(req: SendRequest): Result<map<string, Json>, string> {
    var to := FormatRecipients(req.to);
    var cc := if IsTruthy(req.cc) then FormatRecipients(req.cc) else Ok([]);
    var bcc := if IsTruthy(req.bcc) then FormatRecipients(req.bcc) else Ok([]);
    if to.Err? then Err(to.error)
    else if cc.Err? then Err(cc.error)
    else if bcc.Err? then Err(bcc.error)
    else
      var m0 := MessageBase(req, to.value);
      var m1 := if IsTruthy(req.cc) then m0["ccRecipients" := RecipientsJson(cc.value)] else m0;
      Ok(if IsTruthy(req.bcc) then m1["bccRecipients" := RecipientsJson(bcc.value)] else m1)
  }

  /**
   * The message `sendEmail` posts: the recipient message, then the
   * attachments value itself when its length is positive; reading the
   * length of `null` attachments throws after the lists are formatted.
   */
  function MessageOf(req: SendRequest): Result<map<string, Json>, string> {
    var m := RecipientMessage(req);
    var attachments := req.attachments.GetOr(JArray([]));
    var sent := AttachmentsSent(attachments);
    if m.Err? then Err(m.error)
    else if sent.Err? then Err(sent.error)
    else Ok(if sent.value then m.value["attachments" := attachments] else m.value)
  }

  /** Builds the message object, adding the optional fields one by one. */
  method BuildMessage(req: SendRequest) returns (r: Result<map<string, Json>, string>)
    ensures r == MessageOf(req)
  {
    var bodyType := req.bodyType.GetOr(JString("HTML"));
    var importance := req.importance.GetOr(JString("normal"));
    var attachments := req.attachments.GetOr(JArray([]));
    var to := FormatRecipients(req.to);
    if to.Err? {
      return Err(to.error);
    }
    var message := Put(map[], "subject", req.subject);
    message := message["body" := JObject(Put(map["contentType" := bodyType], "content", req.body))];
    message := message["toRecipients" := RecipientsJson(to.value)];
    message := message["importance" := importance];
    if IsTruthy(req.cc) {
      var cc := FormatRecipients(req.cc);
      if cc.Err? {
        return Err(cc.error);
      }
      message := message["ccRecipients" := RecipientsJson(cc.value)];
    }
    if IsTruthy(req.bcc) {
      var bcc := FormatRecipients(req.bcc);
      if bcc.Err? {
        return Err(bcc.error);
      }
      message := message["bccRecipients" := RecipientsJson(bcc.value)];
    }
    var sent := AttachmentsSent(attachments);
    if sent.Err? {
      return Err(sent.error);
    }
    if sent.value {
      message := message["attachments" := attachments];
    }
    r := Ok(message);
  }
}

=== FILE: graph_props.dfy ===
/** What the Graph adapters promise: the query reads back, and sent recipients read back as received. */
module GraphProperties {
  import opened Wrappers
  import opened JsText
  import opened Json
  import opened Patterns
  import opened Graph

  lemma IndexOfConcat(a: string, c: char, b: string)
    requires c !in a
    ensures IndexOf(a + [c] + b, c) == |a|
  {
    RunLengthConcat(a, [c] + b, x => x != c);
    assert a + [c] + b == a + ([c] + b);
  }

  lemma SplitCons(a: string, sep: char, rest: string)
    requires sep !in a
    ensures Split(a + [sep] + rest, sep) == [a] + Split(rest, sep)
  {
    var s := a + [sep] + rest;
    IndexOfConcat(a, sep, rest);
    assert s[..|a|] == a;
    assert s[|a| + 1..] == rest;
  }

  /** Splitting a join on a separator no part contains gives the parts back. */
  lemma {:induction false} SplitJoin(parts: seq<string>, sep: char)
    requires |parts| >= 1
    requires forall i :: 0 <= i < |parts| ==> sep !in parts[i]
    ensures Split(Join(parts, sep), sep) == parts
    decreases |parts|
  {
    if |parts| == 1 {
      assert IndexOf(parts[0], sep) == |parts[0]|;
    } else {
      var rest := Join(parts[1..], sep);
      assert Join(parts, sep) == parts[0] + [sep] + rest;
      SplitCons(parts[0], sep, rest);
      SplitJoin(parts[1..], sep);
      assert parts == [parts[0]] + parts[1..];
    }
  }

  lemma NoAmpersandInDecimal(n: int)
    ensures '&' !in Decimal(n)
  {
    var z := NatDigits(if n < 0 then -n else n);
    assert forall i :: 0 <= i < |z| ==> IsDigit(z[i]);
    if n < 0 {
      assert Decimal(n) == "-" + z;
      assert forall i :: 0 <= i < |Decimal(n)| ==> Decimal(n)[i] == '-' || IsDigit(Decimal(n)[i]);
    }
  }

  lemma NoAmpersandAfter(prefix: string, v: string)
    requires '&' !in prefix && '&' !in v
    ensures '&' !in prefix + v
  {
  }

  lemma SelectedFieldsAreWords()
    ensures forall i :: 0 <= i < |SelectedFields| ==> ',' !in SelectedFields[i] && '&' !in SelectedFields[i]
  {
  }

  lemma {:induction false} JoinLacks(parts: seq<string>, sep: char, c: char)
    requires sep != c && forall i :: 0 <= i < |parts| ==> c !in parts[i]
    ensures c !in Join(parts, sep)
    decreases |parts|
  {
    if |parts| > 1 {
      JoinLacks(parts[1..], sep, c);
      assert c !in parts[0];
    }
  }

  /** The `$select` list splits back into the selected fields. */
  lemma SelectSplits()
    ensures Split(SelectFields, ',') == SelectedFields
  {
    SelectedFieldsAreWords();
    SplitJoin(SelectedFields, ',');
  }

  lemma TopLacksAmpersand(options: FetchOptions)
    ensures '&' !in QueryParams(options)[0]
  {
    NoAmpersandInDecimal(options.limit.GetOr(50));
    NoAmpersandAfter("$top=", Decimal(options.limit.GetOr(50)));
  }

  lemma SkipLacksAmpersand(options: FetchOptions)
    ensures '&' !in QueryParams(options)[1]
  {
    NoAmpersandInDecimal(options.offset.GetOr(0));
    NoAmpersandAfter("$skip=", Decimal(options.offset.GetOr(0)));
  }

  lemma OrderLacksAmpersand(options: FetchOptions)
    requires '&' !in options.orderBy.GetOr("receivedDateTime DESC")
    ensures '&' !in QueryParams(options)[2]
  {
    NoAmpersandAfter("$orderby=", options.orderBy.GetOr("receivedDateTime DESC"));
  }

  lemma SelectLacksAmpersand(options: FetchOptions)
    ensures '&' !in QueryParams(options)[3]
  {
    SelectedFieldsAreWords();
    JoinLacks(SelectedFields, ',', '&');
    NoAmpersandAfter("$select=", SelectFields);
  }

  /** The fifth parameter is present exactly for unread-only requests, and it is the unread filter. */
  lemma FilterParam(options: FetchOptions)
    ensures |QueryParams(options)| == 5 <==> options.unreadOnly.GetOr(false)
    ensures |QueryParams(options)| == 5 ==> QueryParams(options)[4] == UnreadFilter && '&' !in UnreadFilter
  {
    assert '&' !in UnreadFilter;
    if |QueryParams(options)| == 5 {
      assert options.unreadOnly.GetOr(false);
      assert QueryParams(options)[4] == UnreadFilter;
    }
  }

  /** No parameter of the list request contains `&` when the sort order has none. */
  lemma ParamsLackAmpersand(options: FetchOptions)
    requires '&' !in options.orderBy.GetOr("receivedDateTime DESC")
    ensures forall i :: 0 <= i < |QueryParams(options)| ==> '&' !in QueryParams(options)[i]
  {
    TopLacksAmpersand(options);
    SkipLacksAmpersand(options);
    OrderLacksAmpersand(options);
    SelectLacksAmpersand(options);
    FilterParam(options);
    var ps := QueryParams(options);
    forall i | 0 <= i < |ps| ensures '&' !in ps[i] {
      if i == 0 {} else if i == 1 {} else if i == 2 {} else if i == 3 {} else {}
    }
  }

  /** The page size and the offset parse back from their parameters. */
  lemma NumbersReadBack(options: FetchOptions)
    ensures var t := QueryParams(options)[0];
            |t| >= 5 && t[..5] == "$top=" && ParseInt(t[5..]) == Some(options.limit.GetOr(50))
    ensures var k := QueryParams(options)[1];
            |k| >= 6 && k[..6] == "$skip=" && ParseInt(k[6..]) == Some(options.offset.GetOr(0))
  {
    var limit := options.limit.GetOr(50);
    var offset := options.offset.GetOr(0);
    var t, k := QueryParams(options)[0], QueryParams(options)[1];
    assert t[5..] == Decimal(limit);
    assert k[6..] == Decimal(offset);
    ParseDecimal(limit);
    ParseDecimal(offset);
  }

  /** The sort order and the field list are passed as given. */
  lemma TextParams(options: FetchOptions)
    ensures QueryParams(options)[2] == "$orderby=" + options.orderBy.GetOr("receivedDateTime DESC")
    ensures QueryParams(options)[3] == "$select=" + SelectFields
  {
    var order := "$orderby=" + options.orderBy.GetOr("receivedDateTime DESC");
    var base := [QueryParams(options)[0], QueryParams(options)[1], order, "$select=" + SelectFields];
    assert QueryParams(options) == base || QueryParams(options) == base + [UnreadFilter];
  }

  /**
   * The parameters of the list request read back from its query string:
   * splitting the part after `?` on `&` gives back the parameters pushed,
   * in order. This holds when the sort order has no `&`; what each
   * parameter holds is stated by `NumbersReadBack`, `TextParams` and
   * `FilterParam`.
   */
  lemma QueryReadsBack(options: FetchOptions)
    requires '&' !in options.orderBy.GetOr("receivedDateTime DESC")
    ensures Split(Join(QueryParams(options), '&'), '&') == QueryParams(options)
  {
    ParamsLackAmpersand(options);
    SplitJoin(QueryParams(options), '&');
  }

  /** The recipient lists fail in order: `to`, then cc, then bcc, each only when formatted. */
  lemma RecipientMessageFails(req: SendRequest)
    ensures RecipientMessage(req).Ok? <==>
              && FormatRecipients(req.to).Ok?
              && (IsTruthy(req.cc) ==> FormatRecipients(req.cc).Ok?)
              && (IsTruthy(req.bcc) ==> FormatRecipients(req.bcc).Ok?)
    ensures FormatRecipients(req.to).Err? ==> RecipientMessage(req) == Err(FormatRecipients(req.to).error)
  {
  }

  /**
   * The message is built exactly when every recipient list it formats can
   * be formatted and the attachments are not `null`; a recipient error
   * comes first.
   */
  lemma MessageFails(req: SendRequest)
    ensures MessageOf(req).Ok? <==>
              && FormatRecipients(req.to).Ok?
              && (IsTruthy(req.cc) ==> FormatRecipients(req.cc).Ok?)
              && (IsTruthy(req.bcc) ==> FormatRecipients(req.bcc).Ok?)
              && req.attachments != Some(JNull)
    ensures FormatRecipients(req.to).Err? ==> MessageOf(req) == Err(FormatRecipients(req.to).error)
    ensures (&& req.attachments == Some(JNull) && FormatRecipients(req.to).Ok?
             && (IsTruthy(req.cc) ==> FormatRecipients(req.cc).Ok?)
             && (IsTruthy(req.bcc) ==> FormatRecipients(req.bcc).Ok?))
            ==> MessageOf(req) == Err("TypeError: Cannot read properties of null (reading 'length')")
  {
    RecipientMessageFails(req);
  }

  lemma BaseFields(req: SendRequest, to: seq<Recipient>)
    ensures var m := MessageBase(req, to);
            && "importance" in m && m["importance"] == req.importance.GetOr(JString("normal"))
            && "body" in m && Member(m["body"], "contentType") == Some(req.bodyType.GetOr(JString("HTML")))
            && Member(m["body"], "content") == req.body
            && ("subject" in m <==> req.subject.Some?)
            && (req.subject.Some? ==> m["subject"] == req.subject.value)
            && m.Keys <= {"subject", "body", "toRecipients", "importance"}
  {
  }

  /** The optional fields are added under their own keys and leave the base fields alone. */
  lemma OptionalFields(m: map<string, Json>, k: string, v: Json)
    requires k in {"ccRecipients", "bccRecipients", "attachments"}
    ensures forall key :: key in {"subject", "body", "importance"} ==> (key in m[k := v] <==> key in m)
    ensures forall key :: key in {"subject", "body", "importance"} && key in m ==> m[k := v][key] == m[key]
  {
  }

  /** The recipient message holds the base fields and the recipient lists, and no attachments. */
  lemma RecipientMessageFields(req: SendRequest)
    requires RecipientMessage(req).Ok?
    ensures var m := RecipientMessage(req).value;
            && "toRecipients" in m && m["toRecipients"] == RecipientsJson(FormatRecipients(req.to).value)
            && ("ccRecipients" in m <==> IsTruthy(req.cc))
            && (IsTruthy(req.cc) ==> m["ccRecipients"] == RecipientsJson(FormatRecipients(req.cc).value))
            && ("bccRecipients" in m <==> IsTruthy(req.bcc))
            && (IsTruthy(req.bcc) ==> m["bccRecipients"] == RecipientsJson(FormatRecipients(req.bcc).value))
            && "importance" in m && m["importance"] == req.importance.GetOr(JString("normal"))
            && "body" in m && Member(m["body"], "contentType") == Some(req.bodyType.GetOr(JString("HTML")))
            && Member(m["body"], "content") == req.body
            && ("subject" in m <==> req.subject.Some?)
            && (req.subject.Some? ==> m["subject"] == req.subject.value)
            && m.Keys <= {"subject", "body", "toRecipients", "importance", "ccRecipients", "bccRecipients"}
  {
    var to := FormatRecipients(req.to).value;
    var m0 := MessageBase(req, to);
    BaseFields(req, to);
    var cc := if IsTruthy(req.cc) then FormatRecipients(req.cc) else Ok([]);
    var bcc := if IsTruthy(req.bcc) then FormatRecipients(req.bcc) else Ok([]);
    var m1 := if IsTruthy(req.cc) then m0["ccRecipients" := RecipientsJson(cc.value)] else m0;
    OptionalFields(m0, "ccRecipients", RecipientsJson(cc.value));
    OptionalFields(m1, "bccRecipients", RecipientsJson(bcc.value));
  }

  /** The recipient message has no attachments yet. */
  lemma RecipientMessageKeys(req: SendRequest)
    requires RecipientMessage(req).Ok?
    ensures "attachments" !in RecipientMessage(req).value
  {
    RecipientMessageFields(req);
  }

  /** Adding a field under a new key, or not, leaves the rest of the map as it was. */
  lemma AddedUnder(r: map<string, Json>, k: string, v: Json, add: bool)
    requires k !in r
    ensures var m := if add then r[k := v] else r;
            && (k in m <==> add) && (add ==> m[k] == v) && m - {k} == r
  {
  }

  /**
   * The posted message is the recipient message, with the attachments
   * value itself added exactly when its `length` is positive.
   */
  lemma MessageAttachments(req: SendRequest)
    requires MessageOf(req).Ok?
    ensures RecipientMessage(req).Ok?
    ensures var m := MessageOf(req).value;
            var a := req.attachments.GetOr(JArray([]));
            && (req.attachments.None? ==> "attachments" !in m)
            && (a.JArray? ==> ("attachments" in m <==> a.items != []))
            && (a.JString? ==> ("attachments" in m <==> a.s != []))
            && (a.JObject? ==> ("attachments" in m <==> "length" in a.fields && LengthPositive(a.fields["length"])))
            && (a.JNumber? || a.JBool? ==> "attachments" !in m)
            && ("attachments" in m ==> m["attachments"] == a)
            && m - {"attachments"} == RecipientMessage(req).value
  {
    var r := RecipientMessage(req).value;
    RecipientMessageKeys(req);
    var a := req.attachments.GetOr(JArray([]));
    AddedUnder(r, "attachments", a, AttachmentsSent(a).value);
  }

  /** `toRecipients` is always sent; `ccRecipients` and `bccRecipients` exactly when given truthy. */
  lemma MessageRecipients(req: SendRequest)
    requires MessageOf(req).Ok?
    ensures var m := MessageOf(req).value;
            && "toRecipients" in m && m["toRecipients"] == RecipientsJson(FormatRecipients(req.to).value)
            && ("ccRecipients" in m <==> IsTruthy(req.cc))
            && (IsTruthy(req.cc) ==> m["ccRecipients"] == RecipientsJson(FormatRecipients(req.cc).value))
            && ("bccRecipients" in m <==> IsTruthy(req.bcc))
            && (IsTruthy(req.bcc) ==> m["bccRecipients"] == RecipientsJson(FormatRecipients(req.bcc).value))
  {
    MessageAttachments(req);
    RecipientMessageFields(req);
    var m := MessageOf(req).value;
    var r := RecipientMessage(req).value;
    assert forall k :: k != "attachments" ==> (k in m <==> k in r);
    assert forall k :: k != "attachments" && k in r ==> m[k] == r[k];
  }

  /**
   * The attachments value is sent as given exactly when its `length` is
   * positive: a non-empty array or string, an object whose `length` member
   * is positive, never a number or a boolean; importance defaults to
   * `normal`, the body type to `HTML`; the subject is sent as given; no
   * other field is sent.
   */
  lemma MessageFields(req: SendRequest)
    requires MessageOf(req).Ok?
    ensures var m := MessageOf(req).value;
            var a := req.attachments.GetOr(JArray([]));
            && (req.attachments.None? ==> "attachments" !in m)
            && (a.JArray? ==> ("attachments" in m <==> a.items != []))
            && (a.JString? ==> ("attachments" in m <==> a.s != []))
            && (a.JObject? ==> ("attachments" in m <==> "length" in a.fields && LengthPositive(a.fields["length"])))
            && (a.JNumber? || a.JBool? ==> "attachments" !in m)
            && ("attachments" in m ==> m["attachments"] == a)
            && "importance" in m && m["importance"] == req.importance.GetOr(JString("normal"))
            && "body" in m && Member(m["body"], "contentType") == Some(req.bodyType.GetOr(JString("HTML")))
            && Member(m["body"], "content") == req.body
            && ("subject" in m <==> req.subject.Some?)
            && (req.subject.Some? ==> m["subject"] == req.subject.value)
            && m.Keys <= {"subject", "body", "toRecipients", "importance", "ccRecipients", "bccRecipients", "attachments"}
  {
    MessageAttachments(req);
    RecipientMessageFields(req);
    var m := MessageOf(req).value;
    var r := RecipientMessage(req).value;
    assert forall k :: k != "attachments" ==> (k in m <==> k in r);
    assert forall k :: k != "attachments" && k in r ==> m[k] == r[k];
  }

  /**
   * What `sendEmail` posts reads back through `formatEmail`'s mapping: each
   * recipient's `emailAddress` carries the address it was given, in order.
   */
  lemma RecipientsReadBack(rs: seq<Recipient>)
    ensures var got := EmailAddresses(Some(RecipientsJson(rs)));
            && got.Ok? && got.value.Some? && |got.value.value| == |rs|
            && forall i :: 0 <= i < |rs| ==>
                 got.value.value[i].Some? && OptionalMember(got.value.value[i], "address") == rs[i].address
  {
    var j := RecipientsJson(rs);
    assert forall i :: 0 <= i < |rs| ==> j.items[i] == RecipientJson(rs[i]);
    assert JNull !in j.items;
  }

  /** `r` is `email[key]`, or `undefined` when the message has no such key. */
  ghost predicate CopiedFrom(r: Option<Json>, email: map<string, Json>, key: string) {
    (r.Some? <==> key in email) && (r.Some? ==> r.value == email[key])
  }

  /** `r` is `email[outer][inner]`, or `undefined` when that object or its member is missing. */
  ghost predicate ReadThrough(r: Option<Json>, email: map<string, Json>, outer: string, inner: string) {
    && (r.Some? <==> outer in email && email[outer].JObject? && inner in email[outer].fields)
    && (r.Some? ==> r.value == email[outer].fields[inner])
  }

  /** `r` lists the `emailAddress` of each element of `email[key]`; `undefined` when that is missing or `null`. */
  ghost predicate MappedFrom(r: Option<seq<Option<Json>>>, email: map<string, Json>, key: string) {
    && (r.Some? <==> key in email && email[key] != JNull)
    && (r.Some? ==> email[key].JArray? && |r.value| == |email[key].items|
                    && forall i :: 0 <= i < |r.value| ==> r.value[i] == Member(email[key].items[i], "emailAddress"))
  }

  lemma FieldCopied(email: map<string, Json>, key: string)
    ensures CopiedFrom(Field(email, key), email, key)
  {
  }

  lemma FieldReadThrough(email: map<string, Json>, outer: string, inner: string)
    ensures ReadThrough(OptionalMember(Field(email, outer), inner), email, outer, inner)
  {
  }

  lemma FieldMapped(email: map<string, Json>, key: string)
    requires EmailAddresses(Field(email, key)).Ok?
    ensures MappedFrom(EmailAddresses(Field(email, key)).value, email, key)
  {
  }

  /**
   * Where each field of the record comes from: eleven fields are copied
   * from the message under their Graph names, the sender and the two body
   * fields are read one object deep, and the three recipient lists are
   * mapped to their elements' `emailAddress`.
   */
  lemma FormatEmailFields(email: map<string, Json>)
    requires FormatEmail(email).Ok?
    ensures var r := FormatEmail(email).value;
            && CopiedFrom(r.id, email, "id") && CopiedFrom(r.messageId, email, "internetMessageId")
            && CopiedFrom(r.subject, email, "subject") && CopiedFrom(r.date, email, "receivedDateTime")
            && CopiedFrom(r.bodyPreview, email, "bodyPreview") && CopiedFrom(r.isRead, email, "isRead")
            && CopiedFrom(r.hasAttachments, email, "hasAttachments") && CopiedFrom(r.importance, email, "importance")
            && CopiedFrom(r.headers, email, "internetMessageHeaders")
            && ReadThrough(r.from, email, "from", "emailAddress")
            && ReadThrough(r.body, email, "body", "content")
            && ReadThrough(r.bodyType, email, "body", "contentType")
            && MappedFrom(r.to, email, "toRecipients")
            && MappedFrom(r.cc, email, "ccRecipients")
            && MappedFrom(r.bcc, email, "bccRecipients")
  {
    FieldCopied(email, "id");
    FieldCopied(email, "internetMessageId");
    FieldCopied(email, "subject");
    FieldCopied(email, "receivedDateTime");
    FieldCopied(email, "bodyPreview");
    FieldCopied(email, "isRead");
    FieldCopied(email, "hasAttachments");
    FieldCopied(email, "importance");
    FieldCopied(email, "internetMessageHeaders");
    FieldReadThrough(email, "from", "emailAddress");
    FieldReadThrough(email, "body", "content");
    FieldReadThrough(email, "body", "contentType");
    FieldMapped(email, "toRecipients");
    FieldMapped(email, "ccRecipients");
    FieldMapped(email, "bccRecipients");
  }

  /**
   * A message carrying an id, a date, a body and the recipients as sent
   * reads back through `formatEmail`: the same id, date, content and
   * content type, each recipient's address in order, and `undefined` for
   * what the message does not carry.
   */
  lemma FormatEmailReadsBack(id: Json, date: Json, content: Json, contentType: Json, rs: seq<Recipient>)
    ensures var email := map["id" := id, "receivedDateTime" := date,
                             "body" := JObject(map["content" := content, "contentType" := contentType]),
                             "toRecipients" := RecipientsJson(rs)];
            var f := FormatEmail(email);
            && f.Ok?
            && f.value.id == Some(id) && f.value.date == Some(date)
            && f.value.body == Some(content) && f.value.bodyType == Some(contentType)
            && f.value.to.Some? && |f.value.to.value| == |rs|
            && (forall i :: 0 <= i < |rs| ==> OptionalMember(f.value.to.value[i], "address") == rs[i].address)
            && f.value.cc.None? && f.value.bcc.None? && f.value.from.None? && f.value.subject.None?
  {
    var email := map["id" := id, "receivedDateTime" := date,
                     "body" := JObject(map["content" := content, "contentType" := contentType]),
                     "toRecipients" := RecipientsJson(rs)];
    var to := RecipientsJson(rs);
    RecipientsReadBack(rs);
    assert JNull !in to.items;
    assert Field(email, "toRecipients") == Some(to);
    assert "ccRecipients" !in email && "bccRecipients" !in email;
    FormatEmailFields(email);
  }

  /** A list of address strings is sent as those addresses, in order. */
  lemma StringRecipients(addresses: seq<string>)
    ensures var items := seq(|addresses|, i requires 0 <= i < |addresses| => JString(addresses[i]));
            var r := FormatRecipients(Some(JArray(items)));
            && r.Ok? && |r.value| == |addresses|
            && forall i :: 0 <= i < |addresses| ==> r.value[i].address == Some(JString(addresses[i]))
  {
    var items := seq(|addresses|, i requires 0 <= i < |addresses| => JString(addresses[i]));
    assert JNull !in items;
  }
}

=== FILE: json.dfy ===
/** The JSON-like values the services pass around as plain objects. */
module Json {
  import opened Wrappers

  datatype Json =
    | JNull
    | JBool(b: bool)
    | JNumber(n: real)
    | JString(s: string)
    | JArray(items: seq<Json>)
    | JObject(fields: map<string, Json>)

  /** Truthiness of a value that may be `undefined` (`None`); NaN is not represented. */
  predicate IsTruthy(v: Option<Json>) {
    match v
    case None => false
    case Some(JNull) => false
    case Some(JBool(b)) => b
    case Some(JNumber(n)) => n != 0.0
    case Some(JString(s)) => s != ""
    case Some(_) => true
  }

  /**
   * `v.key` on a value that is not `null` or `undefined`. Only keys that no
   * primitive value carries are looked up, so a primitive gives `undefined`.
   */
  function Member(v: Json, key: string): (r: Option<Json>)
    ensures r.Some? ==> v.JObject? && key in v.fields && r.value == v.fields[key]
  {
    match v
    case JObject(m) => if key in m then Some(m[key]) else None
    case _ => None
  }

  /** `v?.key`: `undefined` when `v` is `null` or `undefined`. */
  function OptionalMember(v: Option<Json>, key: string): (r: Option<Json>)
    ensures v.None? || v == Some(JNull) ==> r.None?
  {
    match v
    case None => None
    case Some(JNull) => None
    case Some(x) => Member(x, key)
  }

  /** An object field as it reaches JSON: a field holding `undefined` is dropped. */
  function Put(m: map<string, Json>, key: string, v: Option<Json>): (r: map<string, Json>)
    ensures key in r <==> v.Some? || key in m
    ensures v.Some? ==> r[key] == v.value
    ensures forall k :: k in m && k != key ==> k in r && r[k] == m[k]
    ensures forall k :: k in r && k != key ==> k in m
  {
    if v.Some? then m[key := v.value] else m
  }
}

=== FILE: jstext.dfy ===
/**
 * The JavaScript string primitives the services rely on: `includes`,
 * `toLowerCase`, the `\s` character class and `trim`, `parseInt`,
 * `Array.prototype.slice`, `||` on strings and the decimal rendering of
 * an integer inside a template literal.
 */
module JsText {
  import opened Wrappers

  // ---------------------------------------------------------------------------
  // Substring containment (String.prototype.includes)
  // ---------------------------------------------------------------------------

  /** `w` occurs in `s` starting at index `i`. */
  predicate OccursAt(s: string, w: string, i: int) {
    0 <= i && i + |w| <= |s| && s[i..i + |w|] == w
  }

  /** `s.includes(w)`: a left-to-right scan for `w`. */
  function Contains(s: string, w: string): (b: bool)
    ensures b <==> exists i :: OccursAt(s, w, i)
    decreases |s|
  {
    if |w| <= |s| && s[..|w|] == w then
      assert OccursAt(s, w, 0);
      true
    else if s == [] then
      false
    else
      var b := Contains(s[1..], w);
      assert b ==> exists i :: OccursAt(s, w, i) by {
        if b {
          var i :| OccursAt(s[1..], w, i);
          assert s[i + 1..i + 1 + |w|] == s[1..][i..i + |w|];
          assert OccursAt(s, w, i + 1);
        }
      }
      assert (exists i :: OccursAt(s, w, i)) ==> b by {
        if exists i :: OccursAt(s, w, i) {
          var i :| OccursAt(s, w, i);
          assert i != 0;
          assert s[1..][i - 1..i - 1 + |w|] == s[i..i + |w|];
          assert OccursAt(s[1..], w, i - 1);
        }
      }
      b
  }

  /** Containment survives appending text on either side. */
  lemma ContainsExtend(a: string, s: string, b: string, w: string)
    requires Contains(s, w)
    ensures Contains(a + s + b, w)
  {
    var i :| OccursAt(s, w, i);
    assert (a + s + b)[|a| + i..|a| + i + |w|] == s[i..i + |w|];
    assert OccursAt(a + s + b, w, |a| + i);
  }

  /** An occurrence that covers index `|a|` of `a + " " + b` contains its space. */
  lemma SpaceInside(a: string, b: string, w: string, i: int)
    requires OccursAt(a + " " + b, w, i) && i <= |a| < i + |w|
    ensures ' ' in w
  {
    assert w[|a| - i] == (a + " " + b)[|a|];
  }

  /** An occurrence of a word without spaces does not straddle the space of `a + " " + b`. */
  lemma NoStraddle(a: string, b: string, w: string, i: int)
    requires ' ' !in w && OccursAt(a + " " + b, w, i)
    ensures i + |w| <= |a| || i > |a|
  {
    if i <= |a| < i + |w| {
      SpaceInside(a, b, w, i);
    }
  }

  /** A word without spaces found in `a + " " + b` lies wholly in `a` or in `b`. */
  lemma ContainsAcrossSpace(a: string, b: string, w: string)
    requires ' ' !in w && Contains(a + " " + b, w)
    ensures Contains(a, w) || Contains(b, w)
  {
    var s := a + " " + b;
    var i :| OccursAt(s, w, i);
    NoStraddle(a, b, w, i);
    if i + |w| <= |a| {
      assert a[i..i + |w|] == s[i..i + |w|];
      assert OccursAt(a, w, i);
    } else {
      assert b[i - |a| - 1..i - |a| - 1 + |w|] == s[i..i + |w|];
      assert OccursAt(b, w, i - |a| - 1);
    }
  }

  /** Containment moved across a space: text found in `a` or `b` is found after text is added to either part. */
  lemma ContainsInsert(a: string, x: string, b: string, y: string, w: string)
    requires ' ' !in w && Contains(a + " " + b, w)
    ensures Contains(a + x + " " + b + y, w)
  {
    ContainsAcrossSpace(a, b, w);
    if Contains(a, w) {
      ContainsExtend([], a, x + " " + b + y, w);
      assert [] + a + (x + " " + b + y) == a + x + " " + b + y;
    } else {
      ContainsExtend(a + x + " ", b, y, w);
    }
  }

  // ---------------------------------------------------------------------------
  // Characters: ASCII digits, JavaScript white space, lower case
  // ---------------------------------------------------------------------------

  /** `\d` in a JavaScript regular expression: the ASCII digits only. */
  predicate IsDigit(c: char) {
    '0' <= c <= '9'
  }

  /**
   * `\s` in a JavaScript regular expression, also the set `trim` removes:
   * WhiteSpace and LineTerminator of ECMAScript.
   */
  predicate IsSpace(c: char) {
    c == '\t' || c == '\n' || c == '\U{B}' || c == '\U{C}' || c == '\r' || c == ' '
    || c == '\U{A0}' || c == '\U{1680}' || ('\U{2000}' <= c <= '\U{200A}')
    || c == '\U{2028}' || c == '\U{2029}' || c == '\U{202F}' || c == '\U{205F}'
    || c == '\U{3000}' || c == '\U{FEFF}'
  }

  /**
   * `toLowerCase` on one character, for the characters whose lower case is
   * ASCII: `A`-`Z`, and the Kelvin sign, which lowers to `k`. Every other
   * character is kept.
   */
  function LowerChar(c: char): (r: char)
    ensures IsDigit(c) ==> r == c
    ensures 'A' <= c <= 'Z' ==> r as int == c as int + 32
    ensures c == '\U{212A}' ==> r == 'k'
    ensures !('A' <= c <= 'Z') && c != '\U{212A}' ==> r == c
  {
    if 'A' <= c <= 'Z' then (c as int + 32) as char
    else if c == '\U{212A}' then 'k'
    else c
  }

  /** `s.toLowerCase()`, one character at a time, as `LowerChar` lowers them. */
  function Lower(s: string): (r: string)
    ensures |r| == |s|
    ensures forall i :: 0 <= i < |s| ==> r[i] == LowerChar(s[i])
  {
    seq(|s|, i requires 0 <= i < |s| => LowerChar(s[i]))
  }

  lemma LowerAppend(a: string, b: string)
    ensures Lower(a + b) == Lower(a) + Lower(b)
  {
  }

  /** Number of leading characters of `s` that satisfy `p`. */
  function RunLength(s: string, p: char -> bool): (n: nat)
    ensures n <= |s|
    ensures forall i :: 0 <= i < n ==> p(s[i])
    ensures n < |s| ==> !p(s[n])
    decreases |s|
  {
    if s != [] && p(s[0]) then 1 + RunLength(s[1..], p) else 0
  }

  /** `s` with its leading white space removed (`trimStart`). */
  function TrimStart(s: string): (r: string)
    ensures r == s[RunLength(s, IsSpace)..]
  {
    s[RunLength(s, IsSpace)..]
  }

  // ---------------------------------------------------------------------------
  // Truthiness of optional strings
  // ---------------------------------------------------------------------------

  /** A string value is truthy when it is present and not empty. */
  predicate Truthy(v: Option<string>) {
    v.Some? && v.value != ""
  }

  /** `a || b` on two optional strings. */
  function Or(a: Option<string>, b: Option<string>): Option<string> {
    if Truthy(a) then a else b
  }

  /** `v || d` with a string literal `d`. */
  function OrElse(v: Option<string>, d: string): string {
    if Truthy(v) then v.value else d
  }

  /** The string an absent value becomes in concatenation or `String(v)`. */
  function Coerce(v: Option<string>): string {
    match v
    case Some(s) => s
    case None => "undefined"
  }

  // ---------------------------------------------------------------------------
  // Integers: decimal rendering and parseInt
  // ---------------------------------------------------------------------------

  function DigitChar(d: nat): char
    requires d < 10
  {
    ['0', '1', '2', '3', '4', '5', '6', '7', '8', '9'][d]
  }

  /** Value of `c` as a digit in base 16 or less, or 16 when it is none. */
  function DigitValue(c: char): (d: nat)
    ensures d <= 16
  {
    if '0' <= c <= '9' then c as nat - '0' as nat
    else if 'a' <= c <= 'f' then c as nat - 'a' as nat + 10
    else if 'A' <= c <= 'F' then c as nat - 'A' as nat + 10
    else 16
  }

  lemma DigitCharValue(d: nat)
    requires d < 10
    ensures DigitValue(DigitChar(d)) == d && IsDigit(DigitChar(d))
  {
  }

  /** The digits of `n` in base 10, most significant first, without leading zeros. */
  function NatDigits(n: nat): (r: string)
    ensures |r| > 0
    ensures forall i :: 0 <= i < |r| ==> IsDigit(r[i])
    ensures |r| > 1 ==> r[0] != '0'
  {
    if n < 10 then [DigitChar(n)] else NatDigits(n / 10) + [DigitChar(n % 10)]
  }

  /** `${n}` for an integer `n`. */
  function Decimal(n: int): string {
    if n < 0 then "-" + NatDigits(-n) else NatDigits(n)
  }

  /** The value of a string of digits in `radix`, most significant first. */
  function DigitsValue(z: string, radix: nat): nat
    requires forall i :: 0 <= i < |z| ==> DigitValue(z[i]) < radix
  {
    if z == [] then 0 else DigitsValue(z[..|z| - 1], radix) * radix + DigitValue(z[|z| - 1])
  }

  lemma {:induction false} NatDigitsValue(n: nat)
    ensures forall i :: 0 <= i < |NatDigits(n)| ==> DigitValue(NatDigits(n)[i]) < 10
    ensures DigitsValue(NatDigits(n), 10) == n
  {
    DigitCharValue(n % 10);
    if n >= 10 {
      NatDigitsValue(n / 10);
      var z := NatDigits(n);
      assert z[..|z| - 1] == NatDigits(n / 10);
    }
  }

  predicate IsDecimalDigit(c: char) {
    DigitValue(c) < 10
  }

  predicate IsHexDigit(c: char) {
    DigitValue(c) < 16
  }

  /**
   * `parseInt(s)` with no radix argument: leading white space is skipped, one
   * sign is read, and the rest is read by `ParseMagnitude`. `None` stands for
   * NaN.
   */
  function ParseInt(s: string): (r: Option<int>)
    ensures r.Some? ==> exists i :: 0 <= i < |s| && DigitValue(s[i]) < 16
  {
    var t := TrimStart(s);
    var negative := |t| > 0 && t[0] == '-';
    var u := if |t| > 0 && (t[0] == '-' || t[0] == '+') then t[1..] else t;
    match ParseMagnitude(u)
    case None => None
    case Some(m) =>
      assert u[0] == s[|s| - |u|];
      var v: int := if negative then -(m as int) else m;
      Some(v)
  }

  /**
   * The unsigned part of `parseInt`: a `0x`/`0X` prefix selects base 16,
   * otherwise base 10, and the longest prefix of digits of that base is
   * read; no digit at all gives `None`.
   */
  function ParseMagnitude(u: string): (r: Option<nat>)
    ensures r.Some? ==> |u| > 0 && DigitValue(u[0]) < 16
  {
    if |u| >= 2 && u[0] == '0' && (u[1] == 'x' || u[1] == 'X') then
      var v := u[2..];
      var k := RunLength(v, IsHexDigit);
      if k == 0 then None else Some(DigitsValue(v[..k], 16))
    else
      var k := RunLength(u, IsDecimalDigit);
      if k == 0 then None else Some(DigitsValue(u[..k], 10))
  }

  /** Text starting with neither white space nor a sign is read as an unsigned magnitude. */
  lemma ParseUnsigned(s: string)
    requires s != [] && !IsSpace(s[0]) && s[0] != '-' && s[0] != '+'
    ensures ParseMagnitude(s).None? ==> ParseInt(s).None?
    ensures ParseMagnitude(s).Some? ==> ParseInt(s) == Some(ParseMagnitude(s).value)
  {
    assert RunLength(s, IsSpace) == 0;
    assert TrimStart(s) == s;
  }

  /** Text starting with `-` is read as a negated magnitude. */
  lemma ParseNegative(s: string)
    requires s != [] && s[0] == '-'
    ensures ParseMagnitude(s[1..]).Some? ==> ParseInt(s) == Some(-(ParseMagnitude(s[1..]).value as int))
  {
    assert RunLength(s, IsSpace) == 0;
    assert TrimStart(s) == s;
  }

  /**
   * Text that starts with a decimal digit, other than `0x`, is read in base
   * 10 up to the first character that is not a decimal digit.
   */
  lemma DecimalRun(z: string, rest: string)
    requires z != [] && forall i :: 0 <= i < |z| ==> IsDigit(z[i])
    requires rest == [] || !IsDigit(rest[0])
    requires |z| == 1 ==> rest == [] || (rest[0] != 'x' && rest[0] != 'X')
    ensures forall i :: 0 <= i < |z| ==> DigitValue(z[i]) < 10
    ensures ParseMagnitude(z + rest) == Some(DigitsValue(z, 10))
  {
    var s := z + rest;
    assert forall i :: 0 <= i < |z| ==> IsDecimalDigit(z[i]);
    assert rest == [] || !IsDecimalDigit(rest[0]);
    RunLengthConcat(z, rest, IsDecimalDigit);
    assert s[..|z|] == z;
    assert !(|s| >= 2 && s[0] == '0' && (s[1] == 'x' || s[1] == 'X')) by {
      if |z| >= 2 {
        assert s[1] == z[1] && IsDigit(z[1]);
      } else if |s| >= 2 {
        assert s[1] == rest[0];
      }
    }
  }

  lemma ParseMagnitudeDigits(n: nat)
    ensures ParseMagnitude(NatDigits(n)) == Some(n)
  {
    var z := NatDigits(n);
    NatDigitsValue(n);
    DecimalRun(z, []);
    assert z + [] == z;
  }

  lemma ParseNatDigits(n: nat)
    ensures ParseInt(NatDigits(n)) == Some(n)
  {
    ParseMagnitudeDigits(n);
    var z := NatDigits(n);
    assert IsDigit(z[0]);
    ParseUnsigned(z);
  }

  lemma ParseNegativeDigits(m: nat)
    ensures ParseInt("-" + NatDigits(m)) == Some(-(m as int))
  {
    var z := NatDigits(m);
    ParseMagnitudeDigits(m);
    assert ("-" + z)[1..] == z;
    ParseNegative("-" + z);
  }

  /** Reading back what `Decimal` renders gives the number. */
  lemma ParseDecimal(n: int)
    ensures ParseInt(Decimal(n)) == Some(n)
  {
    var m: nat := if n < 0 then -n else n;
    if n < 0 {
      ParseNegativeDigits(m);
      assert Decimal(n) == "-" + NatDigits(m);
    } else {
      ParseNatDigits(m);
      assert Decimal(n) == NatDigits(m);
    }
  }

  /** A non-empty string of decimal digits is read whole, in base 10. */
  lemma ParseDigitString(z: string)
    requires |z| > 0 && forall i :: 0 <= i < |z| ==> IsDigit(z[i])
    ensures forall i :: 0 <= i < |z| ==> DigitValue(z[i]) < 10
    ensures ParseInt(z) == Some(DigitsValue(z, 10))
  {
    DecimalRun(z, []);
    assert z + [] == z;
    assert IsDigit(z[0]);
    ParseUnsigned(z);
  }

  lemma {:induction false} RunLengthAll(s: string, p: char -> bool)
    requires forall i :: 0 <= i < |s| ==> p(s[i])
    ensures RunLength(s, p) == |s|
    decreases |s|
  {
    if s != [] {
      RunLengthAll(s[1..], p);
    }
  }

  lemma {:induction false} RunLengthConcat(a: string, b: string, p: char -> bool)
    requires forall i :: 0 <= i < |a| ==> p(a[i])
    requires b == [] || !p(b[0])
    ensures RunLength(a + b, p) == |a|
    decreases |a|
  {
    if a != [] {
      assert (a + b)[1..] == a[1..] + b;
      RunLengthConcat(a[1..], b, p);
    } else {
      assert a + b == b;
    }
  }

  /** `parseInt` of a rendered count followed by a space and a unit reads the count back. */
  lemma ParseCountThenText(n: nat, rest: string)
    requires rest != [] && rest[0] == ' '
    ensures ParseInt(NatDigits(n) + rest) == Some(n)
  {
    var z := NatDigits(n);
    NatDigitsValue(n);
    DecimalRun(z, rest);
    var s := z + rest;
    assert s[0] == z[0] && IsDigit(z[0]);
    ParseUnsigned(s);
  }

  // ---------------------------------------------------------------------------
  // Array.prototype.slice
  // ---------------------------------------------------------------------------

  /** A relative index of `slice`: negative counts from the end; clamped to `[0, len]`. */
  function RelativeIndex(k: int, len: nat): (r: nat)
    ensures r <= len
    ensures 0 <= k <= len ==> r == k
    ensures k < 0 ==> r == (if len + k < 0 then 0 else len + k)
    ensures k > len ==> r == len
  {
    if k < 0 then (if len + k < 0 then 0 else len + k) else if k > len then len else k
  }

  /** `s.slice(start, end)`. */
  function Slice<T>(s: seq<T>, start: int, end: int): (r: seq<T>)
    ensures 0 <= start <= end <= |s| ==> r == s[start..end]
    ensures |r| <= |s|
  {
    var from := RelativeIndex(start, |s|);
    var to := RelativeIndex(end, |s|);
    if from < to then s[from..to] else []
  }
}

=== FILE: keywords.dfy ===
/**
 * Keyword search as the analysers use it: whether some listed word occurs,
 * the first listed word that occurs, the first rule of an ordered table that
 * applies, and how many listed words occur.
 */
module Keywords {
  import opened Wrappers
  import opened JsText

  /** Some listed word is contained in the text. */
  predicate AnyWord(words: seq<string>, text: string) {
    exists i :: 0 <= i < |words| && Contains(text, words[i])
  }

  lemma AnyWordSingle(w: string, text: string)
    ensures AnyWord([w], text) <==> Contains(text, w)
  {
    assert [w][0] == w;
  }

  /** The first listed word contained in the text. */
  function FirstMatch(words: seq<string>, text: string): (r: Option<string>)
    ensures r.None? <==> !AnyWord(words, text)
    ensures r.Some? ==> r.value in words && Contains(text, r.value)
    decreases |words|
  {
    if words == [] then None
    else if Contains(text, words[0]) then
      assert 0 < |words| && words[0] == words[0] && Contains(text, words[0]);
      Some(words[0])
    else
      var r := FirstMatch(words[1..], text);
      assert r.None? <==> !AnyWord(words, text) by {
        if AnyWord(words, text) {
          var i :| 0 <= i < |words| && Contains(text, words[i]);
          assert i > 0 && words[1..][i - 1] == words[i];
        }
        if AnyWord(words[1..], text) {
          var i :| 0 <= i < |words[1..]| && Contains(text, words[1..][i]);
          assert words[i + 1] == words[1..][i];
        }
      }
      r
  }

  /** The tag of the first rule with a contained word, or `None` when no rule applies. */
  function FirstRule<T>(rules: seq<(T, seq<string>)>, text: string): (r: Option<T>)
    ensures r.None? <==> forall k :: 0 <= k < |rules| ==> !AnyWord(rules[k].1, text)
    ensures r.Some? ==> exists k :: 0 <= k < |rules| && rules[k].0 == r.value && AnyWord(rules[k].1, text)
                                    && forall j :: 0 <= j < k ==> !AnyWord(rules[j].1, text)
    decreases |rules|
  {
    if rules == [] then None
    else if AnyWord(rules[0].1, text) then Some(rules[0].0)
    else
      var r := FirstRule(rules[1..], text);
      assert forall k :: 1 <= k < |rules| ==> rules[k] == rules[1..][k - 1];
      assert r.Some? ==> exists k :: 0 <= k < |rules| && rules[k].0 == r.value && AnyWord(rules[k].1, text)
                                     && forall j :: 0 <= j < k ==> !AnyWord(rules[j].1, text) by {
        if r.Some? {
          var k :| 0 <= k < |rules[1..]| && rules[1..][k].0 == r.value && AnyWord(rules[1..][k].1, text)
                   && forall j :: 0 <= j < k ==> !AnyWord(rules[1..][j].1, text);
          assert rules[k + 1] == rules[1..][k];
        }
      }
      r
  }

  /** How many of the listed words the text contains (each word once, however often it occurs). */
  function Count(words: seq<string>, text: string): (n: nat)
    ensures n <= |words|
  {
    if words == [] then 0
    else Count(words[..|words| - 1], text) + (if Contains(text, words[|words| - 1]) then 1 else 0)
  }

  /** The forEach loop that counts contained words. */
  method CountPresent(words: seq<string>, text: string) returns (n: nat)
    ensures n == Count(words, text)
  {
    n := 0;
    var i := 0;
    while i < |words|
      invariant 0 <= i <= |words|
      invariant n == Count(words[..i], text)
    {
      assert words[..i + 1][..i] == words[..i];
      if Contains(text, words[i]) {
        n := n + 1;
      }
      i := i + 1;
    }
    assert words[..|words|] == words;
  }

  /** The loop that stops at the first contained word. */
  method FindFirst(words: seq<string>, text: string) returns (m: Option<string>)
    ensures m == FirstMatch(words, text)
  {
    var w := 0;
    while w < |words|
      invariant 0 <= w <= |words|
      invariant FirstMatch(words, text) == FirstMatch(words[w..], text)
    {
      if Contains(text, words[w]) {
        return Some(words[w]);
      }
      assert words[w..][1..] == words[w + 1..];
      w := w + 1;
    }
    return None;
  }

  /** The first listed word the text contains is the one chosen. */
  lemma {:induction false} FirstMatchAt(words: seq<string>, text: string, k: nat)
    requires k < |words| && Contains(text, words[k])
    requires forall j :: 0 <= j < k ==> !Contains(text, words[j])
    ensures FirstMatch(words, text) == Some(words[k])
  {
    if k > 0 {
      assert !Contains(text, words[0]);
      forall j | 0 <= j < k - 1 ensures !Contains(text, words[1..][j]) {
        assert words[1..][j] == words[j + 1];
      }
      FirstMatchAt(words[1..], text, k - 1);
    }
  }

  /** The first applicable rule decides. */
  lemma FirstRuleAt<T>(rules: seq<(T, seq<string>)>, text: string, k: nat)
    requires k < |rules| && AnyWord(rules[k].1, text)
    requires forall j :: 0 <= j < k ==> !AnyWord(rules[j].1, text)
    ensures FirstRule(rules, text) == Some(rules[k].0)
  {
    var r := FirstRule(rules, text);
    var k' :| 0 <= k' < |rules| && rules[k'].0 == r.value && AnyWord(rules[k'].1, text)
              && forall j :: 0 <= j < k' ==> !AnyWord(rules[j].1, text);
    assert k' == k;
  }

  /** Two different listed words both occur in the text. */
  ghost predicate TwoOf(words: seq<string>, text: string) {
    exists i, j :: 0 <= i < j < |words| && Contains(text, words[i]) && Contains(text, words[j])
  }

  lemma {:induction false} CountPositive(words: seq<string>, text: string)
    ensures Count(words, text) >= 1 <==> AnyWord(words, text)
  {
    if words != [] {
      var p := words[..|words| - 1];
      CountPositive(p, text);
      if AnyWord(p, text) {
        var i :| 0 <= i < |p| && Contains(text, p[i]);
        assert words[i] == p[i];
      }
      if AnyWord(words, text) && !Contains(text, words[|words| - 1]) {
        var i :| 0 <= i < |words| && Contains(text, words[i]);
        assert p[i] == words[i];
      }
    }
  }

  /** The count reaches two exactly when two different listed words occur. */
  lemma {:induction false} CountTwo(words: seq<string>, text: string)
    ensures Count(words, text) >= 2 <==> TwoOf(words, text)
  {
    if words != [] {
      var p := words[..|words| - 1];
      var last := |words| - 1;
      CountTwo(p, text);
      CountPositive(p, text);
      if TwoOf(p, text) {
        var i, j :| 0 <= i < j < |p| && Contains(text, p[i]) && Contains(text, p[j]);
        assert words[i] == p[i] && words[j] == p[j];
      }
      if Count(words, text) >= 2 && !TwoOf(p, text) {
        var i :| 0 <= i < |p| && Contains(text, p[i]);
        assert words[i] == p[i];
        assert Contains(text, words[last]);
      }
      if TwoOf(words, text) {
        var i, j :| 0 <= i < j < |words| && Contains(text, words[i]) && Contains(text, words[j]);
        if j < last {
          assert p[i] == words[i] && p[j] == words[j];
        } else {
          assert p[i] == words[i];
        }
      }
    }
  }

  /** The positions of the list whose word occurs in the text. */
  ghost function Present(words: seq<string>, text: string): set<nat> {
    set i: nat | i < |words| && Contains(text, words[i])
  }

  lemma PresentSnoc(words: seq<string>, text: string)
    requires words != []
    ensures var last := |words| - 1;
            && Present(words, text)
               == Present(words[..last], text) + (if Contains(text, words[last]) then {last} else {})
            && last !in Present(words[..last], text)
  {
    var p := words[..|words| - 1];
    var last := |words| - 1;
    var rest := if Contains(text, words[last]) then {last} else {};
    forall i: nat ensures i in Present(words, text) <==> i in Present(p, text) + rest {
      if i < last {
        assert p[i] == words[i];
      }
    }
  }

  /** The count is the number of listed words that occur, each counted once however often it occurs. */
  lemma {:induction false} CountIsPresent(words: seq<string>, text: string)
    ensures Count(words, text) == |Present(words, text)|
  {
    if words == [] {
      assert Present(words, text) == {};
    } else {
      CountIsPresent(words[..|words| - 1], text);
      PresentSnoc(words, text);
    }
  }

  /** Counts only grow when every listed word found in `a` is also found in `b`. */
  lemma {:induction false} CountSubsumed(words: seq<string>, a: string, b: string)
    requires forall i :: 0 <= i < |words| && Contains(a, words[i]) ==> Contains(b, words[i])
    ensures Count(words, a) <= Count(words, b)
  {
    if words != [] {
      var p := words[..|words| - 1];
      forall i | 0 <= i < |p| && Contains(a, p[i]) ensures Contains(b, p[i]) {
        assert p[i] == words[i];
      }
      CountSubsumed(p, a, b);
    }
  }

  /** Lower-casing distributes over the concatenation, and words found before are found after appending. */
  lemma AppendKeepsWords(words: seq<string>, a: string, x: string)
    ensures Count(words, Lower(a)) <= Count(words, Lower(a + x))
  {
    LowerAppend(a, x);
    forall i | 0 <= i < |words| && Contains(Lower(a), words[i]) ensures Contains(Lower(a + x), words[i]) {
      ContainsExtend([], Lower(a), Lower(x), words[i]);
      assert [] + Lower(a) + Lower(x) == Lower(a + x);
    }
    CountSubsumed(words, Lower(a), Lower(a + x));
  }

}

=== FILE: mailservice.dfy ===
/**
 * The IMAP/SMTP mail service: which provider configuration it builds from
 * the environment, the search criteria and paging window of a mailbox
 * listing, the fixed demo-mode mailbox, the newest-first ordering of fetched
 * messages, and how a send is dispatched. The IMAP connection, the MIME
 * parser and the SMTP transport are outside the model: what they deliver
 * (search results, parsed messages, the transport's outcome) is a parameter.
 */
module MailService {
  import opened Wrappers
  import opened JsText
  import opened Json

  // ---------------------------------------------------------------------------
  // Configuration from the environment
  // ---------------------------------------------------------------------------

  /** `process.env[key]`: absent keys are undefined. */
  function Env(env: map<string, string>, key: string): (v: Option<string>)
    ensures v.Some? <==> key in env
    ensures v.Some? ==> v.value == env[key]
  {
    if key in env then Some(env[key]) else None
  }

  /** `EMAIL_SERVICE_TYPE || 'demo'`. */
  function ServiceType(env: map<string, string>): string {
    OrElse(Env(env, "EMAIL_SERVICE_TYPE"), "demo")
  }

  /** `parseInt(v) || d`: NaN and zero fall back to the default. */
  function PortOr(v: Option<string>, d: int): (r: int)
    ensures r == d || ParseInt(Coerce(v)) == Some(r)
    ensures r != 0 || d == 0
    ensures ParseInt(Coerce(v)).Some? && ParseInt(Coerce(v)).value != 0 ==> r == ParseInt(Coerce(v)).value
    ensures ParseInt(Coerce(v)).None? || ParseInt(Coerce(v)) == Some(0) ==> r == d
  {
    match ParseInt(Coerce(v))
    case Some(p) => if p == 0 then d else p
    case None => d
  }

  /** The connection settings handed to the IMAP client. */
  datatype ImapConfig = ImapConfig(
    user: Option<string>,
    password: Option<string>,
    host: Option<string>,
    port: int,
    tls: bool,
    rejectUnauthorized: bool)

  /** The settings the SMTP transporter is created from. */
  datatype SmtpConfig =
    | SmtpService(service: string, user: Option<string>, pass: Option<string>)
    | SmtpServer(host: Option<string>, port: int, secure: bool, user: Option<string>, pass: Option<string>)

  function GmailImap(env: map<string, string>): ImapConfig {
    ImapConfig(Env(env, "GMAIL_USER"), Env(env, "GMAIL_APP_PASSWORD"), Some("imap.gmail.com"), 993, true, false)
  }

  function OutlookImap(env: map<string, string>): ImapConfig {
    ImapConfig(
      Or(Env(env, "OUTLOOK_USER"), Env(env, "EMAIL_USER")),
      Or(Env(env, "OUTLOOK_PASSWORD"), Env(env, "EMAIL_PASSWORD")),
      Some(OrElse(Env(env, "OUTLOOK_IMAP_HOST"), "outlook.office365.com")),
      PortOr(Env(env, "OUTLOOK_IMAP_PORT"), 993),
      true, false)
  }

  function GenericImap(env: map<string, string>): ImapConfig {
    ImapConfig(
      Env(env, "EMAIL_USER"), Env(env, "EMAIL_PASSWORD"), Env(env, "IMAP_HOST"),
      PortOr(Env(env, "IMAP_PORT"), 993),
      Env(env, "IMAP_TLS") == Some("true"), false)
  }

  /** The IMAP configuration of a non-demo service, by provider. */
  function ImapFor(env: map<string, string>): ImapConfig {
    var kind := ServiceType(env);
    if kind == "gmail" then GmailImap(env)
    else if kind == "outlook" then OutlookImap(env)
    else GenericImap(env)
  }

  /** The SMTP configuration, which reads the provider with `'imap'` as its own default. */
  function SmtpFor(env: map<string, string>): SmtpConfig {
    var kind := OrElse(Env(env, "EMAIL_SERVICE_TYPE"), "imap");
    if kind == "gmail" then
      SmtpService("gmail", Env(env, "GMAIL_USER"), Env(env, "GMAIL_APP_PASSWORD"))
    else if kind == "outlook" then
      SmtpServer(
        Some(OrElse(Env(env, "OUTLOOK_SMTP_HOST"), "smtp-mail.outlook.com")),
        PortOr(Env(env, "OUTLOOK_SMTP_PORT"), 587), false,
        Or(Env(env, "OUTLOOK_USER"), Env(env, "EMAIL_USER")),
        Or(Env(env, "OUTLOOK_PASSWORD"), Env(env, "EMAIL_PASSWORD")))
    else
      SmtpServer(
        Env(env, "SMTP_HOST"), PortOr(Env(env, "SMTP_PORT"), 587),
        Env(env, "SMTP_SECURE") == Some("true"),
        Env(env, "EMAIL_USER"), Env(env, "EMAIL_PASSWORD"))
  }

  // ---------------------------------------------------------------------------
  // Listing: search criteria and paging window
  // ---------------------------------------------------------------------------

  datatype Criterion = All | Unseen | Since(date: string)

  /** The criteria of an IMAP search for the listing. */
  function Criteria(unreadOnly: bool, since: Option<string>): (c: seq<Criterion>)
    ensures |c| == (if Truthy(since) then 2 else 1)
    ensures c[0] == (if unreadOnly then Unseen else All)
    ensures Truthy(since) ==> c[1] == Since(since.value)
  {
    var first := if unreadOnly then Unseen else All;
    if Truthy(since) then [first, Since(since.value)] else [first]
  }

  /** Builds the criteria as the listing does: start from ALL, replace it by UNSEEN, push SINCE. */
  method SearchCriteria(unreadOnly: bool, since: Option<string>) returns (criteria: seq<Criterion>)
    ensures criteria == Criteria(unreadOnly, since)
  {
    criteria := [All];
    if unreadOnly {
      criteria := [Unseen];
    }
    if Truthy(since) {
      criteria := criteria + [Since(since.value)];
    }
  }

  function Reverse<T>(s: seq<T>): (r: seq<T>)
    ensures |r| == |s|
    ensures forall i :: 0 <= i < |s| ==> r[i] == s[|s| - 1 - i]
  {
    if s == [] then [] else Reverse(s[1..]) + [s[0]]
  }

  function Min(a: int, b: int): int {
    if a <= b then a else b
  }

  function Max(a: int, b: int): int {
    if a >= b then a else b
  }

  /**
   * The page of search results as the listing selects it: `slice` from
   * `max(n - offset - limit, 0)` to `n - offset`, newest first. A negative
   * end counts from the back of the list, as `slice` does.
   */
  function PageWindowAsWritten<T>(results: seq<T>, offset: int, limit: int): (r: seq<T>)
    ensures |r| <= |results|
    ensures 0 <= offset <= |results| && limit >= 0 ==>
              && |r| == Min(limit, |results| - offset)
              && forall i :: 0 <= i < |r| ==> r[i] == results[|results| - offset - 1 - i]
  {
    var n := |results|;
    var start := Max(n - offset - limit, 0);
    assert 0 <= offset <= n && limit >= 0 ==> Slice(results, start, n - offset) == results[start..n - offset];
    Reverse(Slice(results, start, n - offset))
  }

  /**
   * The page of search results for an offset and a limit that are not
   * negative: the results just before the last `offset` ones, newest
   * first, as many as the limit allows, and none once the offset passes
   * the end.
   */
  function PageWindow<T>(results: seq<T>, offset: int, limit: int): (r: seq<T>)
    ensures |r| <= |results|
    ensures offset >= 0 && limit >= 0 ==>
              && |r| == Min(limit, Max(|results| - offset, 0))
              && forall i :: 0 <= i < |r| ==> r[i] == results[|results| - offset - 1 - i]
  {
    if offset > |results| then [] else PageWindowAsWritten(results, offset, limit)
  }

  // ---------------------------------------------------------------------------
  // The demo mailbox
  // ---------------------------------------------------------------------------

  /** A demo message; its date is `hoursAgo` hours before the current time, its body is not modelled. */
  datatype DemoEmail = DemoEmail(
    id: string,
    messageId: string,
    fromName: string,
    fromAddress: string,
    toAddress: string,
    subject: string,
    hoursAgo: nat,
    isRead: bool)

  const HourMs: int := 3600000

  const DemoEmails: seq<DemoEmail> := [
    DemoEmail("1", "<demo1@example.com>", "王小明", "wang@abc-tech.com", "amber@company.com",
              "關於產品報價的討論", 2, false),
    DemoEmail("2", "<demo2@example.com>", "李美玲", "li@xyz-trade.com", "amber@company.com",
              "物流配送時間確認", 24, false),
    DemoEmail("3", "<demo3@example.com>", "陳雅婷", "chen@ghi-group.com", "amber@company.com",
              "新產品合作機會", 3, false),
    DemoEmail("4", "<demo4@example.com>", "張建國", "zhang@def-corp.com", "amber@company.com",
              "產品技術規格諮詢", 5, false),
    DemoEmail("5", "<demo5@example.com>", "劉經理", "liu@jkl-trading.com", "amber@company.com",
              "Re: 上月訂單進度", 12, true)
  ]

  /** The date of a demo message, in milliseconds, given the current time. */
  function DemoDate(e: DemoEmail, now: int): int {
    now - e.hoursAgo * HourMs
  }

  /** `demoEmails.slice(0, limit)`. */
  function GetDemoEmails(limit: int): (r: seq<DemoEmail>)
    ensures |r| <= |DemoEmails|
  {
    Slice(DemoEmails, 0, limit)
  }

  // ---------------------------------------------------------------------------
  // Ordering of fetched messages
  // ---------------------------------------------------------------------------

  /** A parsed message; `date` is its time in milliseconds. */
  datatype Message = Message(seqno: nat, messageId: Option<string>, subject: Option<string>, date: int)

  predicate NewestFirst(s: seq<Message>) {
    forall i, j :: 0 <= i < j < |s| ==> s[i].date >= s[j].date
  }

  /** Sorts the fetched messages in place, newest first. */
  method SortNewestFirst(a: array<Message>)
    modifies a
    ensures NewestFirst(a[..])
    ensures multiset(a[..]) == multiset(old(a[..]))
  {
    var i := 0;
    while i < a.Length
      invariant 0 <= i <= a.Length
      invariant NewestFirst(a[..i])
      invariant multiset(a[..]) == multiset(old(a[..]))
    {
      InsertNewest(a, i);
      i := i + 1;
    }
    assert a[..a.Length] == a[..];
  }

  /** Moves `a[i]` left past every older message, extending the sorted prefix by one. */
  method InsertNewest(a: array<Message>, i: nat)
    requires i < a.Length && NewestFirst(a[..i])
    modifies a
    ensures NewestFirst(a[..i + 1])
    ensures multiset(a[..]) == multiset(old(a[..]))
  {
    var j := i;
    while j > 0 && a[j - 1].date < a[j].date
      invariant 0 <= j <= i
      invariant forall p, q :: 0 <= p < q <= i && p != j && q != j ==> a[p].date >= a[q].date
      invariant forall q :: j < q <= i ==> a[j].date > a[q].date
      invariant multiset(a[..]) == multiset(old(a[..]))
    {
      Swap(a, j - 1, j);
      j := j - 1;
    }
  }

  /** Exchanges two messages. */
  method Swap(a: array<Message>, p: nat, q: nat)
    requires p < q < a.Length
    modifies a
    ensures a[..] == old(a[..])[p := old(a[q])][q := old(a[p])]
    ensures a[p] == old(a[q]) && a[q] == old(a[p])
    ensures forall k :: 0 <= k < a.Length && k != p && k != q ==> a[k] == old(a[k])
    ensures multiset(a[..]) == multiset(old(a[..]))
  {
    a[p], a[q] := a[q], a[p];
  }

  // ---------------------------------------------------------------------------
  // Sending
  // ---------------------------------------------------------------------------

  /** The fields a caller passes to `sendEmail`; `None` is undefined. */
  datatype OutgoingEmail = OutgoingEmail(
    to: Option<Json>,
    cc: Option<Json>,
    bcc: Option<Json>,
    subject: Option<Json>,
    text: Option<Json>,
    html: Option<Json>,
    attachments: Option<Json>,
    replyTo: Option<Json>,
    inReplyTo: Option<Json>)

  /** What is handed to the SMTP transporter. */
  datatype MailOptions = MailOptions(
    from: Option<string>,
    to: Option<Json>,
    cc: Option<Json>,
    bcc: Option<Json>,
    subject: Option<Json>,
    text: Option<Json>,
    html: Option<Json>,
    attachments: Json,
    replyTo: Json,
    inReplyTo: Json)

  /** What the transporter reports for a delivered message. */
  datatype TransportInfo = TransportInfo(messageId: Option<string>, response: Option<string>)

  datatype SendReply = SendReply(success: bool, messageId: Option<string>, response: Option<string>)

  /** The options built from the sender's user name and the caller's fields, with their defaults. */
  function MailOptionsFor(user: Option<string>, email: OutgoingEmail): MailOptions {
    MailOptions(
      user, email.to, email.cc, email.bcc, email.subject, email.text, email.html,
      email.attachments.GetOr(JArray([])),
      email.replyTo.GetOr(JNull),
      email.inReplyTo.GetOr(JNull))
  }

  const DemoResponse: string := "Demo email sent (simulated)"

  /** The message id of a simulated send at time `now`. */
  function DemoMessageId(now: int): string {
    "<demo-sent-" + Decimal(now) + "@example.com>"
  }

  // ---------------------------------------------------------------------------
  // The service
  // ---------------------------------------------------------------------------

  /** Where a listing comes from: the demo mailbox, or an IMAP fetch of a window of search results. */
  datatype Listing =
    | DemoListing(emails: seq<DemoEmail>)
    | ImapListing(folder: string, criteria: seq<Criterion>, window: seq<nat>)

  /** The options of a listing; `None` is undefined and takes the default. */
  datatype ListOptions = ListOptions(
    folder: Option<string>,
    limit: Option<int>,
    offset: Option<int>,
    unreadOnly: Option<bool>,
    since: Option<string>)

  class EmailService {
    var demoMode: bool
    var imapConfig: Option<ImapConfig>
    /** The configuration the SMTP transporter was created from. */
    var smtpConfig: Option<SmtpConfig>

    /** A demo service has no connection settings; any other has both. */
    ghost predicate Valid()
      reads this
    {
      if demoMode then imapConfig.None? && smtpConfig.None?
      else imapConfig.Some? && smtpConfig.Some?
    }

    constructor(env: map<string, string>)
      ensures Valid()
      ensures demoMode <==> ServiceType(env) == "demo"
      ensures !demoMode ==> imapConfig == Some(ImapFor(env)) && smtpConfig == Some(SmtpFor(env))
    {
      demoMode := false;
      imapConfig := None;
      smtpConfig := None;
      new;
      InitializeService(env);
    }

    /** Chooses demo mode or a provider, then sets up SMTP for a real provider. */
    method InitializeService(env: map<string, string>)
      modifies this
      ensures demoMode <==> ServiceType(env) == "demo"
      ensures demoMode ==> imapConfig == old(imapConfig) && smtpConfig == old(smtpConfig)
      ensures !demoMode ==> imapConfig == Some(ImapFor(env)) && smtpConfig == Some(SmtpFor(env))
    {
      var kind := OrElse(Env(env, "EMAIL_SERVICE_TYPE"), "demo");
      if kind == "demo" {
        demoMode := true;
        return;
      }
      demoMode := false;
      if kind == "gmail" {
        SetupGmail(env);
      } else if kind == "outlook" {
        SetupOutlook(env);
      } else {
        SetupGenericImap(env);
      }
      SetupSmtp(env);
    }

    method SetupGmail(env: map<string, string>)
      modifies this
      ensures imapConfig == Some(GmailImap(env))
      ensures demoMode == old(demoMode) && smtpConfig == old(smtpConfig)
    {
      imapConfig := Some(ImapConfig(Env(env, "GMAIL_USER"), Env(env, "GMAIL_APP_PASSWORD"),
                                    Some("imap.gmail.com"), 993, true, false));
    }

    method SetupOutlook(env: map<string, string>)
      modifies this
      ensures imapConfig == Some(OutlookImap(env))
      ensures demoMode == old(demoMode) && smtpConfig == old(smtpConfig)
    {
      var host := OrElse(Env(env, "OUTLOOK_IMAP_HOST"), "outlook.office365.com");
      imapConfig := Some(ImapConfig(
        Or(Env(env, "OUTLOOK_USER"), Env(env, "EMAIL_USER")),
        Or(Env(env, "OUTLOOK_PASSWORD"), Env(env, "EMAIL_PASSWORD")),
        Some(host), PortOr(Env(env, "OUTLOOK_IMAP_PORT"), 993), true, false));
    }

    method SetupGenericImap(env: map<string, string>)
      modifies this
      ensures imapConfig == Some(GenericImap(env))
      ensures demoMode == old(demoMode) && smtpConfig == old(smtpConfig)
    {
      imapConfig := Some(ImapConfig(
        Env(env, "EMAIL_USER"), Env(env, "EMAIL_PASSWORD"), Env(env, "IMAP_HOST"),
        PortOr(Env(env, "IMAP_PORT"), 993), Env(env, "IMAP_TLS") == Some("true"), false));
    }

    method SetupSmtp(env: map<string, string>)
      modifies this
      ensures smtpConfig == Some(SmtpFor(env))
      ensures demoMode == old(demoMode) && imapConfig == old(imapConfig)
    {
      var kind := OrElse(Env(env, "EMAIL_SERVICE_TYPE"), "imap");
      var config: SmtpConfig;
      if kind == "gmail" {
        config := SmtpService("gmail", Env(env, "GMAIL_USER"), Env(env, "GMAIL_APP_PASSWORD"));
      } else if kind == "outlook" {
        config := SmtpServer(
          Some(OrElse(Env(env, "OUTLOOK_SMTP_HOST"), "smtp-mail.outlook.com")),
          PortOr(Env(env, "OUTLOOK_SMTP_PORT"), 587), false,
          Or(Env(env, "OUTLOOK_USER"), Env(env, "EMAIL_USER")),
          Or(Env(env, "OUTLOOK_PASSWORD"), Env(env, "EMAIL_PASSWORD")));
      } else {
        config := SmtpServer(
          Env(env, "SMTP_HOST"), PortOr(Env(env, "SMTP_PORT"), 587),
          Env(env, "SMTP_SECURE") == Some("true"),
          Env(env, "EMAIL_USER"), Env(env, "EMAIL_PASSWORD"));
      }
      smtpConfig := Some(config);
    }

    /**
     * What a listing fetches: in demo mode the first `limit` demo messages
     * (offset, folder and filters play no part); otherwise the folder, the
     * search criteria and the window of the search results to fetch.
     */
    method FetchEmails(options: ListOptions, results: seq<nat>) returns (listing: Listing)
      ensures demoMode ==> listing == DemoListing(GetDemoEmails(options.limit.GetOr(50)))
      ensures !demoMode ==>
                && listing.ImapListing?
                && listing.folder == options.folder.GetOr("INBOX")
                && listing.criteria == Criteria(options.unreadOnly.GetOr(false), options.since)
                && listing.window == PageWindow(results, options.offset.GetOr(0), options.limit.GetOr(50))
    {
      var limit := options.limit.GetOr(50);
      if demoMode {
        return DemoListing(GetDemoEmails(limit));
      }
      var criteria := SearchCriteria(options.unreadOnly.GetOr(false), options.since);
      var window := PageWindow(results, options.offset.GetOr(0), limit);
      listing := ImapListing(options.folder.GetOr("INBOX"), criteria, window);
    }

    /**
     * Dispatches a send: demo mode simulates success and hands nothing to
     * the transporter; otherwise the built options go to the transporter,
     * whose outcome (`transport`) is passed back or rethrown.
     */
    method SendEmail(email: OutgoingEmail, now: int, transport: Result<TransportInfo, string>)
      returns (handed: Option<MailOptions>, r: Result<SendReply, string>)
      requires Valid()
      ensures demoMode ==> handed.None? && r == Ok(SendReply(true, Some(DemoMessageId(now)), Some(DemoResponse)))
      ensures !demoMode ==> handed == Some(MailOptionsFor(imapConfig.value.user, email))
      ensures !demoMode && transport.Ok? ==>
                r == Ok(SendReply(true, transport.value.messageId, transport.value.response))
      ensures !demoMode && transport.Err? ==> r == Err(transport.error)
    {
      if demoMode {
        handed := None;
        r := SendEmailDemo(now);
        return;
      }
      var options;
      options, r := SendEmailReal(email, transport);
      handed := Some(options);
    }

    method SendEmailDemo(now: int) returns (r: Result<SendReply, string>)
      ensures r == Ok(SendReply(true, Some(DemoMessageId(now)), Some(DemoResponse)))
    {
      r := Ok(SendReply(true, Some("<demo-sent-" + Decimal(now) + "@example.com>"), Some(DemoResponse)));
    }

    method SendEmailReal(email: OutgoingEmail, transport: Result<TransportInfo, string>)
      returns (options: MailOptions, r: Result<SendReply, string>)
      requires imapConfig.Some?
      ensures options == MailOptionsFor(imapConfig.value.user, email)
      ensures transport.Ok? ==> r == Ok(SendReply(true, transport.value.messageId, transport.value.response))
      ensures transport.Err? ==> r == Err(transport.error)
    {
      var attachments := if email.attachments.Some? then email.attachments.value else JArray([]);
      var replyTo := if email.replyTo.Some? then email.replyTo.value else JNull;
      var inReplyTo := if email.inReplyTo.Some? then email.inReplyTo.value else JNull;
      options := MailOptions(imapConfig.value.user, email.to, email.cc, email.bcc, email.subject,
                             email.text, email.html, attachments, replyTo, inReplyTo);
      match transport
      case Ok(info) => r := Ok(SendReply(true, info.messageId, info.response));
      case Err(e) => r := Err(e);
    }
  }
}

=== FILE: mailservice_props.dfy ===
/** What the mail service promises about its configuration, listings and sends. */
module MailServiceProperties {
  import opened Wrappers
  import opened JsText
  import opened Json
  import opened MailService

  // ---------------------------------------------------------------------------
  // Provider selection
  // ---------------------------------------------------------------------------

  /** Demo mode is chosen exactly when the provider is unset, empty or `demo`. */
  lemma DemoWhenUnset(env: map<string, string>)
    ensures ServiceType(env) == "demo" <==>
              || "EMAIL_SERVICE_TYPE" !in env
              || env["EMAIL_SERVICE_TYPE"] == ""
              || env["EMAIL_SERVICE_TYPE"] == "demo"
  {
  }

  /** Gmail reads from imap.gmail.com on port 993 over TLS and sends through the gmail service. */
  lemma GmailProvider(env: map<string, string>)
    requires ServiceType(env) == "gmail"
    ensures ImapFor(env).host == Some("imap.gmail.com") && ImapFor(env).port == 993 && ImapFor(env).tls
    ensures ImapFor(env).user == Env(env, "GMAIL_USER") && !ImapFor(env).rejectUnauthorized
    ensures SmtpFor(env) == SmtpService("gmail", Env(env, "GMAIL_USER"), Env(env, "GMAIL_APP_PASSWORD"))
  {
  }

  /** Outlook defaults its hosts to Office 365, uses TLS for IMAP and no implicit TLS for SMTP. */
  lemma OutlookProvider(env: map<string, string>)
    requires ServiceType(env) == "outlook"
    ensures ImapFor(env).host == Some(if Truthy(Env(env, "OUTLOOK_IMAP_HOST")) then env["OUTLOOK_IMAP_HOST"]
                                      else "outlook.office365.com")
    ensures ImapFor(env).tls && ImapFor(env).port == PortOr(Env(env, "OUTLOOK_IMAP_PORT"), 993)
    ensures ImapFor(env).user == (if Truthy(Env(env, "OUTLOOK_USER")) then Env(env, "OUTLOOK_USER")
                                  else Env(env, "EMAIL_USER"))
    ensures SmtpFor(env).SmtpServer? && !SmtpFor(env).secure
    ensures SmtpFor(env).host == Some(if Truthy(Env(env, "OUTLOOK_SMTP_HOST")) then env["OUTLOOK_SMTP_HOST"]
                                      else "smtp-mail.outlook.com")
    ensures SmtpFor(env).port == PortOr(Env(env, "OUTLOOK_SMTP_PORT"), 587)
  {
  }

  /** Any other provider takes its hosts from the environment; TLS is on only for the exact string `true`. */
  lemma GenericProvider(env: map<string, string>)
    requires ServiceType(env) != "demo" && ServiceType(env) != "gmail" && ServiceType(env) != "outlook"
    ensures ImapFor(env).host == Env(env, "IMAP_HOST") && ImapFor(env).port == PortOr(Env(env, "IMAP_PORT"), 993)
    ensures ImapFor(env).tls <==> "IMAP_TLS" in env && env["IMAP_TLS"] == "true"
    ensures SmtpFor(env).SmtpServer? && SmtpFor(env).host == Env(env, "SMTP_HOST")
    ensures SmtpFor(env).port == PortOr(Env(env, "SMTP_PORT"), 587)
    ensures SmtpFor(env).secure <==> "SMTP_SECURE" in env && env["SMTP_SECURE"] == "true"
  {
  }

  /**
   * SMTP reads the provider with a different default (`imap` rather than
   * `demo`), but it is only set up for a real provider, where both readings
   * agree: the gmail service is used exactly for the gmail provider.
   */
  lemma SmtpFollowsProvider(env: map<string, string>)
    requires ServiceType(env) != "demo"
    ensures SmtpFor(env).SmtpService? <==> ServiceType(env) == "gmail"
    ensures SmtpFor(env).SmtpServer? && SmtpFor(env).secure ==>
              ServiceType(env) != "outlook" && ServiceType(env) != "gmail"
  {
    assert OrElse(Env(env, "EMAIL_SERVICE_TYPE"), "imap") == ServiceType(env);
  }

  // ---------------------------------------------------------------------------
  // Port fallback
  // ---------------------------------------------------------------------------

  /** A port written in decimal is used, except zero, which falls back to the default. */
  lemma NumericPort(n: int, d: int)
    ensures PortOr(Some(Decimal(n)), d) == if n == 0 then d else n
  {
    ParseDecimal(n);
  }

  /** A port that does not start with white space, a sign or a digit is NaN and falls back to the default. */
  lemma NonNumericPort(s: string, d: int)
    requires s == [] || (!IsSpace(s[0]) && !IsDigit(s[0]) && s[0] != '+' && s[0] != '-')
    ensures PortOr(Some(s), d) == d
  {
    if s == [] {
      assert TrimStart(s) == s;
    } else {
      assert !IsDecimalDigit(s[0]);
      assert RunLength(s, IsDecimalDigit) == 0;
      ParseUnsigned(s);
    }
  }

  /** A missing port (read as the string `undefined`) falls back to the default. */
  lemma MissingPort(d: int)
    ensures PortOr(None, d) == d
  {
    NonNumericPort("undefined", d);
    assert Coerce(None) == Coerce(Some("undefined"));
  }

  // ---------------------------------------------------------------------------
  // Paging
  // ---------------------------------------------------------------------------

  /**
   * As written, an offset past the last result does not give an empty page:
   * the negative end of the slice counts from the back, so five results
   * with offset 7 give the three oldest.
   */
  lemma PageBeyondEndWraps()
    ensures PageWindowAsWritten([1, 2, 3, 4, 5], 7, 50) == [3, 2, 1]
  {
    assert Slice([1, 2, 3, 4, 5], 0, -2) == [1, 2, 3];
    assert Reverse([1, 2, 3]) == [3, 2, 1];
  }

  // ---------------------------------------------------------------------------
  // The demo mailbox
  // ---------------------------------------------------------------------------

  /**
   * A demo listing is a prefix of the five demo messages in their fixed
   * order: the first `limit` of them, or all but the last `-limit` for a
   * negative limit.
   */
  lemma DemoPrefix(limit: int)
    ensures GetDemoEmails(limit) == DemoEmails[..RelativeIndex(limit, |DemoEmails|)]
    ensures limit >= 0 ==> |GetDemoEmails(limit)| == Min(limit, 5)
  {
  }

  /** Only the last demo message is read, and the ids run from 1 to 5. */
  lemma DemoMailbox()
    ensures |DemoEmails| == 5
    ensures forall i :: 0 <= i < |DemoEmails| ==> (DemoEmails[i].isRead <==> i == 4)
    ensures forall i :: 0 <= i < |DemoEmails| ==> DemoEmails[i].id == Decimal(i + 1)
  {
    assert Decimal(1) == "1" && Decimal(2) == "2" && Decimal(3) == "3";
    assert Decimal(4) == "4" && Decimal(5) == "5";
  }

  /**
   * Demo listings are not sorted by date: the second demo message (a day
   * old) comes before the third (three hours old).
   */
  lemma DemoNotNewestFirst(now: int)
    ensures DemoDate(DemoEmails[1], now) < DemoDate(DemoEmails[2], now)
  {
  }

  // ---------------------------------------------------------------------------
  // Ordering and sending
  // ---------------------------------------------------------------------------

  /** After sorting, the first message is at least as new as every other. */
  lemma NewestComesFirst(s: seq<Message>, m: Message)
    requires NewestFirst(s) && m in s
    ensures s[0].date >= m.date
  {
    var k :| 0 <= k < |s| && s[k] == m;
    if k > 0 {
      assert s[0].date >= s[k].date;
    }
  }

  /**
   * The mail options carry the sender's user name and the caller's fields
   * unchanged; absent attachments become an empty list, absent reply
   * headers become null.
   */
  lemma MailOptionsDefaults(user: Option<string>, email: OutgoingEmail)
    ensures var o := MailOptionsFor(user, email);
            && o.from == user && o.to == email.to && o.cc == email.cc && o.bcc == email.bcc
            && o.subject == email.subject && o.text == email.text && o.html == email.html
            && o.attachments == (if email.attachments.None? then JArray([]) else email.attachments.value)
            && o.replyTo == (if email.replyTo.None? then JNull else email.replyTo.value)
            && o.inReplyTo == (if email.inReplyTo.None? then JNull else email.inReplyTo.value)
  {
  }
}

=== FILE: notes.dfy ===
/**
 * The client-side note taker (`AINotesManager`): a second, simpler rule set
 * over the raw email text (single-word triggers, a 100-character summary),
 * a store of notes keyed by email id that keeps first-insertion order, and
 * the relative date shown in the mail list (`formatDate`).
 */
module Notes {
  import opened Wrappers
  import opened JsText
  import opened Keywords

  // ---------------------------------------------------------------------------
  // Data model
  // ---------------------------------------------------------------------------

  datatype Sentiment = Urgent | Positive | Neutral

  datatype Priority = High | Medium | Low

  datatype Action = SendQuote | ScheduleMeeting | ConfirmInfo | ReviewAndReply {
    function Label(): string {
      match this
      case SendQuote => "準備並發送報價單"
      case ScheduleMeeting => "安排會議時間"
      case ConfirmInfo => "確認相關資訊"
      case ReviewAndReply => "查看並回覆郵件"
    }
  }

  /** One note; `timestamp` is the clock reading at analysis time, given by the caller. */
  datatype Note = Note(
    summary: string,
    keyPoints: seq<string>,
    sentiment: Sentiment,
    priority: Priority,
    suggestedAction: Action,
    timestamp: string)

  // ---------------------------------------------------------------------------
  // Rules
  // ---------------------------------------------------------------------------

  const SummaryLength: nat := 100

  /** `content.substring(0, 100) + '...'`: the ellipsis is added even to short content. */
  function ExtractSummary(content: string): (r: string)
    ensures |r| == (if |content| < SummaryLength then |content| else SummaryLength) + 3
    ensures r[..|r| - 3] == content[..|r| - 3] && r[|r| - 3..] == "..."
  {
    content[..if |content| < SummaryLength then |content| else SummaryLength] + "..."
  }

  const KeyPointWords: seq<string> := ["價格", "數量", "交貨", "折扣", "截止", "緊急"]
  const KeyPointPrefix: string := "包含關鍵詞："

  /** The entries for the listed words that occur, in list order. */
  function KeyPointsIn(words: seq<string>, content: string): seq<string> {
    if words == [] then []
    else
      var last := words[|words| - 1];
      KeyPointsIn(words[..|words| - 1], content) + (if Contains(content, last) then [KeyPointPrefix + last] else [])
  }

  /** The forEach loop that pushes one entry per contained keyword. */
  method ExtractKeyPoints(content: string) returns (points: seq<string>)
    ensures points == KeyPointsIn(KeyPointWords, content)
  {
    points := [];
    var i := 0;
    while i < |KeyPointWords|
      invariant 0 <= i <= |KeyPointWords|
      invariant points == KeyPointsIn(KeyPointWords[..i], content)
    {
      assert KeyPointWords[..i + 1][..i] == KeyPointWords[..i];
      if Contains(content, KeyPointWords[i]) {
        points := points + [KeyPointPrefix + KeyPointWords[i]];
      }
      i := i + 1;
    }
    assert KeyPointWords[..|KeyPointWords|] == KeyPointWords;
  }

  const UrgentWords: seq<string> := ["緊急", "立即", "儘快", "截止"]
  const PositiveWords: seq<string> := ["感謝", "高興", "期待", "滿意"]

  /** Any urgent word wins over positive words; otherwise any positive word; otherwise neutral. */
  function AnalyzeSentiment(content: string): (r: Sentiment)
    ensures r == Urgent <==> AnyWord(UrgentWords, content)
    ensures r == Positive <==> !AnyWord(UrgentWords, content) && AnyWord(PositiveWords, content)
  {
    if AnyWord(UrgentWords, content) then Urgent
    else if AnyWord(PositiveWords, content) then Positive
    else Neutral
  }

  const PriorityWords: seq<string> := ["緊急", "立即", "今天", "截止"]

  /**
   * Priority from the number `n` of distinct urgent keywords present
   * (`urgentKeywords.filter(k => content.includes(k)).length`): two or more
   * high, one medium, none low.
   */
  function CalculatePriority(content: string): (r: Priority)
    ensures var n := |Present(PriorityWords, content)|;
            && (r == High <==> n >= 2)
            && (r == Medium <==> n == 1)
            && (r == Low <==> !AnyWord(PriorityWords, content))
  {
    CountIsPresent(PriorityWords, content);
    CountPositive(PriorityWords, content);
    var score := Count(PriorityWords, content);
    if score >= 2 then High
    else if score == 1 then Medium
    else Low
  }

  const ActionRules: seq<(Action, seq<string>)> := [
    (SendQuote, ["報價"]),
    (ScheduleMeeting, ["會議"]),
    (ConfirmInfo, ["確認"])
  ]

  /** `報價` is checked first, then `會議`, then `確認`; none of them gives "review and reply". */
  function SuggestAction(content: string): (r: Action)
    ensures Contains(content, "報價") ==> r == SendQuote
    ensures !Contains(content, "報價") && Contains(content, "會議") ==> r == ScheduleMeeting
    ensures !Contains(content, "報價") && !Contains(content, "會議") && Contains(content, "確認") ==> r == ConfirmInfo
    ensures !Contains(content, "報價") && !Contains(content, "會議") && !Contains(content, "確認") ==> r == ReviewAndReply
  {
    AnyWordSingle("報價", content);
    AnyWordSingle("會議", content);
    AnyWordSingle("確認", content);
    if Contains(content, "報價") then
      FirstRuleAt(ActionRules, content, 0);
      SendQuote
    else if Contains(content, "會議") then
      FirstRuleAt(ActionRules, content, 1);
      ScheduleMeeting
    else if Contains(content, "確認") then
      FirstRuleAt(ActionRules, content, 2);
      ConfirmInfo
    else
      ReviewAndReply
  }

  // ---------------------------------------------------------------------------
  // The note store
  // ---------------------------------------------------------------------------

  /** A note store: the JavaScript `Map` as its entries and the order of first insertion. */
  class NotesManager {
    var notes: map<string, Note>
    var order: seq<string>

    /** Every id appears once in the order, and exactly the stored ids appear. */
    ghost predicate Valid()
      reads this
    {
      (forall i, j :: 0 <= i < j < |order| ==> order[i] != order[j])
      && (forall id :: id in notes <==> id in order)
    }

    constructor()
      ensures Valid()
      ensures notes == map[] && order == []
    {
      notes := map[];
      order := [];
    }

    /** Runs the five rules, stores the note under `emailId` and returns it. */
    method AnalyzeEmail(emailId: string, emailContent: string, timestamp: string) returns (note: Note)
      requires Valid()
      modifies this
      ensures Valid()
      ensures note == Note(ExtractSummary(emailContent), KeyPointsIn(KeyPointWords, emailContent),
                           AnalyzeSentiment(emailContent), CalculatePriority(emailContent),
                           SuggestAction(emailContent), timestamp)
      ensures notes == old(notes)[emailId := note]
      ensures GetNotes(emailId) == Some(note)
      ensures forall id :: id != emailId ==> GetNotes(id) == old(GetNotes(id))
      ensures order == if emailId in old(notes) then old(order) else old(order) + [emailId]
    {
      var keyPoints := ExtractKeyPoints(emailContent);
      note := Note(ExtractSummary(emailContent), keyPoints, AnalyzeSentiment(emailContent),
                   CalculatePriority(emailContent), SuggestAction(emailContent), timestamp);
      if emailId !in notes {
        order := order + [emailId];
      }
      notes := notes[emailId := note];
    }

    /** `this.notes.get(emailId)`; `None` is `undefined`. */
    function GetNotes(emailId: string): (r: Option<Note>)
      reads this
      ensures r.Some? <==> emailId in notes
      ensures r.Some? ==> r.value == notes[emailId]
    {
      if emailId in notes then Some(notes[emailId]) else None
    }

    /** `Array.from(this.notes.entries())`: one pair per stored id, in first-insertion order. */
    method GetAllNotes() returns (entries: seq<(string, Note)>)
      requires Valid()
      ensures |entries| == |order| == |notes|
      ensures forall i :: 0 <= i < |entries| ==> entries[i].0 == order[i] && entries[i].1 == notes[order[i]]
      ensures forall i, j :: 0 <= i < j < |entries| ==> entries[i].0 != entries[j].0
    {
      entries := [];
      var i := 0;
      while i < |order|
        invariant 0 <= i <= |order|
        invariant |entries| == i
        invariant forall k :: 0 <= k < i ==> entries[k].0 == order[k] && entries[k].1 == notes[order[k]]
      {
        entries := entries + [(order[i], notes[order[i]])];
        i := i + 1;
      }
      DistinctOrderSize(order, notes.Keys);
    }
  }

  /** A duplicate-free listing of a set has the set's size. */
  lemma {:induction false} DistinctOrderSize(order: seq<string>, keys: set<string>)
    requires forall i, j :: 0 <= i < j < |order| ==> order[i] != order[j]
    requires forall id :: id in keys <==> id in order
    ensures |order| == |keys|
  {
    if order != [] {
      var last := order[|order| - 1];
      var p := order[..|order| - 1];
      forall id ensures id in keys - {last} <==> id in p {
        if id in p {
          var k :| 0 <= k < |p| && p[k] == id;
          assert order[k] == id;
        }
        if id in keys - {last} {
          var k :| 0 <= k < |order| && order[k] == id;
          assert k < |p| && p[k] == id;
        }
      }
      DistinctOrderSize(p, keys - {last});
    } else {
      assert forall id :: id !in keys;
      assert keys == {};
    }
  }

  // ---------------------------------------------------------------------------
  // formatDate
  // ---------------------------------------------------------------------------

  const Minute: int := 60000
  const Hour: int := 3600000
  const Day: int := 86400000

  /** The relative date shown for an elapsed time; the locale date itself is the browser's. */
  datatype Relative = JustNow | MinutesAgo(minutes: int) | HoursAgo(hours: int) | DaysAgo(days: int) | LocaleDate

  /**
   * The relative date for `elapsed = now - date` in milliseconds (negative
   * for a future date); `Math.floor` of a quotient by a positive constant is
   * Dafny's `/`.
   */
  function Describe(elapsed: int): (r: Relative)
    ensures r == JustNow <==> elapsed < Minute
    ensures r.MinutesAgo? <==> Minute <= elapsed < Hour
    ensures r.HoursAgo? <==> Hour <= elapsed < Day
    ensures r.DaysAgo? <==> Day <= elapsed < 7 * Day
    ensures r == LocaleDate <==> elapsed >= 7 * Day
    ensures r.MinutesAgo? ==> 1 <= r.minutes < 60 && r.minutes * Minute <= elapsed < (r.minutes + 1) * Minute
    ensures r.HoursAgo? ==> 1 <= r.hours < 24 && r.hours * Hour <= elapsed < (r.hours + 1) * Hour
    ensures r.DaysAgo? ==> 1 <= r.days < 7 && r.days * Day <= elapsed < (r.days + 1) * Day
  {
    var minutes := elapsed / Minute;
    var hours := elapsed / Hour;
    var days := elapsed / Day;
    if minutes < 1 then JustNow
    else if minutes < 60 then MinutesAgo(minutes)
    else if hours < 24 then HoursAgo(hours)
    else if days < 7 then DaysAgo(days)
    else LocaleDate
  }

  /**
   * The text shown; `localeDate` is what `toLocaleDateString('zh-TW')`
   * gives. Under a minute is "just now", a week or more the locale date;
   * in between, the number shown reads back with `parseInt` as the whole
   * minutes, hours or days elapsed.
   */
  function FormatDate(elapsed: int, localeDate: string): (r: string)
    ensures elapsed < Minute ==> r == "剛剛"
    ensures elapsed >= 7 * Day ==> r == localeDate
    ensures Minute <= elapsed < Hour ==> r == Decimal(elapsed / Minute) + " 分鐘前"
    ensures Hour <= elapsed < Day ==> r == Decimal(elapsed / Hour) + " 小時前"
    ensures Day <= elapsed < 7 * Day ==> r == Decimal(elapsed / Day) + " 天前"
    ensures Minute <= elapsed < Hour ==> ParseInt(r) == Some(elapsed / Minute)
    ensures Hour <= elapsed < Day ==> ParseInt(r) == Some(elapsed / Hour)
    ensures Day <= elapsed < 7 * Day ==> ParseInt(r) == Some(elapsed / Day)
  {
    match Describe(elapsed)
    case JustNow => "剛剛"
    case MinutesAgo(m) => ParseCountThenText(m, " 分鐘前"); Decimal(m) + " 分鐘前"
    case HoursAgo(h) => ParseCountThenText(h, " 小時前"); Decimal(h) + " 小時前"
    case DaysAgo(d) => ParseCountThenText(d, " 天前"); Decimal(d) + " 天前"
    case LocaleDate => localeDate
  }
}

=== FILE: notes_props.dfy ===
/** What the client-side rules and `formatDate` promise. */
module NotesProperties {
  import opened Wrappers
  import opened JsText
  import opened Keywords
  import opened Notes

  /** Appending an entry not yet present keeps a list free of duplicates. */
  lemma AppendFresh(s: seq<string>, x: string)
    requires forall i, j :: 0 <= i < j < |s| ==> s[i] != s[j]
    requires x !in s
    ensures var t := s + [x]; forall i, j :: 0 <= i < j < |t| ==> t[i] != t[j]
  {
    var t := s + [x];
    forall i, j | 0 <= i < j < |t| ensures t[i] != t[j] {
      if j < |s| {
        assert t[i] == s[i] && t[j] == s[j];
      } else {
        assert t[i] in s;
      }
    }
  }

  /**
   * Key points: one entry `包含關鍵詞：k` for exactly the listed words `k`
   * that occur, in list order, so as many entries as words present and no
   * entry twice when the words are distinct.
   */
  lemma {:induction false} KeyPointsInShape(words: seq<string>, content: string)
    ensures var r := KeyPointsIn(words, content);
            |r| == Count(words, content)
            && (forall e :: e in r <==> exists k :: 0 <= k < |words| && Contains(content, words[k]) && e == KeyPointPrefix + words[k])
            && ((forall i, j :: 0 <= i < j < |words| ==> words[i] != words[j]) ==>
                  forall i, j :: 0 <= i < j < |r| ==> r[i] != r[j])
  {
    if words != [] {
      var p := words[..|words| - 1];
      var last := words[|words| - 1];
      KeyPointsInShape(p, content);
      var r := KeyPointsIn(words, content);
      var rp := KeyPointsIn(p, content);
      forall e ensures e in r <==> exists k :: 0 <= k < |words| && Contains(content, words[k]) && e == KeyPointPrefix + words[k] {
        if e in rp {
          var k :| 0 <= k < |p| && Contains(content, p[k]) && e == KeyPointPrefix + p[k];
          assert words[k] == p[k];
        }
        if exists k :: 0 <= k < |words| && Contains(content, words[k]) && e == KeyPointPrefix + words[k] {
          var k :| 0 <= k < |words| && Contains(content, words[k]) && e == KeyPointPrefix + words[k];
          if k < |p| {
            assert p[k] == words[k];
          }
        }
      }
      if (forall i, j :: 0 <= i < j < |words| ==> words[i] != words[j]) && Contains(content, last) {
        assert forall i, j :: 0 <= i < j < |p| ==> p[i] != p[j] by {
          forall i, j | 0 <= i < j < |p| ensures p[i] != p[j] {
            assert p[i] == words[i] && p[j] == words[j];
          }
        }
        forall e | e in rp ensures e != KeyPointPrefix + last {
          var k :| 0 <= k < |p| && Contains(content, p[k]) && e == KeyPointPrefix + p[k];
          assert p[k] == words[k] != last;
          assert e[|KeyPointPrefix|..] == p[k];
          assert (KeyPointPrefix + last)[|KeyPointPrefix|..] == last;
        }
        assert r == rp + [KeyPointPrefix + last];
        AppendFresh(rp, KeyPointPrefix + last);
      }
    }
  }

  /** The six client keywords give one entry each when present, none twice, six at most. */
  lemma KeyPointsRule(content: string)
    ensures var r := KeyPointsIn(KeyPointWords, content);
            |r| <= 6
            && (forall k :: 0 <= k < |KeyPointWords| ==> (KeyPointPrefix + KeyPointWords[k] in r <==> Contains(content, KeyPointWords[k])))
            && (forall i, j :: 0 <= i < j < |r| ==> r[i] != r[j])
  {
    assert forall i, j :: 0 <= i < j < |KeyPointWords| ==> KeyPointWords[i] != KeyPointWords[j];
    KeyPointsInShape(KeyPointWords, content);
    var r := KeyPointsIn(KeyPointWords, content);
    forall k | 0 <= k < |KeyPointWords| && KeyPointPrefix + KeyPointWords[k] in r
      ensures Contains(content, KeyPointWords[k])
    {
      var k' :| 0 <= k' < |KeyPointWords| && Contains(content, KeyPointWords[k']) && KeyPointPrefix + KeyPointWords[k] == KeyPointPrefix + KeyPointWords[k'];
      assert (KeyPointPrefix + KeyPointWords[k])[|KeyPointPrefix|..] == KeyPointWords[k];
      assert (KeyPointPrefix + KeyPointWords[k'])[|KeyPointPrefix|..] == KeyPointWords[k'];
    }
  }

  /** Any urgent word makes the note urgent, positive words notwithstanding. */
  lemma UrgentWinsOverPositive(content: string, k: nat)
    requires k < |UrgentWords| && Contains(content, UrgentWords[k])
    ensures AnalyzeSentiment(content) == Urgent
  {
  }

  /** Position of a relative date on the scale just now < minutes < hours < days < locale date. */
  function Scale(r: Relative): nat {
    match r
    case JustNow => 0
    case MinutesAgo(_) => 1
    case HoursAgo(_) => 2
    case DaysAgo(_) => 3
    case LocaleDate => 4
  }

  /** An older date is never shown as more recent. */
  lemma DescribeMonotone(e1: int, e2: int)
    requires e1 <= e2
    ensures Scale(Describe(e1)) <= Scale(Describe(e2))
    ensures Describe(e1).MinutesAgo? && Describe(e2).MinutesAgo? ==> Describe(e1).minutes <= Describe(e2).minutes
    ensures Describe(e1).HoursAgo? && Describe(e2).HoursAgo? ==> Describe(e1).hours <= Describe(e2).hours
    ensures Describe(e1).DaysAgo? && Describe(e2).DaysAgo? ==> Describe(e1).days <= Describe(e2).days
  {
  }
}

=== FILE: patterns.dfy ===
/**
 * Hand-written scanners for the regular expressions of the analysis service.
 * Each follows JavaScript's backtracking semantics: the leftmost position
 * that matches wins, alternatives are tried in order, and quantifiers are
 * greedy.
 */
module Patterns {
  import opened Wrappers
  import opened JsText

  // ---------------------------------------------------------------------------
  // content.replace(/<[^>]*>/g, '')
  // ---------------------------------------------------------------------------

  /** No `<` is followed, anywhere later, by a `>`: nothing left looks like a tag. */
  ghost predicate TagFree(s: string) {
    forall i, j :: 0 <= i < j < |s| && s[i] == '<' ==> s[j] != '>'
  }

  /** Index of the first `c` in `s`, or `|s|` when there is none. */
  function IndexOf(s: string, c: char): (k: nat)
    ensures k <= |s|
    ensures k < |s| ==> s[k] == c
    ensures k == |s| <==> c !in s
  {
    RunLength(s, x => x != c)
  }

  lemma TagFreeCons(c: char, r: string)
    requires TagFree(r)
    requires c == '<' ==> '>' !in r
    ensures TagFree([c] + r)
  {
    var s := [c] + r;
    forall i, j | 0 <= i < j < |s| && s[i] == '<'
      ensures s[j] != '>'
    {
      assert s[j] == r[j - 1];
      if i > 0 {
        assert s[i] == r[i - 1];
      } else {
        assert r[j - 1] in r;
      }
    }
  }

  /**
   * Every tag match is removed: at a `<` with a `>` somewhere after it, the
   * text up to and including the first such `>` is dropped; a `<` with no
   * `>` after it is not a match and is kept.
   */
  function StripTags(s: string): (r: string)
    ensures forall c :: c in r ==> c in s
    ensures TagFree(r)
    decreases |s|
  {
    if s == [] then []
    else
      var k := IndexOf(s[1..], '>');
      if s[0] == '<' && k < |s| - 1 then
        var r := StripTags(s[k + 2..]);
        assert forall c :: c in s[k + 2..] ==> c in s;
        r
      else
        var r := StripTags(s[1..]);
        assert forall c :: c in s[1..] ==> c in s;
        TagFreeCons(s[0], r);
        [s[0]] + r
  }

  /** Text without a tag is left untouched, so stripping twice strips nothing more. */
  lemma {:induction false} StripTagFree(s: string)
    requires TagFree(s)
    ensures StripTags(s) == s
    decreases |s|
  {
    if s != [] {
      TagFreeSlice(s, 1, |s|);
      var k := IndexOf(s[1..], '>');
      if s[0] == '<' && k < |s| - 1 {
        assert false;
      }
      StripTagFree(s[1..]);
    }
  }

  lemma StripTagsIdempotent(s: string)
    ensures StripTags(StripTags(s)) == StripTags(s)
  {
    StripTagFree(StripTags(s));
  }

  // ---------------------------------------------------------------------------
  // .replace(/\s+/g, ' ').trim()
  // ---------------------------------------------------------------------------

  /** No two adjacent white-space characters. */
  ghost predicate NoDoubleSpace(s: string) {
    forall i :: 0 <= i < |s| - 1 ==> !(IsSpace(s[i]) && IsSpace(s[i + 1]))
  }

  /** Neither the first nor the last character is white space. */
  ghost predicate Trimmed(s: string) {
    s == [] || (!IsSpace(s[0]) && !IsSpace(s[|s| - 1]))
  }

  /** Every maximal run of white space replaced by one space. */
  function Collapse(s: string): (r: string)
    ensures |r| == 0 <==> |s| == 0
    ensures |s| > 0 ==> r[0] == (if IsSpace(s[0]) then ' ' else s[0])
    ensures NoDoubleSpace(r)
    ensures forall i :: 0 <= i < |r| && IsSpace(r[i]) ==> r[i] == ' '
    ensures forall c :: c in r && c != ' ' ==> c in s
    decreases |s|
  {
    if s == [] then []
    else if IsSpace(s[0]) then
      var rest := s[RunLength(s, IsSpace)..];
      assert forall c :: c in rest ==> c in s;
      [' '] + Collapse(rest)
    else
      assert forall c :: c in s[1..] ==> c in s;
      [s[0]] + Collapse(s[1..])
  }

  /** `s` with its trailing white space removed. */
  function TrimEnd(s: string): (r: string)
    ensures |r| <= |s| && r == s[..|r|]
    ensures r == [] || !IsSpace(r[|r| - 1])
    ensures forall i :: |r| <= i < |s| ==> IsSpace(s[i])
    decreases |s|
  {
    if s != [] && IsSpace(s[|s| - 1]) then TrimEnd(s[..|s| - 1]) else s
  }

  /** `s.trim()`. */
  function Trim(s: string): (r: string)
    ensures Trimmed(r)
  {
    var t := TrimStart(s);
    var r := TrimEnd(t);
    assert r != [] ==> r[0] == t[0];
    r
  }

  /** The text the summary is cut from: tags stripped, white space collapsed, trimmed. */
  function Clean(s: string): string {
    Trim(Collapse(StripTags(s)))
  }

  /** The non-white-space characters of `s`, in order. */
  function NonSpace(s: string): string {
    if s == [] then [] else (if IsSpace(s[0]) then [] else [s[0]]) + NonSpace(s[1..])
  }

  lemma {:induction false} NonSpaceAppend(a: string, b: string)
    ensures NonSpace(a + b) == NonSpace(a) + NonSpace(b)
    decreases |a|
  {
    if a == [] {
      assert a + b == b;
    } else {
      var h := if IsSpace(a[0]) then [] else [a[0]];
      assert (a + b)[1..] == a[1..] + b;
      assert NonSpace(a + b) == h + NonSpace(a[1..] + b);
      NonSpaceAppend(a[1..], b);
    }
  }

  lemma {:induction false} NonSpaceOfSpaces(s: string)
    requires forall i :: 0 <= i < |s| ==> IsSpace(s[i])
    ensures NonSpace(s) == []
    decreases |s|
  {
    if s != [] {
      NonSpaceOfSpaces(s[1..]);
    }
  }

  lemma NonSpaceDrop(s: string, k: nat)
    requires k <= |s|
    requires forall i :: 0 <= i < k ==> IsSpace(s[i])
    ensures NonSpace(s[k..]) == NonSpace(s)
  {
    assert s == s[..k] + s[k..];
    NonSpaceAppend(s[..k], s[k..]);
    NonSpaceOfSpaces(s[..k]);
  }

  lemma {:induction false} CollapseKeepsText(s: string)
    ensures NonSpace(Collapse(s)) == NonSpace(s)
    decreases |s|
  {
    if s != [] {
      if IsSpace(s[0]) {
        var n := RunLength(s, IsSpace);
        CollapseKeepsText(s[n..]);
        NonSpaceDrop(s, n);
        assert ([' '] + Collapse(s[n..]))[1..] == Collapse(s[n..]);
      } else {
        CollapseKeepsText(s[1..]);
        assert ([s[0]] + Collapse(s[1..]))[1..] == Collapse(s[1..]);
      }
    }
  }

  lemma TrimKeepsText(s: string)
    ensures NonSpace(Trim(s)) == NonSpace(s)
  {
    var n := RunLength(s, IsSpace);
    var r := Trim(s);
    TrimSlice(s);
    var m := n + |r|;
    NonSpaceDrop(s, n);
    assert s[n..] == r + s[m..];
    NonSpaceAppend(r, s[m..]);
    NonSpaceOfSpaces(s[m..]);
  }

  lemma TagFreeSlice(s: string, i: nat, j: nat)
    requires TagFree(s) && i <= j <= |s|
    ensures TagFree(s[i..j])
  {
    var t := s[i..j];
    forall k, l | 0 <= k < l < |t| && t[k] == '<' ensures t[l] != '>' {
      assert t[k] == s[i + k] && t[l] == s[i + l];
    }
  }

  lemma {:induction false} CollapseTagFree(s: string)
    requires TagFree(s)
    ensures TagFree(Collapse(s))
    decreases |s|
  {
    if s != [] {
      if IsSpace(s[0]) {
        var n := RunLength(s, IsSpace);
        TagFreeSlice(s, n, |s|);
        CollapseTagFree(s[n..]);
        TagFreeCons(' ', Collapse(s[n..]));
      } else {
        TagFreeSlice(s, 1, |s|);
        CollapseTagFree(s[1..]);
        if s[0] == '<' {
          forall j | 0 <= j < |s| - 1 ensures s[1..][j] != '>' {
            assert s[1..][j] == s[j + 1];
          }
        }
        TagFreeCons(s[0], Collapse(s[1..]));
      }
    }
  }

  lemma NoDoubleSpaceSlice(s: string, i: nat, j: nat)
    requires NoDoubleSpace(s) && i <= j <= |s|
    ensures NoDoubleSpace(s[i..j])
  {
    var t := s[i..j];
    forall k | 0 <= k < |t| - 1 ensures !(IsSpace(t[k]) && IsSpace(t[k + 1])) {
      assert t[k] == s[i + k] && t[k + 1] == s[i + k + 1];
    }
  }

  /** `trim` takes a slice: the text after the leading white space, up to the trailing white space. */
  lemma TrimSlice(c: string)
    ensures var n := RunLength(c, IsSpace);
            && n + |Trim(c)| <= |c| && Trim(c) == c[n..n + |Trim(c)|]
            && forall i :: n + |Trim(c)| <= i < |c| ==> IsSpace(c[i])
  {
    var n := RunLength(c, IsSpace);
    var t := TrimStart(c);
    var r := TrimEnd(t);
    assert r == t[..|r|];
    forall i | n + |r| <= i < |c| ensures IsSpace(c[i]) {
      assert c[i] == t[i - n];
    }
  }

  lemma TrimKeepsTagFree(c: string)
    requires TagFree(c)
    ensures TagFree(Trim(c))
  {
    var n := RunLength(c, IsSpace);
    TrimSlice(c);
    TagFreeSlice(c, n, n + |Trim(c)|);
  }

  lemma TrimKeepsSingleSpace(c: string)
    requires NoDoubleSpace(c)
    ensures NoDoubleSpace(Trim(c))
  {
    var n := RunLength(c, IsSpace);
    TrimSlice(c);
    NoDoubleSpaceSlice(c, n, n + |Trim(c)|);
  }

  /** What the cleaned text of a summary is: tag-free, single-spaced, trimmed, and the same visible text. */
  lemma CleanProperties(s: string)
    ensures TagFree(Clean(s))
    ensures NoDoubleSpace(Clean(s))
    ensures Trimmed(Clean(s))
    ensures NonSpace(Clean(s)) == NonSpace(StripTags(s))
  {
    var t := StripTags(s);
    var c := Collapse(t);
    CollapseTagFree(t);
    TrimKeepsTagFree(c);
    TrimKeepsSingleSpace(c);
    TrimKeepsText(c);
    CollapseKeepsText(t);
    assert Clean(s) == Trim(c);
  }

  // ---------------------------------------------------------------------------
  // cleanText.match(/\d+[,.]?\d*/g)
  // ---------------------------------------------------------------------------

  /** Shape of one match: digits, then at most one `,` or `.`, then digits. */
  ghost predicate NumberShaped(t: string) {
    var d := RunLength(t, IsDigit);
    d >= 1 && (d == |t| || ((t[d] == ',' || t[d] == '.') && forall i :: d < i < |t| ==> IsDigit(t[i])))
  }

  /** Length of the greedy match that starts at a digit. */
  function NumberTokenLength(s: string): (k: nat)
    requires s != [] && IsDigit(s[0])
    ensures 1 <= k <= |s| && NumberShaped(s[..k])
  {
    var d := RunLength(s, IsDigit);
    assert RunLength(s[..d], IsDigit) == d by { RunLengthPrefix(s, d); }
    if d < |s| && (s[d] == ',' || s[d] == '.') then
      var e := RunLength(s[d + 1..], IsDigit);
      assert RunLength(s[..d + 1 + e], IsDigit) == d by { RunLengthPrefix(s, d + 1 + e); }
      d + 1 + e
    else
      d
  }

  lemma {:induction false} RunLengthPrefix(s: string, k: nat)
    requires RunLength(s, IsDigit) <= k <= |s|
    ensures RunLength(s[..k], IsDigit) == RunLength(s, IsDigit)
    decreases |s|
  {
    if s != [] && IsDigit(s[0]) {
      assert s[..k][1..] == s[1..][..k - 1];
      RunLengthPrefix(s[1..], k - 1);
    }
  }

  /** A word contained in a suffix is contained in the whole text. */
  lemma ContainsSuffix(s: string, k: nat, t: string)
    requires k <= |s| && Contains(s[k..], t)
    ensures Contains(s, t)
  {
    ContainsExtend(s[..k], s[k..], [], t);
    assert s[..k] + s[k..] + [] == s;
  }

  lemma NoDigitsAfterFirst(s: string)
    requires s != [] && !IsDigit(s[0])
    requires forall i :: 0 <= i < |s| - 1 ==> !IsDigit(s[1..][i])
    ensures forall i :: 0 <= i < |s| ==> !IsDigit(s[i])
  {
    forall i | 0 < i < |s| ensures !IsDigit(s[i]) {
      assert s[i] == s[1..][i - 1];
    }
  }

  /** All matches of the global number pattern, left to right. */
  function NumberTokens(s: string): (r: seq<string>)
    ensures r == [] <==> forall i :: 0 <= i < |s| ==> !IsDigit(s[i])
    ensures forall t :: t in r ==> NumberShaped(t) && Contains(s, t)
    decreases |s|
  {
    if s == [] then []
    else if IsDigit(s[0]) then
      var k := NumberTokenLength(s);
      var rest := NumberTokens(s[k..]);
      assert OccursAt(s, s[..k], 0);
      forall t | t in rest ensures Contains(s, t) {
        ContainsSuffix(s, k, t);
      }
      [s[..k]] + rest
    else
      var rest := NumberTokens(s[1..]);
      if rest == [] then
        NoDigitsAfterFirst(s);
        []
      else
        forall t | t in rest ensures Contains(s, t) {
          ContainsSuffix(s, 1, t);
        }
        rest
  }

  /** The greedy match is the longest number-shaped prefix: no longer prefix has the shape. */
  lemma NumberTokenLongest(s: string, k: nat)
    requires s != [] && IsDigit(s[0])
    requires NumberTokenLength(s) < k <= |s|
    ensures !NumberShaped(s[..k])
  {
    RunLengthPrefix(s, k);
  }

  /** A text starting with a digit yields the greedy match there, then the matches of the rest. */
  lemma NumberTokensAtDigit(s: string)
    requires s != [] && IsDigit(s[0])
    ensures var k := NumberTokenLength(s);
            NumberTokens(s) == [s[..k]] + NumberTokens(s[k..])
  {
  }

  /** A leading non-digit is skipped. */
  lemma NumberTokensSkip(s: string)
    requires s != [] && !IsDigit(s[0])
    ensures NumberTokens(s) == NumberTokens(s[1..])
  {
  }

  /** Leading non-digits are skipped. */
  lemma {:induction false} NumberTokensSkipPrefix(s: string, p: nat)
    requires p <= |s| && forall i :: 0 <= i < p ==> !IsDigit(s[i])
    ensures NumberTokens(s) == NumberTokens(s[p..])
    decreases p
  {
    if p == 0 {
      assert s[0..] == s;
    } else {
      var u := s[1..];
      NumberTokensSkip(s);
      assert forall i :: 0 <= i < p - 1 ==> u[i] == s[i + 1];
      NumberTokensSkipPrefix(u, p - 1);
      assert u[p - 1..] == s[p..];
    }
  }

  /**
   * The first match starts at the first digit and is the greedy match
   * there; the later matches are those of the text after it.
   */
  lemma NumberTokensFrom(s: string, p: nat)
    requires p < |s| && IsDigit(s[p])
    requires forall i :: 0 <= i < p ==> !IsDigit(s[i])
    ensures var t := s[p..];
            var k := NumberTokenLength(t);
            NumberTokens(s) == [t[..k]] + NumberTokens(t[k..])
  {
    NumberTokensSkipPrefix(s, p);
    NumberTokensAtDigit(s[p..]);
  }

  // ---------------------------------------------------------------------------
  // content.match(/\$?\d{4,}|\d+[kKmM]/g) is non-empty
  // ---------------------------------------------------------------------------

  predicate IsMagnitude(c: char) {
    c == 'k' || c == 'K' || c == 'm' || c == 'M'
  }

  /** Length of the match of `\$?\d{4,}|\d+[kKmM]` that starts at `t[0]`, if any. */
  function LargeAmountAt(t: string): (r: Option<nat>)
    ensures r.Some? ==> 1 <= r.value <= |t|
  {
    var p := if |t| > 0 && t[0] == '$' then 1 else 0;
    var d := RunLength(t[p..], IsDigit);
    if d >= 4 then Some(p + d)
    else
      var e := RunLength(t, IsDigit);
      if e >= 1 && e < |t| && IsMagnitude(t[e]) then Some(e + 1) else None
  }

  /** Four digits in a row at `i`. */
  ghost predicate FourDigitsAt(s: string, i: int) {
    0 <= i && i + 4 <= |s| && IsDigit(s[i]) && IsDigit(s[i + 1]) && IsDigit(s[i + 2]) && IsDigit(s[i + 3])
  }

  /** A digit followed by one of `kKmM` at `i`. */
  ghost predicate DigitMagnitudeAt(s: string, i: int) {
    0 <= i && i + 1 < |s| && IsDigit(s[i]) && IsMagnitude(s[i + 1])
  }

  ghost predicate LargeAt(s: string, i: int) {
    FourDigitsAt(s, i) || DigitMagnitudeAt(s, i)
  }

  lemma LargeAmountAtMeaning(s: string)
    ensures LargeAmountAt(s).Some? ==> exists i :: LargeAt(s, i)
    ensures LargeAt(s, 0) ==> LargeAmountAt(s).Some?
  {
    var p := if |s| > 0 && s[0] == '$' then 1 else 0;
    var d := RunLength(s[p..], IsDigit);
    var e := RunLength(s, IsDigit);
    if d >= 4 {
      assert FourDigitsAt(s, p) by {
        assert s[p] == s[p..][0] && s[p + 1] == s[p..][1] && s[p + 2] == s[p..][2] && s[p + 3] == s[p..][3];
      }
      assert LargeAt(s, p);
    } else if e >= 1 && e < |s| && IsMagnitude(s[e]) {
      assert DigitMagnitudeAt(s, e - 1);
      assert LargeAt(s, e - 1);
    }
    if FourDigitsAt(s, 0) {
      assert p == 0;
      assert RunLength(s[p..], IsDigit) >= 4 by {
        assert s[p..] == s;
      }
    }
  }

  /** Whether the global pattern finds any match: a scan over every starting position. */
  function HasLargeAmount(s: string): (b: bool)
    ensures b <==> exists i :: LargeAt(s, i)
    decreases |s|
  {
    LargeAmountAtMeaning(s);
    if LargeAmountAt(s).Some? then true
    else if s == [] then false
    else
      var b := HasLargeAmount(s[1..]);
      assert b ==> exists i :: LargeAt(s, i) by {
        if b {
          var i :| LargeAt(s[1..], i);
          assert LargeAt(s, i + 1);
        }
      }
      assert (exists i :: LargeAt(s, i)) ==> b by {
        if exists i :: LargeAt(s, i) {
          var i :| LargeAt(s, i);
          assert i != 0;
          assert LargeAt(s[1..], i - 1);
        }
      }
      b
  }

  /** Text added on either side cannot remove a large amount. */
  lemma LargeAmountExtend(a: string, s: string, b: string)
    requires HasLargeAmount(s)
    ensures HasLargeAmount(a + s + b)
  {
    var i :| LargeAt(s, i);
    var t := a + s + b;
    assert t[|a| + i] == s[i] && t[|a| + i + 1] == s[i + 1];
    if FourDigitsAt(s, i) {
      assert t[|a| + i + 2] == s[i + 2] && t[|a| + i + 3] == s[i + 3];
    }
    assert LargeAt(t, |a| + i);
  }

  lemma LargeAmountAppend(s: string, x: string)
    requires HasLargeAmount(s)
    ensures HasLargeAmount(s + x)
  {
    LargeAmountExtend([], s, x);
    assert [] + s + x == s + x;
  }

  // ---------------------------------------------------------------------------
  // content.match(/\$[\d,]+|\d+[kKmM]|[\d,]+\s*元/g)[0]
  // ---------------------------------------------------------------------------

  predicate IsDigitOrComma(c: char) {
    IsDigit(c) || c == ','
  }

  /**
   * Length of the match of `\$[\d,]+|\d+[kKmM]|[\d,]+\s*元` that starts at
   * `t[0]`, the alternatives tried in order. Greedy runs never need to give
   * back: a shorter `\d+` ends before a digit, not a suffix letter, and a
   * shorter `[\d,]+` or `\s*` ends before a digit, comma or space, not `元`.
   */
  function AmountAt(t: string): (r: Option<nat>)
    ensures r.Some? ==> 1 <= r.value <= |t|
  {
    if |t| >= 2 && t[0] == '$' && IsDigitOrComma(t[1]) then
      Some(1 + RunLength(t[1..], IsDigitOrComma))
    else
      var e := RunLength(t, IsDigit);
      if e >= 1 && e < |t| && IsMagnitude(t[e]) then Some(e + 1)
      else
        var d := RunLength(t, IsDigitOrComma);
        var w := RunLength(t[d..], IsSpace);
        if d >= 1 && d + w < |t| && t[d + w] == '元' then Some(d + w + 1) else None
  }

  /** An amount match starts at index `j` of `s`. */
  predicate AmountStartsAt(s: string, j: nat)
    requires j <= |s|
  {
    AmountAt(s[j..]).Some?
  }

  /** The leftmost index at or after `from` where a match starts. */
  function FindAmount(s: string, from: nat): (r: Option<nat>)
    requires from <= |s|
    ensures r.Some? ==> from <= r.value <= |s| && AmountStartsAt(s, r.value)
    ensures forall j :: from <= j <= |s| && AmountStartsAt(s, j) ==> r.Some? && r.value <= j
    decreases |s| - from
  {
    if AmountStartsAt(s, from) then Some(from)
    else if from == |s| then None
    else FindAmount(s, from + 1)
  }

  /** The token matched at `i` when a match starts there. */
  function AmountToken(s: string, i: nat): (t: string)
    requires i <= |s| && AmountStartsAt(s, i)
    ensures 1 <= |t| <= |s| - i && t == s[i..i + |t|]
  {
    s[i..i + AmountAt(s[i..]).value]
  }

  /** The first amount token of the text (the first element of the global match), if any. */
  function FirstAmount(s: string): (r: Option<string>)
    ensures r.Some? ==> exists i :: 0 <= i <= |s| && AmountStartsAt(s, i) && r.value == AmountToken(s, i)
                                  && forall j :: 0 <= j < i ==> !AmountStartsAt(s, j)
    ensures r.None? <==> forall j :: 0 <= j <= |s| ==> !AmountStartsAt(s, j)
  {
    var found := FindAmount(s, 0);
    if found.Some? then Some(AmountToken(s, found.value)) else None
  }
}

=== FILE: wrappers.dfy ===
/** Optional values and error results shared by every module. */
module Wrappers {

  /** A JavaScript value that may be `undefined`: `None` is the absent value. */
  datatype Option<+T> = None | Some(value: T) {
    function GetOr(default: T): T {
      match this
      case Some(v) => v
      case None => default
    }
  }

  /** The outcome of an operation that either returns a value or throws. */
  datatype Result<+R, +E> = Ok(value: R) | Err(error: E)
}
